=== FILE: README.md ===
# Lachesis event-graph cores in Dafny

This project models the three cores of the Lachesis repository that decide
what an event of the DAG "sees" and when it becomes a root:

- **`inputs/event.go`**: the Go event record. Its main operation computes the
  *highest-events vector*. This is a per-validator vector clock merged from
  the event's parents, plus equivocation ("fork") flags. The code has
  two branches:
  - the *root branch* runs for a first event or a nil index. It seeds the
    vector with the event itself and its found parents.
  - the *general branch* runs otherwise. It records each found parent and
    merges in that parent's vector.

  Two fork passes then follow. In the first, an event of the same creator
  at the same sequence number and epoch flags the creator. In the second, a
  parent whose own creator is flagged passes the flag on. Modules
  `DagEvent` and `DagEventProperties`.
- **`PyLachesis/lachesis.py`**: the single-instance engine `Lachesis`. It
  runs, per event:
  - `detect_forks`: self-citations, repeated parents, non-increasing
    sequence numbers;
  - the "highest observed" merge and the "lowest observing" breadth-first
    walk;
  - `check_for_roots`: frames and roots by forkless cause against a 2/3+1
    quorum;
  - `atropos_voting`: the Atropos election.

  Module `LachesisEngine`.
- **`PyLachesis/refactor.py`**: the refactored engine. Events are named by
  uuid here.
  - `quorum` first confirms suspected cheaters whose observers hold a
    quorum. It then discounts validators whose timestamps are stale.
  - `detect_forks` walks the ancestors, recording the sequence numbers seen
    per creator.
  - Both "highest" dictionaries are pointwise-max merges.
  - `set_roots` and `is_root` assign frames; `atropos_voting` sorts its
    candidates by key.
  - Modules: `RefactorEngine` holds the quorum, roots and voting.
    `RefactorWalks` holds the ancestor walks, the merges and the
    `process_events` loop body.

Module `Weights` holds what both Python engines share: set sums of weights,
the `2 * total // 3 + 1` quorum and the pointwise-max merge. `Wrappers`
holds `Option` and `Result`.

### How the model is built

**State.** Each Python engine is a pure function over an immutable `State`
datatype that holds the instance fields the pipeline touches. Python's
in-place mutation of event objects becomes an update of the event map:
- keyed by `(creator, seq)` in `lachesis.py`;
- keyed by uuid in `refactor.py`.

A lookup that can raise becomes either a precondition or a
`Result.Failure`:
- a `KeyError` on a root set of a frame that has none is a `Failure`;
- a missing parent is a precondition.

**Iteration order.**
- Go map iteration order is unspecified. A Go `Events` value is therefore a
  sequence of pairs (`None` is the nil map), and lemmas over all orders say
  where the result depends on the order.
- Python set iteration order is fixed once by `VisitOrder`. The contracts
  that use it hold for every order.

**No-failure theorems.** Each Python engine has an all-inputs lemma that
processing an admissible event never raises:
- `LachesisEngine.ProcessEventSucceeds`;
- `RefactorWalks.ProcessEventSucceeds`.

Each one carries an invariant on the frames:
- `FramesValid` for `lachesis.py`;
- `FramesOK` for `refactor.py`: root sets are numbered from 1 without gaps.

`RefactorWalks.ProcessEventSucceeds` also carries the soundness of fork
blame, `ForkSound`: every listed, suspected or confirmed cheater really
has two stored events at the same sequence number. It also carries
`RootsFramed`: every root set has its frame's quorum cached and every root
in it carries that frame. In such a state the `is_root` sum asks only for
cached quorums, so `RefactorEngine.IsRootRule` states the root rule exactly.

### Where the model follows the code as written

- **Go self-observation.** In the Go general branch the event's own entry
  is never written: `ScenarioSecondEvent` records the self-parent, and
  `OwnIdNeverWritten` shows the event's own id is never written.
- **Go fork inheritance.** The Go code takes a fork flag only from a
  parent's own creator's entry, not transitively through the parent's
  vector: see `ScenarioForkNotPropagated`.
- **Go root rule.** The quorum rule of Go `SetRoot` is an empty branch, so
  only first events become roots there.
- **Lowest-walk guard in `refactor.py`.** The guard reads
  `event.validator not in self.validator_cheater_list[event.validator]`.
  It tests whether the walking validator lists *itself*; it does not test
  the ancestor's creator. It is modelled as written (`RefactorWalks.Admits`).
- **Vote majority.**
  - `lachesis.py` votes "yes" when yes weight `>=` no weight.
  - `refactor.py` requires `>`.

  Each engine is modelled with its own comparison.
- **Store time in `refactor.py`.** The code stores an event in
  `uuid_event_dict` after its steps; the model stores it first. Before the
  steps, the event's ancestors are all stored under other uuids, so no
  walk or merge can reach the new uuid. The early store only lets
  `set_roots` and the election name the new root by uuid, as the code does
  by object reference.

## Model

| member | source | states |
|---|---|---|
| DagEvent.SelfParent | inputs/event.go:66-72 | There is no self-parent exactly for a first event or an event without parents; otherwise it is the first parent. |
| DagEvent.MergeVector | inputs/event.go:103-111 | Merging a parent's vector raises each validator's seq to the maximum of the two and keeps every fork flag. An entry takes the parent's event id exactly when the parent's seq is strictly higher. Each recorded entry comes from the old vector or from the parent's. |
| DagEvent.SeedEntries | inputs/event.go:84-92 | The root-branch loop only adds keys and never raises a fork flag. |
| DagEvent.AdoptParent | inputs/event.go:97-111 | Adopting one found parent (own entry, then its vector) never raises a fork flag. |
| DagEvent.AdoptEntries | inputs/event.go:94-115 | The general-branch loop over the index and the parents never raises a fork flag. |
| DagEvent.MarkFork | inputs/event.go:121-124 | Flagging one validator sets only that validator's fork flag, creating a zero entry if absent, and leaves every event id and seq as it was. |
| DagEvent.FlagSiblings | inputs/event.go:118-126 | After the first fork pass, a validator is flagged iff it was already flagged or it is the creator and the index holds another event of the creator at the same seq and epoch. Ids and seqs do not change. |
| DagEvent.InheritForks | inputs/event.go:127-139 | After the second fork pass, a validator is flagged iff it was already flagged or some found parent created by it flags itself. Ids and seqs do not change, and a new entry is zero data. |
| DagEvent.BaseVector | inputs/event.go:76-116 | Before the fork passes no entry is flagged, and the root branch always records the creator. |
| DagEvent.HighestEventsVector | inputs/event.go:75-140 | A nil index gives exactly the event's own entry. A later event against an empty index gives an empty vector. A first event records its creator. A validator is flagged exactly on a same-seq sibling of the creator or a self-flagging parent created by it. |
| DagEvent.SetHighestEventsVector | inputs/event.go:75-77 | Replaces the event's vector by the computed one and changes no other field. |
| DagEvent.SetEvent | inputs/event.go:62-64 | Adding an event changes only its vector; with a nil index the vector is the event's own entry. |
| DagEvent.SetRoot | inputs/event.go:142-151 | An event is a root afterwards iff it is a creator's first event or already was one; nothing else changes. |
| DagEventProperties.SetRootIdempotent | inputs/event.go:142-151 | Marking roots twice is marking them once, and a root keeps its flag. |
| DagEventProperties.KnownParents | inputs/event.go:84-139 | Filtering the parents keeps exactly the occurrences of ids the index holds. |
| DagEventProperties.SeedEntriesOnKeys | inputs/event.go:84-92 | The root-branch loop depends only on how often each indexed key occurs among the parents. |
| DagEventProperties.AdoptEntriesOnKeys | inputs/event.go:94-115 | The general-branch loop depends only on how often each indexed key occurs among the parents. |
| DagEventProperties.InheritForksOnKeys | inputs/event.go:128-139 | The inheritance pass depends only on how often each indexed key occurs among the parents. |
| DagEventProperties.FlagSiblingsIgnoresParents | inputs/event.go:119-126 | The sibling pass does not read the event's parents. |
| DagEventProperties.MissingParentsIgnored | inputs/event.go:84-139 | Dropping the parents absent from the index leaves the computed vector unchanged: unknown parents are skipped silently. |
| DagEventProperties.AdoptEntriesTraceable | inputs/event.go:94-115 | Every entry the general-branch loop writes is zero data or was copied from a found parent or from that parent's vector. |
| DagEventProperties.GeneralBranchTraceable | inputs/event.go:93-139 | In the general branch every recorded (event id, seq) is zero data or comes from a found parent or its vector. |
| DagEventProperties.OwnIdNeverWritten | inputs/event.go:93-116 | The general branch never records the event's own id unless a found parent is stored under it or mentions it. |
| DagEventProperties.AdoptHigherAfter | inputs/event.go:97-111 | Adopting a parent whose vector saw validator A at seq 3 after one at seq 1 records seq 3 for A. |
| DagEventProperties.AdoptLowerAfter | inputs/event.go:97-101 | In the opposite order the parent's own entry is overwritten unconditionally and A drops back to seq 1. |
| DagEventProperties.GeneralBranchDependsOnOrder | inputs/event.go:94-111 | The same event and index yield different vectors under two iteration orders of the Go map. |
| DagEventProperties.ScenarioFirstEvent | inputs/event.go:80-92 | A first event against an empty index observes only itself and is a root. |
| DagEventProperties.ScenarioSecondEvent | inputs/event.go:93-116 | A second event records its self-parent for its creator, not itself, and is not a root. |
| DagEventProperties.ScenarioForkDetected | inputs/event.go:118-126 | Two events of V1 at seq 2 of epoch 1: the second one flags V1. |
| DagEventProperties.ScenarioForkInherited | inputs/event.go:127-139 | An event citing a parent whose creator flags itself inherits the flag. |
| DagEventProperties.ScenarioForkNotPropagated | inputs/event.go:127-139 | The flag is not carried a second hop: inheritance reads only a parent's own creator. |
| Weights.Quorum | PyLachesis/lachesis.py:258-264 | The quorum is the least weight strictly above two thirds of the total, and never exceeds a positive total. |
| Weights.RaiseTo | PyLachesis/refactor.py:436-440 | Raising one key yields the maximum of the old and new values at that key and changes no other key. |
| Weights.MaxMerge | PyLachesis/refactor.py:442-447 | Merging a dictionary in yields, for every key, the maximum of the two values, whatever order the loop visits the keys in. |
| LachesisEngine.Start | PyLachesis/lachesis.py:466-472 | The engine after set-up is well-formed and has consistent frames, with exactly the given validators and weights and no events. |
| LachesisEngine.GetQuorum | PyLachesis/lachesis.py:258-264 | A cached frame's quorum is returned unchanged. A miss caches the least weight strictly above two thirds of the total. The cache only grows. |
| LachesisEngine.HighestFold | PyLachesis/lachesis.py:267-291 | After the loop over the parents, each validator's entry is the maximum of the old entry and what the non-cheater parents show for it. |
| LachesisEngine.SetHighest | PyLachesis/lachesis.py:266-291 | Only the event's "highest observed" dictionary changes, and each entry becomes the maximum of its old value and what the parents show. |
| LachesisEngine.Penalize | PyLachesis/lachesis.py:298-324 | Flagged validators join the cheaters with weight zero; other weights and fields stay. |
| LachesisEngine.DuplicatesFlagged | PyLachesis/lachesis.py:303-307 | A validator is flagged for duplicates iff it is the creator of some parent id that occurs more than once; so some creator is flagged iff some parent id repeats. |
| LachesisEngine.DetectForksReports | PyLachesis/lachesis.py:293-326 | A fork is reported iff the event cites itself, repeats a parent id, or has a seq not above its creator's last recorded seq. |
| LachesisEngine.DetectForksAdvancesSeq | PyLachesis/lachesis.py:314-324 | Only the creator's last seq moves, never down, and afterwards it is at least the event's seq. |
| LachesisEngine.DetectForksReplay | PyLachesis/lachesis.py:314-324 | Handing the same event over twice is reported as a fork and makes its creator a cheater of weight zero. |
| LachesisEngine.DetectForksKeepsCheaters | PyLachesis/lachesis.py:293-326 | A cheater stays a cheater with weight zero, and a non-cheater's weight is untouched. |
| LachesisEngine.ForklessCause | PyLachesis/lachesis.py:328-340 | Forkless cause is false when either creator is a cheater. Otherwise it holds iff the weight of the validators on which b's first observer is no later than what a has seen reaches the quorum of b's frame. |
| LachesisEngine.ForklessCauseMonotone | PyLachesis/lachesis.py:328-340 | If a forkless-causes b, so does any event of the same creator that has seen at least as much. |
| LachesisEngine.LowestWalk | PyLachesis/lachesis.py:342-356 | The walk only adds the observer to "lowest observing" entries of non-cheater events that had none for it. |
| LachesisEngine.LowestWalkComplete | PyLachesis/lachesis.py:342-356 | Every non-cheater handed to the walk ends up observed. Each event it marks, unless created by the observer, has all its non-cheater parents marked. |
| LachesisEngine.CountForklessRoots | PyLachesis/lachesis.py:408-415 | The counted weight is exactly the weight of the roots that forkless-cause the event, each root asked in the starting state, even though the calls share a growing quorum cache. It never exceeds the roots' creators' weight. |
| LachesisEngine.CausedWeightCached | PyLachesis/lachesis.py:328-340 | The weight of the caused roots does not change when the quorum cache only gains entries a miss would compute from the current weights (`CacheExtends`). |
| LachesisEngine.ForklessCauseQuorum | PyLachesis/lachesis.py:408-417 | It fails exactly when the frame has no root set. Otherwise the answer is yes iff the caused roots' weight reaches the quorum `quorum(frame)` gives in the starting state, and that quorum is cached afterwards. |
| LachesisEngine.CheckForRoots | PyLachesis/lachesis.py:358-371 | A first event is a root of frame 1, and a cheater's later event is no root. For a non-cheater's later event it fails iff its self-parent's frame has no root set, and is a root iff the caused roots of that frame reach its quorum; the target frame is then one above the self-parent's. |
| LachesisEngine.Tally | PyLachesis/lachesis.py:435-444 | Yes and no together account for all previous-frame roots' weight, and yes is exactly the weight of those that voted yes. |
| LachesisEngine.Record | PyLachesis/lachesis.py:452-461 | The vote is stored under (new root, candidate) in the election of the frame being decided, and a decided vote also in the decided roots. A decided yes names the candidate Atropos of that frame and advances that frame and the block together; any other vote leaves both. |
| LachesisEngine.CastVote | PyLachesis/lachesis.py:424-450 | It fails exactly when a later round finds no root set for the previous frame. One frame past the one being decided the vote is undecided with yes iff the new root forkless-causes the candidate. Further on, with yes the weight of previous-frame roots that voted yes and no the rest, the vote is decided iff either reaches the current frame's quorum, and yes iff yes >= no. Before that no vote is cast. |
| LachesisEngine.VoteOn | PyLachesis/lachesis.py:421-461 | One candidate's step changes only voting data, keeps the Atropos table behind the frame being decided, and fails only on a missing previous root set. When it moves the election on, the candidate is the new Atropos and the previous frame's yes voters weigh at least the current frame's quorum. |
| LachesisEngine.VoteLoopSucceeds | PyLachesis/lachesis.py:421-461 | When the previous frame has a root set, no vote on any candidate list fails. |
| LachesisEngine.AtroposVoting | PyLachesis/lachesis.py:419-461 | It fails when the frame being decided has no root set. On success only voting data changes, and the frame being decided never passes the current one. |
| LachesisEngine.SortedInsert | PyLachesis/lachesis.py:399-400 | Insertion into a sorted set holds exactly the old members plus the new one and stays sorted. |
| LachesisEngine.Receive | PyLachesis/lachesis.py:374-380 | Storing and fork-checking an admissible event keeps the engine well-formed, stores the event with its count raised by one, only adds cheaters, and raises the creator's last seq to at least the event's. |
| LachesisEngine.Observe | PyLachesis/lachesis.py:382-383 | The two vector updates change only the events' "lowest observing" and "highest observed" dictionaries. |
| LachesisEngine.AddRoot | PyLachesis/lachesis.py:398-400 | The root joins its frame's root set iff its creator is not a cheater; other frames are untouched. |
| LachesisEngine.InheritFrame | PyLachesis/lachesis.py:404-406 | A non-root changes only its own frame, to its self-parent's. |
| LachesisEngine.RegisterRootFrames | PyLachesis/lachesis.py:385-400 | Registering a root of frame 1, or of the frame after one with a root set, keeps the frames consistent. |
| LachesisEngine.CheckForRootsSucceeds | PyLachesis/lachesis.py:358-371 | With consistent frames the root check never fails, and a root's target frame is 1 or follows a frame with a root set. |
| LachesisEngine.AtroposVotingSucceeds | PyLachesis/lachesis.py:419-461 | With consistent frames voting never fails. |
| LachesisEngine.DecideSucceeds | PyLachesis/lachesis.py:385-406 | With consistent frames, deciding root or non-root never fails and frames every event. |
| LachesisEngine.ProcessEvent | PyLachesis/lachesis.py:373-406 | Processing keeps the engine well-formed, stores the event, and moves the engine forward: cheaters, frames, decided Atropos and stored events are only added to. |
| LachesisEngine.ProcessEventSucceeds | PyLachesis/lachesis.py:373-406 | On a well-formed engine with framed events, an admissible event is processed without error and the frames stay consistent. |
| LachesisEngine.ReceiveKeepsFrames | PyLachesis/lachesis.py:374-383 | Storing an event and updating its vectors leaves every other event's frame alone. |
| RefactorEngine.Init | PyLachesis/refactor.py:149-178 | A fresh instance has all lookups valid (`Ready`), gapless frames (`FramesOK`) and framed root sets (`RootsFramed`). |
| RefactorEngine.FilterStep | PyLachesis/refactor.py:39-44 | One iteration over an early event keeps the list duplicate-free and in first-appearance order, and appends the event's creator with its weight exactly when the creator is new. |
| RefactorEngine.FilterValidatorsAndWeights | PyLachesis/refactor.py:35-46 | The validators are exactly those whose first event precedes the first event after time 10. They are listed without repeats in order of first appearance, each weighted by its first event. |
| RefactorEngine.ZeroWeight | PyLachesis/refactor.py:226-227 | Zeroing one validator's weight lowers the total by exactly that weight. |
| RefactorEngine.Confirm | PyLachesis/refactor.py:219-227 | The running total stays the sum of the weights. A newly confirmed cheater is a visited suspect whose observers reach the quorum and has weight zero. A visited suspect left unconfirmed has observers below the starting quorum. No other weight changes. |
| RefactorEngine.ZeroStale | PyLachesis/refactor.py:229-232 | Exactly the visited validators lagging the clock by 20 or more lose their weight, and the total stays the sum. |
| RefactorEngine.Recompute | PyLachesis/refactor.py:217-234 | Afterwards, weights only went down, only suspects were confirmed, and stale and confirmed validators weigh zero. Everyone else keeps their weight. Confirmation and non-confirmation are justified by the observers' weight. |
| RefactorEngine.GetQuorum | PyLachesis/refactor.py:213-235 | A cached value is returned unchanged. A miss caches two thirds plus one of the total left once confirmed suspects and stale validators are zeroed, with the same justifications as Recompute. |
| RefactorEngine.ForklessCause | PyLachesis/refactor.py:356-372 | Forkless cause is false when either creator lists the other as a cheater. Otherwise it holds iff the agreeing weight, read before `quorum` runs, reaches the quorum of b's frame. With that quorum cached, nothing changes. |
| RefactorEngine.ForklessCauseMonotone | PyLachesis/refactor.py:356-372 | With b's frame quorum cached, seeing more never undoes forkless cause. |
| RefactorEngine.GetDirectChild | PyLachesis/refactor.py:237-250 | The direct child is the first parent of the same creator one sequence below; if there is none, no parent qualifies. |
| RefactorEngine.DirectChildUnique | PyLachesis/refactor.py:237-250 | Without a fork by the creator, the direct child is the only such parent. |
| RefactorEngine.RootVotes | PyLachesis/refactor.py:265-271 | The sum over roots never exceeds the weight of the roots whose creators do not flag the event's creator, and `quorum` may only lower weights and grow the cache on the way. |
| RefactorEngine.RootVotesCached | PyLachesis/refactor.py:265-271 | When every quorum the forkless-cause calls ask for is cached, the sum changes nothing and is exactly the weight of the roots that forkless-cause the event against those cached quorums. |
| RefactorEngine.RootTest | PyLachesis/refactor.py:265-273 | A yes means the frame's roots weigh at least its quorum. With the quorums cached, nothing changes and the answer is yes iff the caused roots' weight reaches the frame's quorum. |
| RefactorEngine.RootsWeightPointwise | PyLachesis/refactor.py:265-271 | Lower weights never give a larger roots weight. |
| RefactorEngine.Inherit | PyLachesis/refactor.py:260-273 | The event takes its direct child's frame. A yes means that frame has roots whose weight reaches its quorum. With the quorums cached, the answer is yes iff the frame has roots and the caused roots' weight reaches the frame's quorum. |
| RefactorEngine.IsRoot | PyLachesis/refactor.py:252-273 | A first event is a root and changes nothing. With no direct child the answer is no. Otherwise the event takes its direct child's frame, and a yes means that frame's roots weigh at least its quorum; with the quorums cached, it is a root iff the frame has roots and the caused roots' weight reaches the frame's quorum. |
| RefactorEngine.IsRootRule | PyLachesis/refactor.py:252-273 | With framed root sets: an event with no direct child is no root and changes nothing. Otherwise only its frame changes, to its direct child's, and it is a root iff that frame has roots and the roots it forkless-causes weigh at least the frame's quorum. |
| RefactorEngine.SortByKey | PyLachesis/refactor.py:292-300 | Sorting returns a permutation of the roots ordered by (timestamp, validator, sequence, weight). |
| RefactorEngine.InsertByKey | PyLachesis/refactor.py:292-300 | Insertion adds exactly one occurrence and keeps the list sorted. |
| RefactorEngine.Tally | PyLachesis/refactor.py:317-335 | Yes is exactly the weight of the previous roots that voted yes, and yes and no together are the previous roots' weight. Yes is zero when nobody voted yes, and no is zero when everybody did. |
| RefactorEngine.RecordVoteStep | PyLachesis/refactor.py:343-354 | A fresh vote keeps earlier votes and moves the election on by one frame and block exactly on a decided yes, naming the Atropos of the frame it leaves. |
| RefactorEngine.MarkAtropos | PyLachesis/refactor.py:352 | The elected candidate's event is flagged Atropos, and every other event is unchanged. |
| RefactorEngine.Cast | PyLachesis/refactor.py:343-354 | Recording a vote keeps the lookups valid and is a single election step. When the vote moves the election on, the candidate's event is flagged Atropos; no other event changes. |
| RefactorEngine.FirstRound | PyLachesis/refactor.py:311-315 | The recorded vote is undecided, with yes iff the root forkless-causes the candidate, and the election does not move. |
| RefactorEngine.LaterRound | PyLachesis/refactor.py:316-341 | With yes the weight of previous-frame roots that voted yes and no the rest, the recorded vote is decided iff either reaches the current frame's quorum, and yes iff yes > no. It moves the election only when the candidate is elected: the yes voters weigh at least that quorum. |
| RefactorEngine.VoteOne | PyLachesis/refactor.py:302-354 | A vote fails exactly on a missing previous root set. A pair that already voted changes nothing. There is no Atropos in the first round, and any election is justified by quorum. |
| RefactorEngine.VoteAll | PyLachesis/refactor.py:302-354 | Voting over all candidates fails only on a missing previous root set. Votes are kept, and the frame being decided moves forward with the block, gaining an Atropos for every frame it leaves behind and never reaching the current frame. |
| RefactorEngine.AtroposVoting | PyLachesis/refactor.py:291-354 | Fails only when the frame being decided or the previous frame lacks a root set; otherwise as VoteAll. |
| RefactorEngine.AtroposVotingSucceeds | PyLachesis/refactor.py:291-354 | With gapless frames voting never fails and the frames stay gapless. |
| RefactorEngine.AddRoot | PyLachesis/refactor.py:284-288 | The root is appended to its frame's root set; a new root set also caches the quorum of its frame. |
| RefactorEngine.Register | PyLachesis/refactor.py:276-288 | The event becomes a root of frame f, the instance frame rises to it, and the root joins frame f's root set. |
| RefactorEngine.SetRoots | PyLachesis/refactor.py:275-289 | Afterwards the event is a root iff it was one or `is_root` holds for it. |
| RefactorEngine.SetRootsEffect | PyLachesis/refactor.py:275-289 | `set_roots` changes only weights and confirmations through `quorum`, the frame, the root sets, the election, and the frame, root and Atropos flags of events. |
| RefactorEngine.SetRootsPlaces | PyLachesis/refactor.py:276-287 | A non-root only takes its direct child's frame. A first event becomes a root of the instance frame, and any other root one above its direct child's frame. The instance frame rises to it and the root joins that frame's root set. |
| RefactorEngine.RootFrameBounds | PyLachesis/refactor.py:278-281 | A new root's frame is at least 1 and at most one above the current frame. |
| RefactorEngine.RegisterFrames | PyLachesis/refactor.py:282-287 | Registering a root at most one frame above the current one keeps the frames gapless. |
| RefactorEngine.SetRootsSucceeds | PyLachesis/refactor.py:275-289 | With gapless frames `set_roots` never raises and keeps the frames gapless. |
| RefactorEngine.RegisterFramed | PyLachesis/refactor.py:282-288 | Registering an event that is in no root set keeps every root set's quorum cached and every root carrying its set's frame. |
| RefactorEngine.SetRootsFramed | PyLachesis/refactor.py:275-289 | `set_roots` on an event that is in no root set keeps the root sets framed. |
| RefactorWalks.Record | PyLachesis/refactor.py:390-404 | Recording a sequence adds it for exactly one (walker, creator) pair. |
| RefactorWalks.Stamp | PyLachesis/refactor.py:385-388 | Stamping sets exactly one ledger entry of one event: the keys stay, every other event is unchanged, and the stamped event changes only in that ledger. |
| RefactorWalks.StampsKeepForks | PyLachesis/refactor.py:385-388 | The walks' stamps do not change which validators have forked. |
| RefactorWalks.ForkWalk | PyLachesis/refactor.py:378-405 | The walk only stamps visits and visits every queued event. It catches only creators of stored events. From witnessed records, every caught creator has two stored events at one sequence. |
| RefactorWalks.VisitWitnessed | PyLachesis/refactor.py:390-404 | A first visit keeps every recorded sequence witnessed. A sequence already seen for that creator proves a fork. |
| RefactorWalks.ScanFrom | PyLachesis/refactor.py:378-405 | Every parent of the event ends up visited by its creator, and everyone caught has forked. |
| RefactorWalks.DetectForks | PyLachesis/refactor.py:374-405 | The walker gets a cheater list and visits every parent. Only the walker's cheater list and the suspects change: both only grow, together. |
| RefactorWalks.DetectForksSound | PyLachesis/refactor.py:395-400 | Fork detection keeps the blame sound: every listed or suspected cheater has two stored events at one sequence. |
| RefactorWalks.Absorb | PyLachesis/refactor.py:436-447 | One parent's iteration covers what the parent reports and never lowers an entry. Every changed entry is one the parent reports. |
| RefactorWalks.Highest | PyLachesis/refactor.py:432-447 | The merged dictionary is the least upper bound of the event's own and all parents' reports. It covers every parent, and each entry was the event's own or is reported by a parent. |
| RefactorWalks.HighestTimestamps | PyLachesis/refactor.py:407-430 | The event's dictionary is the merge of the parents' timestamps. The instance's dictionary becomes the pointwise maximum with it, and stays unchanged when there are no parents. |
| RefactorWalks.SetTimestamps | PyLachesis/refactor.py:407-430 | Only the event's timestamp dictionary and the instance's highest timestamps change, as HighestTimestamps says. |
| RefactorWalks.SetHighest | PyLachesis/refactor.py:432-447 | Only the event's "highest observed" dictionary changes, to the merge of its parents' reports. |
| RefactorWalks.LowestWalk | PyLachesis/refactor.py:449-468 | The walk only adds the observer to "lowest observing" entries that lacked it, and settles every queued event. Each event it marks was admitted and not shunned, and its parents end up settled. |
| RefactorWalks.SettledPersists | PyLachesis/refactor.py:456-468 | Once the walk is done with an event, later marks never undo that. |
| RefactorWalks.SetLowest | PyLachesis/refactor.py:449-468 | Only "lowest observing" entries change, and every parent of the event ends up settled. |
| RefactorWalks.Enroll | PyLachesis/refactor.py:485-489 | A new creator is appended with its event's weight, and a known one takes its event's weight unless confirmed, in which case it stays zero. No other weight changes. |
| RefactorWalks.Store | PyLachesis/refactor.py:497 | Storing a parsed event whose parents are stored keeps every lookup valid and every stored event intact. |
| RefactorWalks.Observe | PyLachesis/refactor.py:491-494 | Fork detection, both merges and the lowest-observing walk keep the instance well-formed and leave the validator list and the weights alone. |
| RefactorWalks.ProcessEvent | PyLachesis/refactor.py:484-497 | A processed event is stored, and the instance stays well-formed: validators match weights, confirmed cheaters weigh zero. |
| RefactorWalks.ProcessEventSucceeds | PyLachesis/refactor.py:484-497 | With gapless frames, framed root sets and sound blame, an arriving event whose parents are stored is processed without error, and all three are kept. |
| RefactorWalks.InitReady | PyLachesis/refactor.py:149-178 | A fresh instance whose validator list and weight table name the same validators meets all four invariants of the no-failure lemma: `Valid`, `FramesOK`, `ForkSound` and `RootsFramed`. |
| RefactorWalks.Initialize | PyLachesis/refactor.py:80-95 | Each instance is set up with the filtered validators and their first-event weights, and so starts in a state where the no-failure lemma applies. |
| RefactorWalks.ProcessEventObserves | PyLachesis/refactor.py:484-497 | After processing, every parent is visited by the event's creator, and both of the event's "highest" dictionaries cover what each parent reports. |

## Left out

- Parsing and input conversion are not modelled: `parse_data` in `refactor.py` and `convert_input_to_DAG` in `lachesis.py`. The model starts from parsed events (`RefactorWalks.Parsed`).
- Graph output is not modelled: `graph_results`, `darken_color`, `run_lachesis` and `run_lachesis_multiinstance` only draw or write files.
- Multi-instance gossip is not modelled: `LachesisMultiInstance`, `defer_event`, `defer_event_processing`, `process_request_queue` and `process_deferred_events` move events between instances. Each instance then runs the single-instance pipeline, which is modelled.
- Driver ordering is not modelled: grouping by timestamp and `random.shuffle` in `process_events` and `process_graph_by_timesteps`. The model processes one event at a time, and the no-failure lemmas hold for any order of admissible events.
- `RefactorWalks.ProcessEvent`: the clock update `self.time = timestamp` at the end of each timestamp group is left out. The clock is a field the caller sets. This is why staleness in `quorum` is stated against whatever `time` holds.
- `RefactorWalks.ProcessEvent`: `self.events.append(event)` is left out. That list is only read by `graph_results`.
- `LachesisEngine.ProcessEvent`: a missing parent or a missing self-parent raises `KeyError` in the code. These are preconditions (`Admissible`), not error results.
- `RefactorWalks.ProcessEvent`: a missing parent raises `KeyError` in the code. It is a precondition (parents stored), not an error result.
- `LachesisEngine.Start`: `root_set_validators[1]` is filled by the driver, and no other driver setup is modelled.
- `RefactorWalks.ProcessEvent`: uuids are assumed unique in the input. The code overwrites a re-delivered uuid's event; `RefactorWalks.Store` requires a fresh uuid, so that overwrite is not modelled.
- `RefactorEngine.RootVotes`: its own contract gives only the upper bound; the exact sum is `RefactorEngine.RootVotesCached`, which needs every quorum the calls ask for to be cached. Every state the pipeline reaches meets that (`RootsFramed`), so the uncached case does not arise there.
- `RefactorEngine.RootTest`: its exact answer is stated only with the frame and its roots' quorums cached. Reachable states always have them (`RootsFramed`), and the unconditional rule is stated for `is_root` as a whole by `RefactorEngine.IsRootRule`.
- `RefactorEngine.Inherit`: its exact answer is stated only with the quorums cached, for the same reason as `RefactorEngine.RootTest`; `RefactorEngine.IsRootRule` states the rule without that hypothesis.
- `Weights.Validator`: the Python engines name validators by strings. The model numbers them in the order of their names, and `RefactorEngine.SortByKey`, `RefactorEngine.KeyLe`, `LachesisEngine.KeyLess` and `LachesisEngine.SortedInsert` rely on that numbering to compare names as strings.
- `LachesisEngine.AtroposVoting`: the quorum behind an elected Atropos is stated for each vote (`LachesisEngine.VoteOn`), not across the loop, whose later candidates vote in the next frame's election.
- `DagEvent.SetRoot`: the quorum rule for later events is an empty branch in the Go code, so nothing is modelled for it.
- Floating-point and colour handling in plotting is not modelled.

=== FILE: dag_event.dfy ===
/** The event record of the Go core and the computation of its
    highest-events vector: a per-validator vector clock merged from the
    parents' vectors, plus equivocation ("fork") flags.

    A Go `Events` map is an `Option` of a sequence of (key, event) pairs:
    `None` is the nil map and the sequence fixes one iteration order, since
    Go leaves that order unspecified and the merge is sensitive to it. */
module DagEvent {
  import opened Wrappers

  /** Opaque identifiers: only equality is ever used on them. */
  type EventId = string
  type ValidatorId = string
  type NodeId = string

  /** Go's zero value of an `EventId`. */
  const ZeroId: EventId := ""

  /** Highest observed event of one validator, with that validator's fork flag. */
  datatype Vector = Vector(eventId: EventId, seqNum: nat, isFork: bool)

  /** What Go reads for a key that is absent from a `map[ValidatorId]Vector`. */
  const ZeroVector: Vector := Vector(ZeroId, 0, false)

  type VectorMap = map<ValidatorId, Vector>

  datatype Event = Event(
    epoch: nat,
    seqNum: nat,
    frame: nat,
    creator: ValidatorId,
    node: NodeId,
    id: EventId,
    parents: seq<EventId>,
    highestEventsVector: VectorMap,
    isRoot: bool)

  /** One key/value pair of a Go `Events` map; the key need not equal the value's id. */
  type Entry = (EventId, Event)

  /** `None` is a nil map; `Some(es)` lists the pairs in iteration order. */
  type Events = Option<seq<Entry>>

  /** Go map read with the zero value for a missing key. */
  function Read(h: VectorMap, x: ValidatorId): Vector {
    if x in h then h[x] else ZeroVector
  }

  /** Ranging over a nil map visits nothing. */
  function EntriesOf(events: Events): seq<Entry> {
    events.GetOr([])
  }

  function Max(a: nat, b: nat): nat {
    if a < b then b else a
  }

  // ---------------------------------------------------------------------------
  // Self-parent

  /** The self-parent: the first parent of an event that is not its creator's first. */
  function SelfParent(e: Event): (r: Option<EventId>)
    ensures r.None? <==> e.seqNum <= 1 || |e.parents| == 0
    ensures r.Some? ==> |e.parents| > 0 && r.value == e.parents[0]
  {
    if e.seqNum <= 1 || |e.parents| == 0 then None else Some(e.parents[0])
  }

  // ---------------------------------------------------------------------------
  // Merging a parent's vector

  /** The loop over a found parent's vector: an entry is overwritten (event id and
      seq only, the fork flag is kept) exactly when the incoming seq is strictly
      greater. Each iteration of that loop reads and writes only its own key, so
      the unspecified order of the Go range does not matter and a comprehension
      states it exactly. */
  function MergeVector(h: VectorMap, pv: VectorMap): (r: VectorMap)
    ensures forall i :: Read(r, i).seqNum == Max(Read(h, i).seqNum, Read(pv, i).seqNum)
    ensures forall i :: Read(r, i).isFork == Read(h, i).isFork
    ensures forall i :: i in r <==> i in h || (i in pv && pv[i].seqNum > 0)
    ensures forall i :: !(i in pv && pv[i].seqNum > Read(h, i).seqNum) ==> Read(r, i) == Read(h, i)
    ensures forall i :: i in pv && pv[i].seqNum > Read(h, i).seqNum ==> r[i].eventId == pv[i].eventId
    ensures forall i :: i in r ==>
              (i in h && r[i] == h[i]) || (i in pv && r[i].eventId == pv[i].eventId && r[i].seqNum == pv[i].seqNum)
  {
    map i | i in h.Keys + pv.Keys && (i in h || pv[i].seqNum > 0) ::
      if i in pv && pv[i].seqNum > Read(h, i).seqNum
      then Read(h, i).(eventId := pv[i].eventId, seqNum := pv[i].seqNum)
      else h[i]
  }

  // ---------------------------------------------------------------------------
  // The two branches of the vector computation.
  // `for _, r := range parents { if k == r { ... } }` runs its body once per
  // occurrence of `k` in `parents`, i.e. `multiset(parents)[k]` times.

  /** Root branch, body for a found parent: record the parent itself (fork flag false). */
  function SeedWith(h: VectorMap, v: Event): (r: VectorMap)
    ensures r.Keys == h.Keys + {v.creator}
  {
    h[v.creator := Vector(v.id, v.seqNum, false)]
  }

  function SeedTimes(h: VectorMap, v: Event, n: nat): (r: VectorMap)
    ensures h.Keys <= r.Keys
    ensures ForkFree(h) ==> ForkFree(r)
    decreases n
  {
    if n == 0 then h else SeedTimes(SeedWith(h, v), v, n - 1)
  }

  /** Root branch: the loop over all entries and all parents. */
  function SeedEntries(h: VectorMap, es: seq<Entry>, ps: seq<EventId>): (r: VectorMap)
    ensures h.Keys <= r.Keys
    ensures ForkFree(h) ==> ForkFree(r)
    decreases |es|
  {
    if es == [] then h else SeedEntries(SeedTimes(h, es[0].1, multiset(ps)[es[0].0]), es[1..], ps)
  }

  /** General branch, body for a found parent `v` stored under key `k`: its own
      entry is overwritten unconditionally, then its vector is merged in. */
  function AdoptParent(h: VectorMap, k: EventId, v: Event): (r: VectorMap)
    ensures ForkFree(h) ==> ForkFree(r)
  {
    MergeVector(h[v.creator := Vector(k, v.seqNum, false)], v.highestEventsVector)
  }

  function AdoptTimes(h: VectorMap, k: EventId, v: Event, n: nat): (r: VectorMap)
    ensures ForkFree(h) ==> ForkFree(r)
    decreases n
  {
    if n == 0 then h else AdoptTimes(AdoptParent(h, k, v), k, v, n - 1)
  }

  /** General branch: the loop over all entries and all parents. */
  function AdoptEntries(h: VectorMap, es: seq<Entry>, ps: seq<EventId>): (r: VectorMap)
    ensures ForkFree(h) ==> ForkFree(r)
    decreases |es|
  {
    if es == [] then h else AdoptEntries(AdoptTimes(h, es[0].0, es[0].1, multiset(ps)[es[0].0]), es[1..], ps)
  }

  // ---------------------------------------------------------------------------
  // Fork flags

  ghost predicate ForkFree(h: VectorMap) {
    forall x :: x in h ==> !h[x].isFork
  }

  /** `v` is another event of `e`'s creator at the same seq and epoch. */
  predicate IsSibling(e: Event, v: Event) {
    e.id != v.id && e.creator == v.creator && e.seqNum == v.seqNum && e.epoch == v.epoch
  }

  ghost predicate HasSibling(e: Event, es: seq<Entry>) {
    exists p :: p in es && IsSibling(e, p.1)
  }

  /** Some found parent created by `x` carries a fork flag on its own creator. */
  ghost predicate ParentFlagsFork(es: seq<Entry>, ps: seq<EventId>, x: ValidatorId) {
    exists p :: p in es && p.0 in ps && p.1.creator == x && Read(p.1.highestEventsVector, x).isFork
  }

  /** Sets only the fork flag of `x`, creating a zero entry if there is none. */
  function MarkFork(h: VectorMap, x: ValidatorId): (r: VectorMap)
    ensures r.Keys == h.Keys + {x}
    ensures forall y :: Read(r, y).isFork <==> Read(h, y).isFork || y == x
    ensures forall y :: Read(r, y).eventId == Read(h, y).eventId && Read(r, y).seqNum == Read(h, y).seqNum
  {
    h[x := Read(h, x).(isFork := true)]
  }

  /** The first fork pass: every other event of the creator at the same seq and
      epoch flags the creator's entry. */
  function FlagSiblings(h: VectorMap, e: Event, es: seq<Entry>): (r: VectorMap)
    ensures h.Keys <= r.Keys <= h.Keys + {e.creator}
    ensures forall x :: Read(r, x).isFork <==> Read(h, x).isFork || (x == e.creator && HasSibling(e, es))
    ensures forall x :: Read(r, x).eventId == Read(h, x).eventId && Read(r, x).seqNum == Read(h, x).seqNum
    decreases |es|
  {
    if es == [] then h
    else
      assert es == [es[0]] + es[1..];
      FlagSiblings(if IsSibling(e, es[0].1) then MarkFork(h, e.creator) else h, e, es[1..])
  }

  function InheritTimes(h: VectorMap, v: Event, n: nat): (r: VectorMap)
    ensures h.Keys <= r.Keys <= h.Keys + {v.creator}
    ensures forall x :: Read(r, x).isFork <==>
              Read(h, x).isFork || (n > 0 && x == v.creator && Read(v.highestEventsVector, v.creator).isFork)
    ensures forall x :: Read(r, x).eventId == Read(h, x).eventId && Read(r, x).seqNum == Read(h, x).seqNum
    decreases n
  {
    if n == 0 then h
    else
      InheritTimes(if Read(v.highestEventsVector, v.creator).isFork then MarkFork(h, v.creator) else h, v, n - 1)
  }

  /** The second fork pass: a found parent whose own creator is flagged passes
      the flag on, for that creator only. */
  function InheritForks(h: VectorMap, es: seq<Entry>, ps: seq<EventId>): (r: VectorMap)
    ensures h.Keys <= r.Keys
    ensures forall x :: Read(r, x).isFork <==> Read(h, x).isFork || ParentFlagsFork(es, ps, x)
    ensures forall x :: Read(r, x).eventId == Read(h, x).eventId && Read(r, x).seqNum == Read(h, x).seqNum
    ensures forall x :: x in r && x !in h ==> r[x].eventId == ZeroId && r[x].seqNum == 0
    decreases |es|
  {
    if es == [] then h
    else
      assert es == [es[0]] + es[1..];
      var h1 := InheritTimes(h, es[0].1, multiset(ps)[es[0].0]);
      assert forall x :: x in h1 && x !in h ==> h1[x].eventId == ZeroId && h1[x].seqNum == 0 by {
        forall x | x in h1 && x !in h ensures h1[x].eventId == ZeroId && h1[x].seqNum == 0 {
          assert Read(h1, x).eventId == Read(h, x).eventId;
        }
      }
      InheritForks(h1, es[1..], ps)
  }

  // ---------------------------------------------------------------------------
  // SetHighestEventsVector

  /** The vector the Go code stores on `e` when given the index `events`. */
  function HighestEventsVector(e: Event, events: Events): (r: VectorMap)
    ensures events.None? ==> r == map[e.creator := Vector(e.id, e.seqNum, false)]
    ensures events == Some([]) && e.seqNum != 1 ==> r == map[]
    ensures e.seqNum == 1 ==> e.creator in r
    ensures forall x :: Read(r, x).isFork <==>
              (x == e.creator && HasSibling(e, EntriesOf(events))) || ParentFlagsFork(EntriesOf(events), e.parents, x)
  {
    var es := EntriesOf(events);
    InheritForks(FlagSiblings(BaseVector(e, events), e, es), es, e.parents)
  }

  /** The vector before the fork passes: the root branch (seq 1 or a nil index)
      seeds the event itself and its found parents, the general branch merges
      the found parents and their vectors. */
  function BaseVector(e: Event, events: Events): (r: VectorMap)
    ensures ForkFree(r)
    ensures e.seqNum == 1 || events.None? ==> e.creator in r
  {
    var es := EntriesOf(events);
    if e.seqNum == 1 || events.None?
    then SeedEntries(map[e.creator := Vector(e.id, e.seqNum, false)], es, e.parents)
    else AdoptEntries(map[], es, e.parents)
  }

  /** `SetHighestEventsVector`: replaces the vector and nothing else. */
  function SetHighestEventsVector(e: Event, events: Events): (r: Event)
    ensures r.(highestEventsVector := e.highestEventsVector) == e
    ensures r.highestEventsVector == HighestEventsVector(e, events)
  {
    e.(highestEventsVector := HighestEventsVector(e, events))
  }

  /** `SetEvent`: what happens when an event is added to the DAG. */
  function SetEvent(e: Event, events: Events): (r: Event)
    ensures r.(highestEventsVector := e.highestEventsVector) == e
    ensures events.None? ==> r.highestEventsVector == map[e.creator := Vector(e.id, e.seqNum, false)]
  {
    SetHighestEventsVector(e, events)
  }

  /** `SetRoot`: a creator's first event becomes a root; the quorum rule for
      later events is an empty branch in the code, so they keep their flag. */
  function SetRoot(e: Event): (r: Event)
    ensures r.isRoot <==> e.seqNum == 1 || e.isRoot
    ensures r.(isRoot := e.isRoot) == e
  {
    if e.seqNum == 1 then e.(isRoot := true) else e
  }
}

=== FILE: dag_event_properties.dfy ===
/** Properties of the Go vector computation that relate several calls or
    quantify over the whole index: parents missing from the index are
    ignored, where recorded event ids come from, the dependence of the merge
    on iteration order, and worked scenarios. */
module DagEventProperties {
  import opened Wrappers
  import opened DagEvent

  // ---------------------------------------------------------------------------
  // Parents absent from the index contribute nothing

  /** Some pair of the index is stored under key `k`. */
  predicate HasKey(es: seq<Entry>, k: EventId) {
    exists p :: p in es && p.0 == k
  }

  /** `parents` with every id that the index does not hold removed, order kept. */
  function KnownParents(ps: seq<EventId>, es: seq<Entry>): (r: seq<EventId>)
    ensures forall k :: multiset(r)[k] == if HasKey(es, k) then multiset(ps)[k] else 0
    decreases |ps|
  {
    if ps == [] then []
    else
      assert ps == [ps[0]] + ps[1..];
      if HasKey(es, ps[0]) then [ps[0]] + KnownParents(ps[1..], es) else KnownParents(ps[1..], es)
  }

  /** Two parent lists that agree on the multiplicity of every key of `es`. */
  ghost predicate SameOnKeys(es: seq<Entry>, ps: seq<EventId>, qs: seq<EventId>) {
    forall p :: p in es ==> multiset(ps)[p.0] == multiset(qs)[p.0]
  }

  lemma {:induction false} SeedEntriesOnKeys(h: VectorMap, es: seq<Entry>, ps: seq<EventId>, qs: seq<EventId>)
    requires SameOnKeys(es, ps, qs)
    ensures SeedEntries(h, es, ps) == SeedEntries(h, es, qs)
    decreases |es|
  {
    if es != [] {
      assert es[0] in es;
      assert SameOnKeys(es[1..], ps, qs) by {
        forall p | p in es[1..] ensures multiset(ps)[p.0] == multiset(qs)[p.0] {
          assert p in es;
        }
      }
      SeedEntriesOnKeys(SeedTimes(h, es[0].1, multiset(ps)[es[0].0]), es[1..], ps, qs);
    }
  }

  lemma {:induction false} AdoptEntriesOnKeys(h: VectorMap, es: seq<Entry>, ps: seq<EventId>, qs: seq<EventId>)
    requires SameOnKeys(es, ps, qs)
    ensures AdoptEntries(h, es, ps) == AdoptEntries(h, es, qs)
    decreases |es|
  {
    if es != [] {
      assert es[0] in es;
      assert SameOnKeys(es[1..], ps, qs) by {
        forall p | p in es[1..] ensures multiset(ps)[p.0] == multiset(qs)[p.0] {
          assert p in es;
        }
      }
      AdoptEntriesOnKeys(AdoptTimes(h, es[0].0, es[0].1, multiset(ps)[es[0].0]), es[1..], ps, qs);
    }
  }

  lemma {:induction false} InheritForksOnKeys(h: VectorMap, es: seq<Entry>, ps: seq<EventId>, qs: seq<EventId>)
    requires SameOnKeys(es, ps, qs)
    ensures InheritForks(h, es, ps) == InheritForks(h, es, qs)
    decreases |es|
  {
    if es != [] {
      assert es[0] in es;
      assert SameOnKeys(es[1..], ps, qs) by {
        forall p | p in es[1..] ensures multiset(ps)[p.0] == multiset(qs)[p.0] {
          assert p in es;
        }
      }
      InheritForksOnKeys(InheritTimes(h, es[0].1, multiset(ps)[es[0].0]), es[1..], ps, qs);
    }
  }

  /** The sibling pass reads only the event's identity fields, not its parents. */
  lemma {:induction false} FlagSiblingsIgnoresParents(h: VectorMap, e: Event, qs: seq<EventId>, es: seq<Entry>)
    ensures FlagSiblings(h, e.(parents := qs), es) == FlagSiblings(h, e, es)
    decreases |es|
  {
    if es != [] {
      var h1 := if IsSibling(e, es[0].1) then MarkFork(h, e.creator) else h;
      FlagSiblingsIgnoresParents(h1, e, qs, es[1..]);
    }
  }

  /** Dropping the parents that the index does not hold leaves the computed
      vector unchanged: an unknown parent is skipped silently. */
  lemma MissingParentsIgnored(e: Event, events: Events)
    ensures HighestEventsVector(e.(parents := KnownParents(e.parents, EntriesOf(events))), events)
         == HighestEventsVector(e, events)
  {
    var es := EntriesOf(events);
    var qs := KnownParents(e.parents, es);
    var e' := e.(parents := qs);
    assert SameOnKeys(es, e.parents, qs) by {
      forall p | p in es ensures multiset(e.parents)[p.0] == multiset(qs)[p.0] {
        assert HasKey(es, p.0);
      }
    }
    assert BaseVector(e', events) == BaseVector(e, events) by {
      SeedEntriesOnKeys(map[e.creator := Vector(e.id, e.seqNum, false)], es, e.parents, qs);
      AdoptEntriesOnKeys(map[], es, e.parents, qs);
    }
    var base := BaseVector(e, events);
    FlagSiblingsIgnoresParents(base, e, qs, es);
    InheritForksOnKeys(FlagSiblings(base, e, es), es, e.parents, qs);
  }

  // ---------------------------------------------------------------------------
  // Where the recorded event ids come from (general branch)

  /** `vec`, stored for validator `x`, is either untouched zero data or was
      copied from a found parent: the parent itself (key and seq) or that
      parent's own vector entry for `x`. */
  ghost predicate Traceable(es: seq<Entry>, ps: seq<EventId>, x: ValidatorId, vec: Vector) {
    (vec.eventId == ZeroId && vec.seqNum == 0)
    || exists p :: p in es && p.0 in ps &&
         ((x == p.1.creator && vec.eventId == p.0 && vec.seqNum == p.1.seqNum)
          || (x in p.1.highestEventsVector
              && vec.eventId == p.1.highestEventsVector[x].eventId
              && vec.seqNum == p.1.highestEventsVector[x].seqNum))
  }

  ghost predicate AllTraceable(h: VectorMap, es: seq<Entry>, ps: seq<EventId>) {
    forall x :: x in h ==> Traceable(es, ps, x, h[x])
  }

  lemma {:induction false} AdoptTimesTraceable(h: VectorMap, k: EventId, v: Event, n: nat, es: seq<Entry>, ps: seq<EventId>)
    requires (k, v) in es
    requires n > 0 ==> k in ps
    requires AllTraceable(h, es, ps)
    ensures AllTraceable(AdoptTimes(h, k, v, n), es, ps)
    decreases n
  {
    if n > 0 {
      var p := (k, v);
      var h1 := h[v.creator := Vector(k, v.seqNum, false)];
      assert AllTraceable(h1, es, ps) by {
        assert Traceable(es, ps, v.creator, h1[v.creator]) by {
          assert p in es && p.0 in ps;
        }
      }
      var h2 := MergeVector(h1, v.highestEventsVector);
      assert AllTraceable(h2, es, ps) by {
        forall x | x in h2 ensures Traceable(es, ps, x, h2[x]) {
          if !(x in h1 && h2[x] == h1[x]) {
            assert p in es && p.0 in ps;
          }
        }
      }
      AdoptTimesTraceable(h2, k, v, n - 1, es, ps);
    }
  }

  lemma {:induction false} AdoptEntriesTraceable(h: VectorMap, rest: seq<Entry>, es: seq<Entry>, ps: seq<EventId>)
    requires forall p :: p in rest ==> p in es
    requires AllTraceable(h, es, ps)
    ensures AllTraceable(AdoptEntries(h, rest, ps), es, ps)
    decreases |rest|
  {
    if rest != [] {
      assert rest[0] in rest;
      var n := multiset(ps)[rest[0].0];
      AdoptTimesTraceable(h, rest[0].0, rest[0].1, n, es, ps);
      assert forall p :: p in rest[1..] ==> p in rest;
      AdoptEntriesTraceable(AdoptTimes(h, rest[0].0, rest[0].1, n), rest[1..], es, ps);
    }
  }

  /** The fork passes only touch fork flags, so they keep every entry traceable. */
  lemma ForkPassesKeepTraceable(h: VectorMap, e: Event, es: seq<Entry>, ps: seq<EventId>)
    requires AllTraceable(h, es, ps)
    ensures AllTraceable(InheritForks(FlagSiblings(h, e, es), es, ps), es, ps)
  {
    var h1 := FlagSiblings(h, e, es);
    assert AllTraceable(h1, es, ps) by {
      forall x | x in h1 ensures Traceable(es, ps, x, h1[x]) {
        assert Read(h1, x).eventId == Read(h, x).eventId && Read(h1, x).seqNum == Read(h, x).seqNum;
        if x in h {
          assert Traceable(es, ps, x, h[x]);
        }
      }
    }
    var h2 := InheritForks(h1, es, ps);
    forall x | x in h2 ensures Traceable(es, ps, x, h2[x]) {
      assert Read(h2, x).eventId == Read(h1, x).eventId && Read(h2, x).seqNum == Read(h1, x).seqNum;
      if x in h1 {
        assert Traceable(es, ps, x, h1[x]);
      }
    }
  }

  /** In the general branch every recorded (event id, seq) was copied from a
      found parent or from a found parent's vector, or is zero data created by
      a fork pass. */
  lemma GeneralBranchTraceable(e: Event, events: Events)
    requires events.Some? && e.seqNum != 1
    ensures AllTraceable(HighestEventsVector(e, events), EntriesOf(events), e.parents)
  {
    var es := EntriesOf(events);
    AdoptEntriesTraceable(map[], es, es, e.parents);
    ForkPassesKeepTraceable(AdoptEntries(map[], es, e.parents), e, es, e.parents);
  }

  /** Some found parent is stored under `id` or records `id` in its vector. */
  ghost predicate FoundParentMentions(es: seq<Entry>, ps: seq<EventId>, id: EventId) {
    exists p :: p in es && p.0 in ps &&
      (p.0 == id || exists x :: x in p.1.highestEventsVector && p.1.highestEventsVector[x].eventId == id)
  }

  /** The general branch never writes the event's own id: it can only appear if
      a found parent is stored under it or mentions it. */
  lemma OwnIdNeverWritten(e: Event, events: Events)
    requires events.Some? && e.seqNum != 1
    requires e.id != ZeroId && !FoundParentMentions(EntriesOf(events), e.parents, e.id)
    ensures forall x :: x in HighestEventsVector(e, events) ==> HighestEventsVector(e, events)[x].eventId != e.id
  {
    var r := HighestEventsVector(e, events);
    var es := EntriesOf(events);
    GeneralBranchTraceable(e, events);
    forall x | x in r ensures r[x].eventId != e.id {
      assert Traceable(es, e.parents, x, r[x]);
      if r[x].eventId == e.id {
        var p :| p in es && p.0 in e.parents &&
          ((x == p.1.creator && r[x].eventId == p.0 && r[x].seqNum == p.1.seqNum)
           || (x in p.1.highestEventsVector
               && r[x].eventId == p.1.highestEventsVector[x].eventId
               && r[x].seqNum == p.1.highestEventsVector[x].seqNum));
        assert FoundParentMentions(es, e.parents, e.id);
      }
    }
  }

  // ---------------------------------------------------------------------------
  // Dependence on iteration order

  /** Adopting `b` (whose vector saw "A" at seq 3) after `a` ("A" at seq 1)
      raises "A" to seq 3. */
  lemma AdoptHigherAfter(a: Event, b: Event)
    requires a == Event(1, 1, 1, "A", "n", "a", [], map[], true)
    requires b == Event(1, 4, 1, "B", "n", "b", [], map["A" := Vector("a3", 3, false)], false)
    ensures AdoptEntries(map[], [("a", a), ("b", b)], ["a", "b"]) == AdoptParent(AdoptParent(map[], "a", a), "b", b)
    ensures Read(AdoptParent(AdoptParent(map[], "a", a), "b", b), "A") == Vector("a3", 3, false)
  {
    var ps := ["a", "b"];
    assert multiset(ps)["a"] == 1 && multiset(ps)["b"] == 1;
    var es := [("a", a), ("b", b)];
    var ha := AdoptParent(map[], "a", a);
    assert AdoptTimes(map[], "a", a, 1) == ha;
    assert AdoptTimes(ha, "b", b, 1) == AdoptParent(ha, "b", b);
    assert es[1..] == [("b", b)];
    assert AdoptEntries(map[], es, ps) == AdoptEntries(ha, [("b", b)], ps);
    assert AdoptEntries(ha, [("b", b)], ps) == AdoptEntries(AdoptParent(ha, "b", b), [], ps);
    assert Read(ha, "A").seqNum == 1 && !Read(ha, "A").isFork;
    var r := AdoptParent(ha, "b", b);
    assert Read(r, "A").seqNum == 3;
    assert r["A"].eventId == "a3";
  }

  /** Adopting `a` after `b` overwrites "A" back down to seq 1. */
  lemma AdoptLowerAfter(a: Event, b: Event)
    requires a == Event(1, 1, 1, "A", "n", "a", [], map[], true)
    requires b == Event(1, 4, 1, "B", "n", "b", [], map["A" := Vector("a3", 3, false)], false)
    ensures AdoptEntries(map[], [("b", b), ("a", a)], ["a", "b"]) == AdoptParent(AdoptParent(map[], "b", b), "a", a)
    ensures Read(AdoptParent(AdoptParent(map[], "b", b), "a", a), "A") == Vector("a", 1, false)
  {
    var ps := ["a", "b"];
    assert multiset(ps)["a"] == 1 && multiset(ps)["b"] == 1;
    var es := [("b", b), ("a", a)];
    var hb := AdoptParent(map[], "b", b);
    assert AdoptTimes(map[], "b", b, 1) == hb;
    assert AdoptTimes(hb, "a", a, 1) == AdoptParent(hb, "a", a);
    assert es[1..] == [("a", a)];
    assert AdoptEntries(map[], es, ps) == AdoptEntries(hb, [("a", a)], ps);
    assert AdoptEntries(hb, [("a", a)], ps) == AdoptEntries(AdoptParent(hb, "a", a), [], ps);
    var h1 := hb["A" := Vector("a", 1, false)];
    var r := MergeVector(h1, a.highestEventsVector);
    assert Read(r, "A") == Read(h1, "A");
  }

  /** The fork passes leave (event id, seq) alone and raise no flag for "A" here. */
  lemma NoFlagsHere(e: Event, es: seq<Entry>, base: VectorMap)
    requires e.creator == "C" && |es| == 2
    requires es[0].1.creator != "A" || es[0].1.highestEventsVector == map[]
    requires es[1].1.creator != "A" || es[1].1.highestEventsVector == map[]
    requires ForkFree(base)
    ensures Read(InheritForks(FlagSiblings(base, e, es), es, e.parents), "A") == Read(base, "A")
  {
    var r := InheritForks(FlagSiblings(base, e, es), es, e.parents);
    assert !ParentFlagsFork(es, e.parents, "A") by {
      assert forall p :: p in es ==> p == es[0] || p == es[1];
    }
    assert Read(r, "A").isFork == Read(base, "A").isFork;
  }

  /** A parent's own entry is overwritten unconditionally, so when another
      parent's vector already recorded a higher seq for the same validator the
      result depends on the order in which the map is ranged over. Here `e`
      cites `a` (validator "A", seq 1) and `b`, whose vector already saw "A" at
      seq 3: one order records seq 3 for "A", the other seq 1. */
  lemma GeneralBranchDependsOnOrder()
    ensures
      var a := Event(1, 1, 1, "A", "n", "a", [], map[], true);
      var b := Event(1, 4, 1, "B", "n", "b", [], map["A" := Vector("a3", 3, false)], false);
      var e := Event(1, 2, 1, "C", "n", "c", ["a", "b"], map[], false);
      && Read(HighestEventsVector(e, Some([("a", a), ("b", b)])), "A") == Vector("a3", 3, false)
      && Read(HighestEventsVector(e, Some([("b", b), ("a", a)])), "A") == Vector("a", 1, false)
  {
    var a := Event(1, 1, 1, "A", "n", "a", [], map[], true);
    var b := Event(1, 4, 1, "B", "n", "b", [], map["A" := Vector("a3", 3, false)], false);
    var e := Event(1, 2, 1, "C", "n", "c", ["a", "b"], map[], false);
    AdoptHigherAfter(a, b);
    AdoptLowerAfter(a, b);
    NoFlagsHere(e, [("a", a), ("b", b)], BaseVector(e, Some([("a", a), ("b", b)])));
    NoFlagsHere(e, [("b", b), ("a", a)], BaseVector(e, Some([("b", b), ("a", a)])));
  }

  /** Marking roots is idempotent and never takes a root flag away. */
  lemma SetRootIdempotent(e: Event)
    ensures SetRoot(SetRoot(e)) == SetRoot(e)
    ensures e.isRoot ==> SetRoot(e) == e
  {
  }

  // ---------------------------------------------------------------------------
  // Worked scenarios (validators "V1", "V2"; epoch 1)

  /** A first event seeded into an empty index observes only itself and is a root. */
  lemma ScenarioFirstEvent()
    ensures
      var e1 := Event(1, 1, 1, "V1", "n1", "e1", [], map[], false);
      && SetEvent(e1, Some([])).highestEventsVector == map["V1" := Vector("e1", 1, false)]
      && SetRoot(SetEvent(e1, Some([]))).isRoot
  {
  }

  /** The second event of "V1" records its self-parent, not itself: the general
      branch never writes the event's own entry, so "V1" maps to ("e1", 1). */
  lemma ScenarioSecondEvent()
    ensures
      var e1 := SetEvent(Event(1, 1, 1, "V1", "n1", "e1", [], map[], false), Some([]));
      var e2 := Event(1, 2, 1, "V1", "n1", "e2", ["e1"], map[], false);
      && HighestEventsVector(e2, Some([("e1", e1)])) == map["V1" := Vector("e1", 1, false)]
      && !SetRoot(e2).isRoot
  {
    var e1 := SetEvent(Event(1, 1, 1, "V1", "n1", "e1", [], map[], false), Some([]));
    var e2 := Event(1, 2, 1, "V1", "n1", "e2", ["e1"], map[], false);
    var es := [("e1", e1)];
    assert multiset(e2.parents)["e1"] == 1;
    var h0 := map["V1" := Vector("e1", 1, false)];
    var base := AdoptParent(map[], "e1", e1);
    assert base == h0 by {
      assert base.Keys == {"V1"};
      assert Read(base, "V1") == Read(h0, "V1");
    }
    assert AdoptEntries(map[], es, e2.parents) == AdoptEntries(base, [], e2.parents);
    var r := HighestEventsVector(e2, Some(es));
    assert !HasSibling(e2, es);
    assert !ParentFlagsFork(es, e2.parents, "V1");
    assert r.Keys == {"V1"} by {
      assert FlagSiblings(base, e2, es).Keys == {"V1"};
      assert forall x :: x in r && x !in base ==> Read(r, x).isFork;
    }
    assert Read(r, "V1") == Read(h0, "V1");
  }

  /** Two events of "V1" at seq 2 of epoch 1: the one ingested second sees the
      first in the index and flags "V1". */
  lemma ScenarioForkDetected()
    ensures
      var eB := Event(1, 2, 1, "V1", "n1", "eB", ["e1"], map[], false);
      var eA := Event(1, 2, 1, "V1", "n1", "eA", ["e1"], map[], false);
      Read(HighestEventsVector(eA, Some([("eB", eB)])), "V1").isFork
  {
    var eB := Event(1, 2, 1, "V1", "n1", "eB", ["e1"], map[], false);
    var eA := Event(1, 2, 1, "V1", "n1", "eA", ["e1"], map[], false);
    assert ("eB", eB) in [("eB", eB)];
  }

  /** An event of "V2" citing a parent whose own creator "V1" is flagged inherits the flag. */
  lemma ScenarioForkInherited(eA: Event)
    requires eA.creator == "V1" && Read(eA.highestEventsVector, "V1").isFork
    ensures
      var e3 := Event(1, 1, 1, "V2", "n2", "e3", ["eA"], map[], false);
      Read(HighestEventsVector(e3, Some([("eA", eA)])), "V1").isFork
  {
    assert ("eA", eA) in [("eA", eA)];
  }

  /** The flag is not carried one hop further: `e4` of "V2" cites only `e3`,
      whose own creator "V2" is not flagged, so "V1" is not flagged in `e4`
      although `e3` flags it. Inheritance reads only a parent's own creator. */
  lemma ScenarioForkNotPropagated(eA: Event)
    requires eA.creator == "V1" && Read(eA.highestEventsVector, "V1").isFork
    ensures
      var e3 := SetEvent(Event(1, 1, 1, "V2", "n2", "e3", ["eA"], map[], false), Some([("eA", eA)]));
      var e4 := Event(1, 2, 1, "V2", "n2", "e4", ["e3"], map[], false);
      && Read(e3.highestEventsVector, "V1").isFork
      && !Read(HighestEventsVector(e4, Some([("e3", e3)])), "V1").isFork
  {
    var e3 := SetEvent(Event(1, 1, 1, "V2", "n2", "e3", ["eA"], map[], false), Some([("eA", eA)]));
    var e4 := Event(1, 2, 1, "V2", "n2", "e4", ["e3"], map[], false);
    ScenarioForkInherited(eA);
    assert !Read(e3.highestEventsVector, "V2").isFork by {
      assert forall p :: p in [("eA", eA)] ==> p == ("eA", eA);
    }
    assert forall p :: p in [("e3", e3)] ==> p == ("e3", e3);
  }
}

=== FILE: lachesis.dfy ===
/** The single-instance engine of PyLachesis/lachesis.py: per-event
    pipeline of fork detection, "highest observed" merge, "lowest observing"
    marking, root and frame assignment and Atropos election voting, as pure
    functions over an explicit engine state. */
module LachesisEngine {
  import opened Wrappers
  import opened Weights

  /** How the engine names an event: `(creator, seq)`. */
  type EventKey = (Validator, nat)

  /** One entry of an event's `lowest_events_vector`: the first event of a
      validator known to observe it. */
  datatype Observer = Observer(eventId: EventKey, seqNum: nat)

  datatype Event = Event(
    id: EventKey,
    seqNum: nat,
    creator: Validator,
    parents: seq<EventKey>,
    lowest: map<Validator, Observer>,
    highest: map<Validator, int>,
    frame: Option<nat>,
    count: nat)

  datatype Vote = Vote(decided: bool, yes: bool)

  /** The fields of one `Lachesis` instance that the pipeline reads or writes.
      Quorum values are keyed by `Option<nat>` because the code may ask for the
      quorum of an event whose frame is still `None`. */
  datatype State = State(
    frame: nat,
    block: nat,
    frameToDecide: nat,
    cheaters: set<Validator>,
    validators: set<Validator>,
    weights: map<Validator, nat>,
    events: map<EventKey, Event>,
    lastSeq: map<Validator, nat>,
    quorumValues: map<Option<nat>, nat>,
    rootSetValidators: map<nat, set<Validator>>,
    rootSetNodes: map<nat, seq<EventKey>>,
    electionVotes: map<nat, map<(EventKey, EventKey), Vote>>,
    decidedRoots: map<EventKey, Vote>,
    atroposRoots: map<nat, EventKey>)

  /** A fresh instance, as the constructor builds it. */
  function Init(): State {
    State(1, 1, 1, {}, {}, map[], map[], map[], map[], map[], map[], map[], map[], map[])
  }

  /** The engine after the driver's set-up: the validators with their
      weights, all of them in the root-set validators of frame 1. Every
      lookup of a run starting here succeeds. */
  function Start(weights: map<Validator, nat>): (s: State)
    ensures Valid(s) && FramesValid(s)
    ensures s.validators == weights.Keys && s.weights == weights && s.events == map[]
  {
    Init().(validators := weights.Keys, weights := weights, rootSetValidators := map[1 := weights.Keys])
  }

  // ---------------------------------------------------------------------------
  // Quorum

  function TotalWeight(s: State): nat
    requires s.validators <= s.weights.Keys
  {
    SetSum(s.validators, s.weights)
  }

  /** The cache grew, and every new value is the quorum of the current weights. */
  ghost predicate CacheExtends(s: State, s': State)
    requires s.validators <= s.weights.Keys
  {
    && s' == s.(quorumValues := s'.quorumValues)
    && (forall f :: f in s.quorumValues ==> f in s'.quorumValues && s'.quorumValues[f] == s.quorumValues[f])
    && (forall f :: f in s'.quorumValues && f !in s.quorumValues ==> s'.quorumValues[f] == Quorum(TotalWeight(s)))
  }

  lemma CacheExtendsTrans(s: State, s1: State, s2: State)
    requires s.validators <= s.weights.Keys
    requires CacheExtends(s, s1) && CacheExtends(s1, s2)
    ensures CacheExtends(s, s2)
  {
  }

  /** `quorum(frame_number)`: cached per frame; a miss stores the least weight
      strictly above two thirds of the validators' total weight. */
  function GetQuorum(s: State, f: Option<nat>): (r: (State, nat))
    requires s.validators <= s.weights.Keys
    ensures CacheExtends(s, r.0)
    ensures f in r.0.quorumValues && r.0.quorumValues[f] == r.1
    ensures f in s.quorumValues ==> r.0 == s && r.1 == s.quorumValues[f]
    ensures f !in s.quorumValues ==> 3 * r.1 > 2 * TotalWeight(s) && 3 * (r.1 - 1) <= 2 * TotalWeight(s)
  {
    if f in s.quorumValues then (s, s.quorumValues[f])
    else
      var q := Quorum(TotalWeight(s));
      (s.(quorumValues := s.quorumValues[f := q]), q)
  }

  // ---------------------------------------------------------------------------
  // Parent lookups

  /** The engine can look `p` up: a cheater's id is skipped before the lookup. */
  predicate Resolvable(events: map<EventKey, Event>, cheaters: set<Validator>, p: EventKey) {
    p.0 in cheaters || p in events
  }

  /** Every parent of every stored event can be looked up. */
  ghost predicate Closed(events: map<EventKey, Event>, cheaters: set<Validator>) {
    forall k, p :: k in events && p in events[k].parents ==> Resolvable(events, cheaters, p)
  }

  // ---------------------------------------------------------------------------
  // highest_events_observed_by_event

  /** The loop over the parents, accumulating into `acc`. When the event cites
      itself, `parent` is the very dictionary being updated; merging it into
      itself changes nothing, so only its own seq is raised. */
  function HighestFold(events: map<EventKey, Event>, cheaters: set<Validator>, self: EventKey,
                       acc: map<Validator, int>, ps: seq<EventKey>): (r: map<Validator, int>)
    requires forall p :: p in ps ==> Resolvable(events, cheaters, p)
    ensures forall v :: Get(r, v) == MaxOpt(Get(acc, v), Observed(events, cheaters, self, ps, v))
    decreases |ps|
  {
    if ps == [] then acc
    else
      assert forall p :: p in ps[1..] ==> p in ps;
      assert ps[0] in ps;
      var pid := ps[0];
      if pid.0 in cheaters then HighestFold(events, cheaters, self, acc, ps[1..])
      else
        assert Resolvable(events, cheaters, pid);
        var parent := events[pid];
        var raised := RaiseTo(acc, parent.creator, parent.seqNum);
        var merged := if pid == self then raised else MaxMerge(raised, parent.highest);
        HighestFold(events, cheaters, self, merged, ps[1..])
  }

  /** Reference definition, one validator at a time: the largest seq of `v`
      that a non-cheater parent shows, either as its own creator's seq or in
      its own "highest observed" dictionary. */
  function Observed(events: map<EventKey, Event>, cheaters: set<Validator>, self: EventKey,
                    ps: seq<EventKey>, v: Validator): Option<int>
    requires forall p :: p in ps ==> Resolvable(events, cheaters, p)
    decreases |ps|
  {
    if ps == [] then None
    else
      assert forall p :: p in ps[1..] ==> p in ps;
      assert ps[0] in ps;
      var rest := Observed(events, cheaters, self, ps[1..], v);
      if ps[0].0 in cheaters then rest
      else
        assert Resolvable(events, cheaters, ps[0]);
        var parent := events[ps[0]];
        var own := if parent.creator == v then Some(parent.seqNum as int) else None;
        var seen := if ps[0] == self then None else Get(parent.highest, v);
        MaxOpt(MaxOpt(own, seen), rest)
  }

  /** `highest_events_observed_by_event`, applied to the stored event `id`. */
  function SetHighest(s: State, id: EventKey): (r: State)
    requires id in s.events
    requires forall p :: p in s.events[id].parents ==> Resolvable(s.events, s.cheaters, p)
    ensures r.events.Keys == s.events.Keys
    ensures r == s.(events := r.events)
    ensures r.events == s.events[id := s.events[id].(highest := r.events[id].highest)]
    ensures forall v :: Get(r.events[id].highest, v)
              == MaxOpt(Get(s.events[id].highest, v), Observed(s.events, s.cheaters, id, s.events[id].parents, v))
  {
    var e := s.events[id];
    s.(events := s.events[id := e.(highest := HighestFold(s.events, s.cheaters, id, e.highest, e.parents))])
  }

  // ---------------------------------------------------------------------------
  // detect_forks

  /** Creators of the parent ids that occur more than once. */
  function DuplicatedCreators(ps: seq<EventKey>): set<Validator>
    decreases |ps|
  {
    if ps == [] then {}
    else (if ps[0] in ps[1..] then {ps[0].0} else {}) + DuplicatedCreators(ps[1..])
  }

  /** Adds `vs` to the cheater list and zeroes their weights. */
  function Penalize(s: State, vs: set<Validator>): (r: State)
    ensures r == s.(cheaters := r.cheaters, weights := r.weights)
    ensures r.cheaters == s.cheaters + vs
    ensures r.weights.Keys == s.weights.Keys + vs
    ensures forall v :: v in r.weights ==> r.weights[v] == if v in vs then 0 else s.weights[v]
  {
    s.(cheaters := s.cheaters + vs,
       weights := map v | v in s.weights.Keys + vs :: if v in vs then 0 else s.weights[v])
  }

  /** The validators `detect_forks` flags for `e`. */
  function Flagged(s: State, e: Event): set<Validator> {
    (if e.id in e.parents then {e.creator} else {})
    + DuplicatedCreators(e.parents)
    + (if e.creator in s.lastSeq && s.lastSeq[e.creator] >= e.seqNum then {e.creator} else {})
  }

  /** The creators flagged for duplicates are exactly those of the parent ids
      that occur more than once; so some creator is flagged exactly when some
      parent id repeats. */
  lemma {:induction false} DuplicatesFlagged(ps: seq<EventKey>)
    ensures forall v :: v in DuplicatedCreators(ps) <==> exists p :: p in ps && p.0 == v && multiset(ps)[p] > 1
    ensures DuplicatedCreators(ps) != {} <==> exists p :: p in ps && multiset(ps)[p] > 1
    decreases |ps|
  {
    if ps != [] {
      var t := ps[1..];
      assert ps == [ps[0]] + t;
      assert multiset(ps) == multiset([ps[0]]) + multiset(t);
      DuplicatesFlagged(t);
      forall v | v in DuplicatedCreators(ps)
        ensures exists p :: p in ps && p.0 == v && multiset(ps)[p] > 1
      {
        if ps[0] in t && v == ps[0].0 {
          assert multiset(ps)[ps[0]] > 1;
        } else {
          var p :| p in t && p.0 == v && multiset(t)[p] > 1;
          assert p in ps && multiset(ps)[p] > 1;
        }
      }
      forall p | p in ps && multiset(ps)[p] > 1
        ensures p.0 in DuplicatedCreators(ps)
      {
        if p != ps[0] {
          assert p in t && multiset(t)[p] > 1;
        } else {
          assert multiset(t)[p] > 0;
        }
      }
      if DuplicatedCreators(ps) != {} {
        var v :| v in DuplicatedCreators(ps);
      }
    }
  }

  /** `detect_forks`: an event citing itself, a parent cited twice, or a seq not
      above its creator's last recorded seq marks the validators involved as
      cheaters with weight zero; the answer says whether any was found. The
      code flags in three passes; adding to the cheater set and zeroing a
      weight are idempotent and commute, so flagging the union once is the
      same. The creator's last seq is advanced only when the event advances it. */
  function DetectForks(s: State, e: Event): (State, bool) {
    var flagged := Flagged(s, e);
    var lastSeq := if e.creator !in s.lastSeq || s.lastSeq[e.creator] < e.seqNum
                   then s.lastSeq[e.creator := e.seqNum] else s.lastSeq;
    (Penalize(s, flagged).(lastSeq := lastSeq), flagged != {})
  }

  /** `detect_forks` reports a fork exactly on a self-citation, a repeated
      parent id or a seq not above the creator's last recorded one. */
  lemma DetectForksReports(s: State, e: Event)
    ensures DetectForks(s, e).1 <==> || e.id in e.parents
                                     || (exists p :: p in e.parents && multiset(e.parents)[p] > 1)
                                     || (e.creator in s.lastSeq && s.lastSeq[e.creator] >= e.seqNum)
  {
    DuplicatesFlagged(e.parents);
  }

  /** Only the creator's last recorded seq moves, and never down: afterwards
      it is at least the event's seq. */
  lemma DetectForksAdvancesSeq(s: State, e: Event)
    ensures var r := DetectForks(s, e).0;
      && r.lastSeq.Keys == s.lastSeq.Keys + {e.creator}
      && (forall v :: v in r.lastSeq && v != e.creator ==> r.lastSeq[v] == s.lastSeq[v])
      && (forall v :: v in s.lastSeq ==> r.lastSeq[v] >= s.lastSeq[v])
      && r.lastSeq[e.creator] >= e.seqNum
  {
  }

  /** Handing the same event over twice is always reported as a fork, and
      its creator is then a cheater of weight zero. */
  lemma DetectForksReplay(s: State, e: Event)
    ensures var s1 := DetectForks(s, e).0;
      && DetectForks(s1, e).1
      && e.creator in DetectForks(s1, e).0.cheaters
      && DetectForks(s1, e).0.weights[e.creator] == 0
  {
    var s1 := DetectForks(s, e).0;
    DetectForksAdvancesSeq(s, e);
    assert e.creator in Flagged(s1, e);
  }

  /** A cheater stays a cheater and keeps weight zero. */
  lemma DetectForksKeepsCheaters(s: State, e: Event)
    requires forall v :: v in s.cheaters ==> v in s.weights && s.weights[v] == 0
    ensures var r := DetectForks(s, e).0;
      && s.cheaters <= r.cheaters
      && (forall v :: v in r.cheaters ==> v in r.weights && r.weights[v] == 0)
      && (forall v :: v in s.weights && v !in r.cheaters ==> r.weights[v] == s.weights[v])
  {
  }

  // ---------------------------------------------------------------------------
  // forkless_cause

  /** Validators on which `b`'s first observer is no later than what `a` has seen. */
  function Agreeing(a: Event, b: Event): set<Validator> {
    set v | v in a.highest && v in b.lowest && b.lowest[v].seqNum <= a.highest[v]
  }

  /** `forkless_cause(a, b)`: false for a cheater on either side, otherwise the
      agreeing validators' weight must reach the quorum of `b`'s frame. */
  function ForklessCause(s: State, a: Event, b: Event): (r: (State, bool))
    requires s.validators <= s.weights.Keys && a.highest.Keys <= s.weights.Keys
    ensures CacheExtends(s, r.0)
    ensures a.id.0 in s.cheaters || b.id.0 in s.cheaters ==> r == (s, false)
    ensures a.id.0 !in s.cheaters && b.id.0 !in s.cheaters ==>
              && b.frame in r.0.quorumValues
              && (r.1 <==> SetSum(Agreeing(a, b), s.weights) >= r.0.quorumValues[b.frame])
  {
    if a.id.0 in s.cheaters || b.id.0 in s.cheaters then (s, false)
    else
      var yes := SetSum(Agreeing(a, b), s.weights);
      var (s1, q) := GetQuorum(s, b.frame);
      (s1, yes >= q)
  }

  /** Seeing more can only help: if `a` forkless-causes `b`, so does any `a'`
      whose "highest observed" entries are at least `a`'s. */
  lemma ForklessCauseMonotone(s: State, a: Event, a': Event, b: Event)
    requires s.validators <= s.weights.Keys && a.highest.Keys <= s.weights.Keys && a'.highest.Keys <= s.weights.Keys
    requires a'.id.0 == a.id.0
    requires forall v :: v in a.highest ==> v in a'.highest && a'.highest[v] >= a.highest[v]
    ensures ForklessCause(s, a, b).1 ==> ForklessCause(s, a', b).1
  {
    assert Agreeing(a, b) <= Agreeing(a', b);
    SetSumSubset(Agreeing(a, b), Agreeing(a', b), s.weights);
  }

  // ---------------------------------------------------------------------------
  // set_lowest_events_vector

  function Unmarked(events: map<EventKey, Event>, obs: Validator): set<EventKey> {
    set k | k in events && obs !in events[k].lowest
  }

  /** Marking an event keeps every lookup of the walk possible. */
  lemma MarkKeepsClosed(events: map<EventKey, Event>, cheaters: set<Validator>, pid: EventKey,
                        lowest: map<Validator, Observer>, rest: seq<EventKey>)
    requires Closed(events, cheaters) && pid in events
    requires forall p :: p in rest ==> Resolvable(events, cheaters, p)
    ensures var events' := events[pid := events[pid].(lowest := lowest)];
      && Closed(events', cheaters)
      && (forall p :: p in rest + events[pid].parents ==> Resolvable(events', cheaters, p))
      && (forall p :: p in rest ==> Resolvable(events', cheaters, p))
  {
    var events' := events[pid := events[pid].(lowest := lowest)];
    assert events'.Keys == events.Keys;
    forall k, p | k in events' && p in events'[k].parents ensures Resolvable(events', cheaters, p) {
      assert events'[k].parents == events[k].parents;
      assert Resolvable(events, cheaters, p);
    }
    forall p | p in rest + events[pid].parents ensures Resolvable(events', cheaters, p) {
      if p !in rest {
        assert pid in events && p in events[pid].parents;
      }
    }
  }

  /** `r` differs from `events` only in "lowest observing" entries of
      non-cheaters, each of which gained the observer (`obs`, `o`) if it had
      none for `obs`. */
  ghost predicate OnlyMarks(events: map<EventKey, Event>, r: map<EventKey, Event>, cheaters: set<Validator>,
                            obs: Validator, o: Observer) {
    && r.Keys == events.Keys
    && (forall k :: k in events ==> r[k] == events[k].(lowest := r[k].lowest))
    && (forall k :: k in events && obs in events[k].lowest ==> r[k] == events[k])
    && (forall k :: k in events ==>
          || r[k].lowest == events[k].lowest
          || (k.0 !in cheaters && r[k].lowest == events[k].lowest[obs := o]))
  }

  lemma OnlyMarksStep(events: map<EventKey, Event>, r: map<EventKey, Event>, cheaters: set<Validator>,
                      obs: Validator, o: Observer, pid: EventKey)
    requires pid in events && pid.0 !in cheaters && obs !in events[pid].lowest
    requires OnlyMarks(events[pid := events[pid].(lowest := events[pid].lowest[obs := o])], r, cheaters, obs, o)
    ensures OnlyMarks(events, r, cheaters, obs, o)
  {
    var events' := events[pid := events[pid].(lowest := events[pid].lowest[obs := o])];
    assert obs in events'[pid].lowest;
    assert r[pid] == events'[pid];
    forall k | k in events && k != pid
      ensures r[k] == events[k].(lowest := r[k].lowest)
      ensures obs in events[k].lowest ==> r[k] == events[k]
    {
      assert events'[k] == events[k];
    }
  }

  /** The breadth-first walk of `set_lowest_events_vector` for the observing
      event (`obs`, `obsId`, `obsSeq`), from the pending `queue`. An ancestor
      that already has an observer of `obs` is neither overwritten nor
      expanded; an ancestor by `obs` itself is marked but not expanded. Each
      expansion marks one more event, which bounds the walk. */
  function LowestWalk(events: map<EventKey, Event>, cheaters: set<Validator>, obs: Validator,
                      obsId: EventKey, obsSeq: nat, queue: seq<EventKey>): (r: map<EventKey, Event>)
    requires Closed(events, cheaters)
    requires forall p :: p in queue ==> Resolvable(events, cheaters, p)
    ensures OnlyMarks(events, r, cheaters, obs, Observer(obsId, obsSeq))
    decreases |Unmarked(events, obs)|, |queue|
  {
    if queue == [] then events
    else
      assert forall p :: p in queue[1..] ==> p in queue;
      assert queue[0] in queue;
      var pid := queue[0];
      if pid.0 in cheaters then LowestWalk(events, cheaters, obs, obsId, obsSeq, queue[1..])
      else
        assert Resolvable(events, cheaters, pid);
        var parent := events[pid];
        if obs in parent.lowest then LowestWalk(events, cheaters, obs, obsId, obsSeq, queue[1..])
        else
          var o := Observer(obsId, obsSeq);
          var events' := events[pid := parent.(lowest := parent.lowest[obs := o])];
          assert Unmarked(events', obs) == Unmarked(events, obs) - {pid};
          assert pid in Unmarked(events, obs);
          var next := queue[1..] + if obs != parent.creator then parent.parents else [];
          MarkKeepsClosed(events, cheaters, pid, parent.lowest[obs := o], queue[1..]);
          var r := LowestWalk(events', cheaters, obs, obsId, obsSeq, next);
          OnlyMarksStep(events, r, cheaters, obs, o, pid);
          r
  }

  /** Every non-cheater in the queue ends up with an observer of `obs`. */
  ghost predicate QueueMarked(r: map<EventKey, Event>, cheaters: set<Validator>, obs: Validator,
                              queue: seq<EventKey>) {
    forall p :: p in queue && p.0 !in cheaters ==> p in r && obs in r[p].lowest
  }

  /** Every event the walk marked, unless `obs` created it, has all its
      non-cheater parents marked too. */
  ghost predicate MarksClosed(events: map<EventKey, Event>, r: map<EventKey, Event>, cheaters: set<Validator>,
                              obs: Validator) {
    forall k, p :: k in events && k in r && obs !in events[k].lowest && obs in r[k].lowest
                   && events[k].creator != obs && p in events[k].parents && p.0 !in cheaters
                   ==> p in r && obs in r[p].lowest
  }

  /** Skipping a cheater or an already marked head keeps the queue marked. */
  lemma SkipStepComplete(events: map<EventKey, Event>, r: map<EventKey, Event>, cheaters: set<Validator>,
                         obs: Validator, o: Observer, queue: seq<EventKey>)
    requires queue != [] && (queue[0].0 in cheaters || (queue[0] in events && obs in events[queue[0]].lowest))
    requires OnlyMarks(events, r, cheaters, obs, o) && QueueMarked(r, cheaters, obs, queue[1..])
    ensures QueueMarked(r, cheaters, obs, queue)
  {
    assert forall p :: p in queue ==> p == queue[0] || p in queue[1..] by {
      assert queue == [queue[0]] + queue[1..];
    }
  }

  /** Marking the head and queueing its parents keeps both properties. */
  lemma MarkStepComplete(events: map<EventKey, Event>, r: map<EventKey, Event>, cheaters: set<Validator>,
                         obs: Validator, o: Observer, queue: seq<EventKey>, next: seq<EventKey>)
    requires queue != [] && queue[0] in events && obs !in events[queue[0]].lowest
    requires next == queue[1..] + if obs != events[queue[0]].creator then events[queue[0]].parents else []
    requires var events' := events[queue[0] := events[queue[0]].(lowest := events[queue[0]].lowest[obs := o])];
      OnlyMarks(events', r, cheaters, obs, o) && QueueMarked(r, cheaters, obs, next)
      && MarksClosed(events', r, cheaters, obs)
    ensures QueueMarked(r, cheaters, obs, queue) && MarksClosed(events, r, cheaters, obs)
  {
    var pid := queue[0];
    var events' := events[pid := events[pid].(lowest := events[pid].lowest[obs := o])];
    assert obs in events'[pid].lowest && r[pid] == events'[pid];
    assert forall p :: p in queue ==> p == pid || p in queue[1..] by {
      assert queue == [pid] + queue[1..];
    }
    forall k, p | k in events && k in r && obs !in events[k].lowest && obs in r[k].lowest
                  && events[k].creator != obs && p in events[k].parents && p.0 !in cheaters
      ensures p in r && obs in r[p].lowest
    {
      if k == pid {
        assert p in next;
      } else {
        assert events'[k] == events[k];
      }
    }
  }

  /** The walk is complete: it marks every non-cheater it is handed, and
      whatever it newly marks has its non-cheater parents marked, so the
      marked events are closed under the parent relation (stopping at
      `obs`'s own events). */
  lemma {:induction false} LowestWalkComplete(events: map<EventKey, Event>, cheaters: set<Validator>, obs: Validator,
                                              obsId: EventKey, obsSeq: nat, queue: seq<EventKey>)
    requires Closed(events, cheaters)
    requires forall p :: p in queue ==> Resolvable(events, cheaters, p)
    ensures var r := LowestWalk(events, cheaters, obs, obsId, obsSeq, queue);
      QueueMarked(r, cheaters, obs, queue) && MarksClosed(events, r, cheaters, obs)
    decreases |Unmarked(events, obs)|, |queue|
  {
    if queue != [] {
      var r := LowestWalk(events, cheaters, obs, obsId, obsSeq, queue);
      var o := Observer(obsId, obsSeq);
      assert forall p :: p in queue[1..] ==> p in queue;
      assert queue[0] in queue;
      var pid := queue[0];
      if pid.0 in cheaters || obs in events[pid].lowest {
        LowestWalkComplete(events, cheaters, obs, obsId, obsSeq, queue[1..]);
        SkipStepComplete(events, r, cheaters, obs, o, queue);
      } else {
        var parent := events[pid];
        var events' := events[pid := parent.(lowest := parent.lowest[obs := o])];
        assert Unmarked(events', obs) == Unmarked(events, obs) - {pid};
        assert pid in Unmarked(events, obs);
        var next := queue[1..] + if obs != parent.creator then parent.parents else [];
        MarkKeepsClosed(events, cheaters, pid, parent.lowest[obs := o], queue[1..]);
        LowestWalkComplete(events', cheaters, obs, obsId, obsSeq, next);
        MarkStepComplete(events, r, cheaters, obs, o, queue, next);
      }
    }
  }

  // ---------------------------------------------------------------------------
  // check_for_roots / forkless_cause_quorum

  /** The quorum `quorum(f)` answers in state `s`: the cached value, or the
      one a miss computes from the current weights. */
  function QuorumOf(s: State, f: Option<nat>): nat
    requires s.validators <= s.weights.Keys
  {
    if f in s.quorumValues then s.quorumValues[f] else Quorum(TotalWeight(s))
  }

  /** A grown cache answers every quorum as the engine would have computed it. */
  lemma CachedQuorumOf(s: State, s1: State, f: Option<nat>)
    requires s.validators <= s.weights.Keys && CacheExtends(s, s1)
    ensures QuorumOf(s1, f) == QuorumOf(s, f)
  {
    assert TotalWeight(s1) == TotalWeight(s);
  }

  /** `forkless_cause` gives the same answer after any cache growth. */
  lemma ForklessCauseCached(s: State, s1: State, a: Event, b: Event)
    requires s.validators <= s.weights.Keys && a.highest.Keys <= s.weights.Keys && CacheExtends(s, s1)
    ensures ForklessCause(s1, a, b).1 == ForklessCause(s, a, b).1
  {
    CachedQuorumOf(s, s1, b.frame);
  }

  /** The weight `forkless_cause_quorum` should find: the creators of the
      listed roots that forkless-cause `e`, each root asked in state `s`. */
  function CausedWeight(s: State, e: Event, roots: seq<EventKey>): nat
    requires s.validators <= s.weights.Keys && e.highest.Keys <= s.weights.Keys
    requires forall i :: 0 <= i < |roots| ==> roots[i] in s.events && s.events[roots[i]].creator in s.weights
    decreases |roots|
  {
    if roots == [] then 0
    else
      (if ForklessCause(s, e, s.events[roots[0]]).1 then s.weights[s.events[roots[0]].creator] else 0)
      + CausedWeight(s, e, roots[1..])
  }

  /** The reference weight does not change when the cache only gains
      entries a miss would compute from the current weights. */
  lemma {:induction false} CausedWeightCached(s: State, s1: State, e: Event, roots: seq<EventKey>)
    requires s.validators <= s.weights.Keys && e.highest.Keys <= s.weights.Keys && CacheExtends(s, s1)
    requires forall i :: 0 <= i < |roots| ==> roots[i] in s.events && s.events[roots[i]].creator in s.weights
    ensures CausedWeight(s1, e, roots) == CausedWeight(s, e, roots)
    decreases |roots|
  {
    if roots != [] {
      ForklessCauseCached(s, s1, e, s.events[roots[0]]);
      CausedWeightCached(s, s1, e, roots[1..]);
    }
  }

  /** The fold over a frame's roots: each root that forkless-causes `e` adds
      its creator's weight. The calls share one growing quorum cache, and the
      sum is the one every root would give asked in the starting state. */
  function CountForklessRoots(s: State, e: Event, roots: seq<EventKey>): (r: (State, nat))
    requires s.validators <= s.weights.Keys && e.highest.Keys <= s.weights.Keys
    requires forall i :: 0 <= i < |roots| ==> roots[i] in s.events && s.events[roots[i]].creator in s.weights
    ensures CacheExtends(s, r.0)
    ensures r.1 == CausedWeight(s, e, roots)
    ensures r.1 <= RootsWeight(s.events, s.weights, roots)
    decreases |roots|
  {
    if roots == [] then (s, 0)
    else
      var (s1, fc) := ForklessCause(s, e, s.events[roots[0]]);
      var w := if fc then s.weights[s.events[roots[0]].creator] else 0;
      var (s2, n) := CountForklessRoots(s1, e, roots[1..]);
      CacheExtendsTrans(s, s1, s2);
      CausedWeightCached(s, s1, e, roots[1..]);
      (s2, w + n)
  }

  /** Weight of the roots' creators, one term per root. */
  function RootsWeight(events: map<EventKey, Event>, weights: map<Validator, nat>, roots: seq<EventKey>): nat
    requires forall i :: 0 <= i < |roots| ==> roots[i] in events && events[roots[i]].creator in weights
    decreases |roots|
  {
    if roots == [] then 0 else weights[events[roots[0]].creator] + RootsWeight(events, weights, roots[1..])
  }

  ghost predicate RootsResolvable(s: State) {
    forall f, i :: f in s.rootSetNodes && 0 <= i < |s.rootSetNodes[f]| ==>
      s.rootSetNodes[f][i] in s.events && s.events[s.rootSetNodes[f][i]].creator in s.weights
      && s.rootSetNodes[f][i].0 in s.weights
  }

  /** `forkless_cause_quorum(event, frame)`: fails like the code when the frame
      has no root set (or is `None`). */
  function ForklessCauseQuorum(s: State, e: Event, f: Option<nat>): (r: Result<(State, bool)>)
    requires s.validators <= s.weights.Keys && e.highest.Keys <= s.weights.Keys
    requires RootsResolvable(s)
    ensures r.Ok? <==> f.Some? && f.value in s.rootSetNodes
    ensures r.Ok? ==> CacheExtends(s, r.value.0) && f in r.value.0.quorumValues
    ensures r.Ok? ==> r.value.0.quorumValues[f] == QuorumOf(s, f)
    ensures r.Ok? ==> (r.value.1 <==> CausedWeight(s, e, s.rootSetNodes[f.value]) >= QuorumOf(s, f))
    ensures r.Ok? && r.value.1 ==> RootsWeight(s.events, s.weights, s.rootSetNodes[f.value]) >= r.value.0.quorumValues[f]
  {
    if f.None? || f.value !in s.rootSetNodes then Failure(MissingRootSet(f))
    else
      var (s1, count) := CountForklessRoots(s, e, s.rootSetNodes[f.value]);
      var (s2, q) := GetQuorum(s1, f);
      CachedQuorumOf(s, s1, f);
      Ok((s2, count >= q))
  }

  /** `check_for_roots`: (is root, target frame). A first event is a root of
      frame 1; a later event by a non-cheater is a root of the frame after its
      self-parent's when that frame's roots forkless-cause it by quorum. */
  function CheckForRoots(s: State, e: Event): (r: Result<(State, bool, Option<nat>)>)
    requires s.validators <= s.weights.Keys && e.highest.Keys <= s.weights.Keys
    requires RootsResolvable(s)
    requires e.seqNum >= 1 && (e.seqNum == 1 || (e.creator, e.seqNum - 1) in s.events)
    ensures e.seqNum == 1 ==> r == Ok((s, true, Some(1)))
    ensures e.seqNum > 1 && e.creator in s.cheaters ==> r == Ok((s, false, None))
    ensures r.Ok? ==> CacheExtends(s, r.value.0)
    ensures r.Ok? ==> (r.value.1 <==> r.value.2.Some?)
    ensures e.seqNum > 1 && e.creator !in s.cheaters ==>
              var sp := s.events[(e.creator, e.seqNum - 1)];
              && (r.Failure? <==> sp.frame.None? || sp.frame.value !in s.rootSetNodes)
              && (r.Ok? ==> (r.value.1 <==> CausedWeight(s, e, s.rootSetNodes[sp.frame.value]) >= QuorumOf(s, sp.frame)))
    ensures r.Ok? && r.value.1 && e.seqNum > 1 ==>
              && e.creator !in s.cheaters
              && s.events[(e.creator, e.seqNum - 1)].frame.Some?
              && r.value.2 == Some(s.events[(e.creator, e.seqNum - 1)].frame.value + 1)
  {
    if e.seqNum == 1 then Ok((s, true, Some(1)))
    else
      var selfParent := s.events[(e.creator, e.seqNum - 1)];
      if e.creator !in s.cheaters then
        var q :- ForklessCauseQuorum(s, e, selfParent.frame);
        if q.1 then Ok((q.0, true, Some(selfParent.frame.value + 1)))
        else Ok((q.0, false, None))
      else Ok((s, false, None))
  }

  // ---------------------------------------------------------------------------
  // atropos_voting

  /** The prior-round tally for `candidate`: each previous-frame root adds its
      creator's weight to "yes" if it voted yes, to "no" otherwise (also when
      it has not voted). */
  function Tally(votes: map<(EventKey, EventKey), Vote>, weights: map<Validator, nat>,
                 prevRoots: seq<EventKey>, candidate: EventKey): (r: (nat, nat))
    requires forall i :: 0 <= i < |prevRoots| ==> prevRoots[i].0 in weights
    ensures r.0 + r.1 == RootCreatorsWeight(weights, prevRoots)
    ensures r.0 == YesWeight(votes, weights, prevRoots, candidate)
    decreases |prevRoots|
  {
    if prevRoots == [] then (0, 0)
    else
      var (y, n) := Tally(votes, weights, prevRoots[1..], candidate);
      var w := weights[prevRoots[0].0];
      var key := (prevRoots[0], candidate);
      if key in votes && votes[key].yes then (y + w, n) else (y, n + w)
  }

  function RootCreatorsWeight(weights: map<Validator, nat>, roots: seq<EventKey>): nat
    requires forall i :: 0 <= i < |roots| ==> roots[i].0 in weights
    decreases |roots|
  {
    if roots == [] then 0 else weights[roots[0].0] + RootCreatorsWeight(weights, roots[1..])
  }

  /** Weight of the roots that recorded a yes vote on `candidate`. */
  function YesWeight(votes: map<(EventKey, EventKey), Vote>, weights: map<Validator, nat>,
                     roots: seq<EventKey>, candidate: EventKey): nat
    requires forall i :: 0 <= i < |roots| ==> roots[i].0 in weights
    decreases |roots|
  {
    if roots == [] then 0
    else
      (if (roots[0], candidate) in votes && votes[(roots[0], candidate)].yes then weights[roots[0].0] else 0)
      + YesWeight(votes, weights, roots[1..], candidate)
  }

  /** A vote from a tally: decided once either side reaches the quorum, "yes"
      when yes is at least no. */
  function DecideVote(yes: nat, no: nat, q: nat): (v: Vote)
    ensures v.decided <==> yes >= q || no >= q
    ensures v.yes <==> yes >= no
  {
    Vote(yes >= q || no >= q, yes >= no)
  }

  /** Stores `vote` and, when it decides yes, makes `candidate` the Atropos of
      the frame being decided and advances that frame and the block together. */
  function Record(s: State, newRoot: EventKey, candidate: EventKey, vote: Vote): (r: State)
    requires s.frameToDecide in s.electionVotes
    ensures r.block - r.frameToDecide == s.block - s.frameToDecide
    ensures r.frameToDecide == if vote.decided && vote.yes then s.frameToDecide + 1 else s.frameToDecide
    ensures vote.decided && vote.yes ==> r.atroposRoots == s.atroposRoots[s.frameToDecide := candidate]
    ensures !(vote.decided && vote.yes) ==> r.atroposRoots == s.atroposRoots
    ensures r.electionVotes == s.electionVotes[s.frameToDecide := s.electionVotes[s.frameToDecide][(newRoot, candidate) := vote]]
    ensures r.decidedRoots == if vote.decided then s.decidedRoots[candidate := vote] else s.decidedRoots
    ensures r == s.(electionVotes := r.electionVotes, decidedRoots := r.decidedRoots,
                    atroposRoots := r.atroposRoots, frameToDecide := r.frameToDecide, block := r.block)
  {
    var ftd := s.frameToDecide;
    var s1 := s.(electionVotes := s.electionVotes[ftd := s.electionVotes[ftd][(newRoot, candidate) := vote]]);
    if !vote.decided then s1
    else
      var s2 := s1.(decidedRoots := s1.decidedRoots[candidate := vote]);
      if vote.yes then s2.(atroposRoots := s2.atroposRoots[ftd := candidate], frameToDecide := ftd + 1, block := s2.block + 1)
      else s2
  }

  /** Facts the voting lookups rely on. */
  ghost predicate VotingReady(s: State, newRoot: EventKey) {
    && s.validators <= s.weights.Keys
    && newRoot in s.events && s.events[newRoot].highest.Keys <= s.weights.Keys
    && RootsResolvable(s)
  }

  /** Everything voting may change. */
  ghost predicate VotingFrame(s: State, r: State) {
    && r == s.(quorumValues := r.quorumValues, electionVotes := r.electionVotes, decidedRoots := r.decidedRoots,
               atroposRoots := r.atroposRoots, frameToDecide := r.frameToDecide, block := r.block)
    && r.block - r.frameToDecide == s.block - s.frameToDecide
    && s.frameToDecide <= r.frameToDecide
    && (forall f :: f in s.atroposRoots ==> f in r.atroposRoots && r.atroposRoots[f] == s.atroposRoots[f])
    && (forall f :: s.frameToDecide <= f < r.frameToDecide ==> f in r.atroposRoots)
    && (s.frameToDecide <= s.frame ==> r.frameToDecide <= r.frame)
  }

  /** The votes of the election of the frame being decided, created empty on first use. */
  function OpenRound(s: State): (r: State)
    ensures r == s.(electionVotes := r.electionVotes)
    ensures s.frameToDecide in r.electionVotes
    ensures r.electionVotes == if s.frameToDecide in s.electionVotes then s.electionVotes
                               else s.electionVotes[s.frameToDecide := map[]]
  {
    if s.frameToDecide in s.electionVotes then s
    else s.(electionVotes := s.electionVotes[s.frameToDecide := map[]])
  }

  /** The vote `newRoot` casts on `candidate`, if the current frame is past
      the one being decided. One frame past, it is the undecided answer of
      `forkless_cause(new_root, candidate)`; further on, it is decided from
      the previous frame's roots' votes. */
  function CastVote(s: State, newRoot: EventKey, candidate: EventKey): (r: Result<(State, Option<Vote>)>)
    requires VotingReady(s, newRoot) && candidate in s.events
    requires s.frameToDecide in s.electionVotes
    ensures r.Failure? <==> s.frame >= s.frameToDecide + 2 && s.frame - 1 !in s.rootSetNodes
    ensures r.Ok? ==> CacheExtends(s, r.value.0)
    ensures r.Ok? ==> (r.value.1.Some? <==> s.frame >= s.frameToDecide + 1)
    ensures r.Ok? && r.value.1.Some? && r.value.1.value.decided ==> s.frame >= s.frameToDecide + 2
    ensures r.Ok? && s.frame == s.frameToDecide + 1 ==>
              r.value.1 == Some(Vote(false, ForklessCause(s, s.events[newRoot], s.events[candidate]).1))
    ensures r.Ok? && s.frame >= s.frameToDecide + 2 ==>
              var prev := s.rootSetNodes[s.frame - 1];
              var yes := YesWeight(s.electionVotes[s.frameToDecide], s.weights, prev, candidate);
              var no := RootCreatorsWeight(s.weights, prev) - yes;
              var q := QuorumOf(s, Some(s.frame));
              r.value.1 == Some(Vote(yes >= q || no >= q, yes >= no))
  {
    var ftd := s.frameToDecide;
    if s.frame == ftd + 1 then
      var (s1, fc) := ForklessCause(s, s.events[newRoot], s.events[candidate]);
      Ok((s1, Some(Vote(false, fc))))
    else if s.frame >= ftd + 2 then
      if s.frame - 1 !in s.rootSetNodes then Failure(MissingRootSet(Some(s.frame - 1)))
      else
        var (yes, no) := Tally(s.electionVotes[ftd], s.weights, s.rootSetNodes[s.frame - 1], candidate);
        var (s1, q) := GetQuorum(s, Some(s.frame));
        Ok((s1, Some(DecideVote(yes, no, q))))
    else Ok((s, None))
  }

  /** Voting steps compose. */
  lemma VotingFrameTrans(s: State, s1: State, s2: State)
    requires VotingFrame(s, s1) && VotingFrame(s1, s2)
    ensures VotingFrame(s, s2)
  {
  }

  lemma VotingFrameKeepsReady(s: State, s1: State, newRoot: EventKey)
    requires VotingFrame(s, s1) && VotingReady(s, newRoot)
    ensures VotingReady(s1, newRoot)
  {
  }

  lemma CacheIsVotingFrame(s: State, s1: State)
    requires s.validators <= s.weights.Keys
    requires CacheExtends(s, s1)
    ensures VotingFrame(s, s1)
  {
  }

  lemma RecordIsVotingFrame(s: State, newRoot: EventKey, candidate: EventKey, vote: Vote)
    requires s.frameToDecide in s.electionVotes
    requires forall f :: f in s.atroposRoots ==> f < s.frameToDecide
    requires vote.decided ==> s.frame >= s.frameToDecide + 2
    ensures VotingFrame(s, Record(s, newRoot, candidate, vote))
    ensures forall f :: f in Record(s, newRoot, candidate, vote).atroposRoots ==>
              f < Record(s, newRoot, candidate, vote).frameToDecide
  {
  }

  /** What one vote step promises from `s`: only voting data changes, the
      Atropos table stays behind the frame being decided, and a failure
      means the previous frame has no root set. */
  ghost predicate VoteKept(s: State, newRoot: EventKey, r: Result<State>) {
    && (r.Ok? ==> VotingFrame(s, r.value) && VotingReady(r.value, newRoot)
                  && forall f :: f in r.value.atroposRoots ==> f < r.value.frameToDecide)
    && (r.Failure? ==> s.frame >= s.frameToDecide + 2 && s.frame - 1 !in s.rootSetNodes)
  }

  /** The votes cast so far in the election of the frame being decided. */
  function Ballots(s: State): map<(EventKey, EventKey), Vote> {
    if s.frameToDecide in s.electionVotes then s.electionVotes[s.frameToDecide] else map[]
  }

  /** `candidate` has been made the Atropos of the frame being decided, and
      the roots of the previous frame that voted yes on it weigh at least
      the quorum of the current frame. */
  ghost predicate Elected(s: State, t: State, candidate: EventKey)
    requires s.validators <= s.weights.Keys && RootsResolvable(s)
  {
    && t.frameToDecide == s.frameToDecide + 1
    && t.atroposRoots == s.atroposRoots[s.frameToDecide := candidate]
    && s.frame >= s.frameToDecide + 2 && s.frame - 1 in s.rootSetNodes
    && YesWeight(Ballots(s), s.weights, s.rootSetNodes[s.frame - 1], candidate) >= QuorumOf(s, Some(s.frame))
  }

  /** One iteration of the loop over candidates: a pair that already voted in
      this round is skipped, and a vote that moves the election on elects
      `candidate` by a quorum of yes votes. */
  function VoteOn(s: State, newRoot: EventKey, candidate: EventKey): (r: Result<State>)
    requires VotingReady(s, newRoot) && candidate in s.events
    requires forall f :: f in s.atroposRoots ==> f < s.frameToDecide
    ensures VoteKept(s, newRoot, r)
    ensures r.Ok? && r.value.frameToDecide != s.frameToDecide ==> Elected(s, r.value, candidate)
  {
    var s1 := OpenRound(s);
    OpenKept(s, newRoot);
    if (newRoot, candidate) in s1.electionVotes[s1.frameToDecide] then Ok(s1)
    else
      var c := CastVote(s1, newRoot, candidate);
      if c.Failure? then Failure(c.error)
      else
        CastKept(s, s1, newRoot, candidate, c.value);
        CastElects(s, s1, newRoot, candidate, c.value);
        Ok(if c.value.1.None? then c.value.0 else Record(c.value.0, newRoot, candidate, c.value.1.value))
  }

  /** A cast vote that decides yes elects the candidate by a quorum. */
  lemma CastElects(s: State, s1: State, newRoot: EventKey, candidate: EventKey, c: (State, Option<Vote>))
    requires VotingReady(s, newRoot) && candidate in s.events
    requires s1 == OpenRound(s) && CastVote(s1, newRoot, candidate) == Ok(c)
    ensures c.1.Some? && c.1.value.decided && c.1.value.yes ==>
              Elected(s, Record(c.0, newRoot, candidate, c.1.value), candidate)
  {
    if c.1.Some? && c.1.value.decided && c.1.value.yes {
      assert s1.electionVotes[s.frameToDecide] == Ballots(s);
      assert QuorumOf(s1, Some(s.frame)) == QuorumOf(s, Some(s.frame));
    }
  }

  /** Opening the round is a vote step. */
  lemma OpenKept(s: State, newRoot: EventKey)
    requires VotingReady(s, newRoot) && forall f :: f in s.atroposRoots ==> f < s.frameToDecide
    ensures VoteKept(s, newRoot, Ok(OpenRound(s)))
  {
    assert VotingFrame(s, OpenRound(s));
    VotingFrameKeepsReady(s, OpenRound(s), newRoot);
  }

  /** Recording a cast vote, if any, after the round is open is a vote step. */
  lemma CastKept(s: State, s1: State, newRoot: EventKey, candidate: EventKey, c: (State, Option<Vote>))
    requires VotingReady(s, newRoot) && forall f :: f in s.atroposRoots ==> f < s.frameToDecide
    requires s1 == OpenRound(s) && CacheExtends(s1, c.0)
    requires c.1.Some? && c.1.value.decided ==> s.frame >= s.frameToDecide + 2
    ensures c.0.frameToDecide in c.0.electionVotes
    ensures VoteKept(s, newRoot, Ok(if c.1.None? then c.0 else Record(c.0, newRoot, candidate, c.1.value)))
  {
    OpenKept(s, newRoot);
    CacheIsVotingFrame(s1, c.0);
    VotingFrameTrans(s, s1, c.0);
    if c.1.None? {
      VotingFrameKeepsReady(s, c.0, newRoot);
    } else {
      var s2 := Record(c.0, newRoot, candidate, c.1.value);
      RecordIsVotingFrame(c.0, newRoot, candidate, c.1.value);
      VotingFrameTrans(s, c.0, s2);
      VotingFrameKeepsReady(s, s2, newRoot);
    }
  }

  function VoteLoop(s: State, newRoot: EventKey, candidates: seq<EventKey>): (r: Result<State>)
    requires VotingReady(s, newRoot)
    requires forall i :: 0 <= i < |candidates| ==> candidates[i] in s.events
    requires forall f :: f in s.atroposRoots ==> f < s.frameToDecide
    ensures r.Ok? ==> VotingFrame(s, r.value) && VotingReady(r.value, newRoot)
    ensures r.Ok? ==> forall f :: f in r.value.atroposRoots ==> f < r.value.frameToDecide
    decreases |candidates|
  {
    if candidates == [] then Ok(s)
    else
      var s1 :- VoteOn(s, newRoot, candidates[0]);
      VoteLoop(s1, newRoot, candidates[1..])
  }

  /** On a state whose previous frame has a root set, no vote fails. */
  lemma {:induction false} VoteLoopSucceeds(s: State, newRoot: EventKey, candidates: seq<EventKey>)
    requires VotingReady(s, newRoot)
    requires forall i :: 0 <= i < |candidates| ==> candidates[i] in s.events
    requires forall f :: f in s.atroposRoots ==> f < s.frameToDecide
    requires s.frame >= 2 ==> s.frame - 1 in s.rootSetNodes
    ensures VoteLoop(s, newRoot, candidates).Ok?
    decreases |candidates|
  {
    if candidates != [] {
      var s1 := VoteOn(s, newRoot, candidates[0]);
      VoteLoopSucceeds(s1.value, newRoot, candidates[1..]);
    }
  }

  /** `atropos_voting(new_root)`: the candidates are the roots of the frame
      being decided at the start; a decision inside the loop moves the later
      iterations on to the next frame. */
  function AtroposVoting(s: State, newRoot: EventKey): (r: Result<State>)
    requires VotingReady(s, newRoot)
    requires forall f :: f in s.atroposRoots ==> f < s.frameToDecide
    ensures s.frameToDecide !in s.rootSetNodes ==> r.Failure?
    ensures r.Ok? ==> VotingFrame(s, r.value) && VotingReady(r.value, newRoot)
    ensures r.Ok? ==> forall f :: f in r.value.atroposRoots ==> f < r.value.frameToDecide
  {
    if s.frameToDecide !in s.rootSetNodes then Failure(MissingRootSet(Some(s.frameToDecide)))
    else VoteLoop(s, newRoot, s.rootSetNodes[s.frameToDecide])
  }

  // ---------------------------------------------------------------------------
  // Root sets

  /** Python's tuple order on event keys. */
  predicate KeyLess(a: EventKey, b: EventKey) {
    a.0 < b.0 || (a.0 == b.0 && a.1 < b.1)
  }

  ghost predicate Sorted(xs: seq<EventKey>) {
    forall i, j :: 0 <= i < j < |xs| ==> KeyLess(xs[i], xs[j])
  }

  lemma SortedCons(a: EventKey, t: seq<EventKey>)
    requires Sorted(t) && forall y :: y in t ==> KeyLess(a, y)
    ensures Sorted([a] + t)
  {
    forall i, j | 0 <= i < j < |[a] + t| ensures KeyLess(([a] + t)[i], ([a] + t)[j]) {
      assert ([a] + t)[j] == t[j - 1];
      if i > 0 { assert ([a] + t)[i] == t[i - 1]; } else { assert t[j - 1] in t; }
    }
  }

  /** `SortedSet.add`: insert in order unless already present. */
  function SortedInsert(xs: seq<EventKey>, x: EventKey): (r: seq<EventKey>)
    ensures forall y :: y in r <==> y in xs || y == x
    ensures Sorted(xs) ==> Sorted(r)
    decreases |xs|
  {
    if xs == [] then [x]
    else if xs[0] == x then xs
    else if KeyLess(x, xs[0]) then [x] + xs
    else
      var t := SortedInsert(xs[1..], x);
      assert forall y :: y in xs <==> y == xs[0] || y in xs[1..] by {
        assert xs == [xs[0]] + xs[1..];
      }
      assert Sorted(xs) ==> Sorted([xs[0]] + t) by {
        if Sorted(xs) {
          assert Sorted(xs[1..]);
          assert forall y :: y in t ==> KeyLess(xs[0], y) by {
            forall y | y in t ensures KeyLess(xs[0], y) {
              if y != x {
                var i :| 1 <= i < |xs| && xs[i] == y;
              }
            }
          }
          SortedCons(xs[0], t);
        }
      }
      [xs[0]] + t
  }


  // ---------------------------------------------------------------------------
  // process_event

  /** The stored event `id` is named `(creator, seq)`, and its self-parent,
      unless it is a first event, is stored too. */
  ghost predicate HasSelfParent(s: State, id: EventKey) {
    && id in s.events
    && id == (s.events[id].creator, s.events[id].seqNum) && id.1 >= 1
    && (id.1 == 1 || (id.0, id.1 - 1) in s.events)
  }

  /** Well-formedness the pipeline keeps: every lookup it makes on stored
      events, weights and root sets succeeds. */
  ghost predicate Valid(s: State) {
    && s.validators <= s.weights.Keys
    && (forall k :: k in s.events ==> s.events[k].creator in s.weights && s.events[k].highest.Keys <= s.weights.Keys)
    && Closed(s.events, s.cheaters)
    && RootsResolvable(s)
    && (forall f :: f in s.atroposRoots ==> f < s.frameToDecide)
  }

  /** What the driver guarantees about an event it hands over: the id is
      `(creator, seq)`, the creator has a weight, and the parents and the
      self-parent are already stored (a missing one is a `KeyError` in the
      code, which this model does not cover). */
  ghost predicate Admissible(s: State, e: Event) {
    && e.id == (e.creator, e.seqNum) && e.seqNum >= 1
    && e.creator in s.weights
    && e.highest.Keys <= s.weights.Keys
    && (forall p :: p in e.parents ==> p == e.id || Resolvable(s.events, s.cheaters, p))
    && (e.seqNum == 1 || (e.creator, e.seqNum - 1) in s.events)
  }

  /** Only the "lowest observing" and "highest observed" dictionaries differ. */
  ghost predicate SameShape(events: map<EventKey, Event>, events': map<EventKey, Event>) {
    && events'.Keys == events.Keys
    && forall k :: k in events ==>
         events'[k] == events[k].(lowest := events'[k].lowest, highest := events'[k].highest)
  }

  /** How processing moves an engine forward. */
  ghost predicate Progress(s: State, r: State) {
    && s.cheaters <= r.cheaters
    && s.weights.Keys <= r.weights.Keys
    && (forall v :: v in s.lastSeq ==> v in r.lastSeq && r.lastSeq[v] >= s.lastSeq[v])
    && s.frame <= r.frame
    && s.frameToDecide <= r.frameToDecide
    && r.block - r.frameToDecide == s.block - s.frameToDecide
    && (forall f :: f in s.atroposRoots ==> f in r.atroposRoots && r.atroposRoots[f] == s.atroposRoots[f])
    && s.events.Keys <= r.events.Keys
    && (forall f :: f in s.rootSetNodes ==> f in r.rootSetNodes)
  }

  lemma ProgressTrans(s: State, s1: State, s2: State)
    requires Progress(s, s1) && Progress(s1, s2)
    ensures Progress(s, s2)
  {
  }

  lemma ProgressThen(s: State, s1: State, r: Result<State>)
    requires Progress(s, s1) && (r.Ok? ==> Progress(s1, r.value))
    ensures r.Ok? ==> Progress(s, r.value)
  {
  }

  /** Storing an admissible event keeps the state well-formed. */
  lemma StoreKeepsValid(s: State, e: Event)
    requires Valid(s) && Admissible(s, e)
    ensures Valid(s.(events := s.events[e.id := e.(count := e.count + 1)]))
  {
    var ev := e.(count := e.count + 1);
    var events' := s.events[e.id := ev];
    forall k, p | k in events' && p in events'[k].parents ensures Resolvable(events', s.cheaters, p) {
      if k == e.id {
        assert p in e.parents;
      } else {
        assert events'[k] == s.events[k];
        assert Resolvable(s.events, s.cheaters, p);
      }
    }
  }

  lemma DetectForksGrows(s: State, e: Event)
    ensures var r := DetectForks(s, e).0;
      && r == s.(cheaters := r.cheaters, weights := r.weights, lastSeq := r.lastSeq)
      && s.cheaters <= r.cheaters && s.weights.Keys <= r.weights.Keys
  {
  }

  /** `detect_forks` only adds cheaters and weight keys, so it keeps every
      lookup possible. */
  lemma DetectForksKeepsValid(s: State, e: Event)
    requires Valid(s)
    ensures var r := DetectForks(s, e).0;
      && Valid(r) && Progress(s, r)
      && r.events == s.events && r.rootSetNodes == s.rootSetNodes && r.frame == s.frame
  {
    var r := DetectForks(s, e).0;
    DetectForksAdvancesSeq(s, e);
    assert r.events == s.events && r.cheaters == s.cheaters + Flagged(s, e);
    assert s.weights.Keys <= r.weights.Keys;
    forall k, p | k in r.events && p in r.events[k].parents ensures Resolvable(r.events, r.cheaters, p) {
      assert Resolvable(s.events, s.cheaters, p);
    }
  }

  /** After a fork the quorum of the current frame is recomputed from the
      lowered weights, replacing any cached value. */
  function RefreshQuorum(s: State): (r: State)
    requires s.validators <= s.weights.Keys
    ensures r == s.(quorumValues := r.quorumValues)
    ensures r.quorumValues == s.quorumValues[Some(s.frame) := Quorum(TotalWeight(s))]
  {
    s.(quorumValues := s.quorumValues[Some(s.frame) := Quorum(TotalWeight(s))])
  }

  lemma CacheOnlyKeepsValid(s: State, r: State)
    requires Valid(s) && r == s.(quorumValues := r.quorumValues)
    ensures Valid(r) && Progress(s, r)
  {
  }

  /** Lines storing the event, `detect_forks`, and the quorum refresh of the
      current frame after a fork. */
  function Receive(s: State, e: Event): (r: State)
    requires Valid(s) && Admissible(s, e)
    ensures Valid(r) && HasSelfParent(r, e.id)
    ensures r.events == s.events[e.id := e.(count := e.count + 1)]
    ensures r == s.(events := r.events, cheaters := r.cheaters, weights := r.weights, lastSeq := r.lastSeq,
                    quorumValues := r.quorumValues)
    ensures s.cheaters <= r.cheaters && s.weights.Keys <= r.weights.Keys
    ensures forall v :: v in s.lastSeq ==> v in r.lastSeq && r.lastSeq[v] >= s.lastSeq[v]
    ensures e.creator in r.lastSeq && r.lastSeq[e.creator] >= e.seqNum
  {
    var ev := e.(count := e.count + 1);
    var s1 := s.(events := s.events[e.id := ev]);
    StoreKeepsValid(s, e);
    DetectForksKeepsValid(s1, ev);
    DetectForksAdvancesSeq(s1, ev);
    var s2 := DetectForks(s1, ev).0;
    assert HasSelfParent(s2, e.id);
    if DetectForks(s1, ev).1 then
      CacheOnlyKeepsValid(s2, RefreshQuorum(s2));
      RefreshQuorum(s2)
    else s2
  }

  /** Every validator a parent shows already has a weight. */
  lemma {:induction false} ObservedHasWeight(s: State, self: EventKey, ps: seq<EventKey>, v: Validator)
    requires Valid(s)
    requires forall p :: p in ps ==> Resolvable(s.events, s.cheaters, p)
    requires Observed(s.events, s.cheaters, self, ps, v).Some?
    ensures v in s.weights
    decreases |ps|
  {
    assert forall p :: p in ps[1..] ==> p in ps;
    if Observed(s.events, s.cheaters, self, ps[1..], v).Some? {
      ObservedHasWeight(s, self, ps[1..], v);
    } else {
      assert ps[0] in ps && ps[0].0 !in s.cheaters;
      var parent := s.events[ps[0]];
      assert parent.creator == v || v in parent.highest;
    }
  }

  /** `highest_events_observed_by_event` and `set_lowest_events_vector` for the
      stored event `id`: only the two dictionaries change. */
  function Observe(s: State, id: EventKey): (r: State)
    requires Valid(s) && id in s.events
    ensures Valid(r)
    ensures r == s.(events := r.events)
    ensures SameShape(s.events, r.events)
    ensures HasSelfParent(s, id) ==> HasSelfParent(r, id)
  {
    assert forall p :: p in s.events[id].parents ==> Resolvable(s.events, s.cheaters, p);
    var s1 := SetHighest(s, id);
    HighestKeepsValid(s, id);
    var e := s1.events[id];
    var events := LowestWalk(s1.events, s1.cheaters, e.creator, e.id, e.seqNum, e.parents);
    MarksKeepValid(s1, events, e.creator, Observer(e.id, e.seqNum));
    s1.(events := events)
  }

  lemma HighestKeepsValid(s: State, id: EventKey)
    requires Valid(s) && id in s.events
    requires forall p :: p in s.events[id].parents ==> Resolvable(s.events, s.cheaters, p)
    ensures Valid(SetHighest(s, id)) && SameShape(s.events, SetHighest(s, id).events)
  {
    var r := SetHighest(s, id);
    var ps := s.events[id].parents;
    forall v | v in r.events[id].highest ensures v in s.weights {
      assert Get(r.events[id].highest, v).Some?;
      if Observed(s.events, s.cheaters, id, ps, v).Some? {
        ObservedHasWeight(s, id, ps, v);
      } else {
        assert v in s.events[id].highest;
      }
    }
    forall k, p | k in r.events && p in r.events[k].parents ensures Resolvable(r.events, r.cheaters, p) {
      assert Resolvable(s.events, s.cheaters, p);
    }
  }

  lemma MarksKeepValid(s: State, events: map<EventKey, Event>, obs: Validator, o: Observer)
    requires Valid(s) && OnlyMarks(s.events, events, s.cheaters, obs, o)
    ensures Valid(s.(events := events)) && SameShape(s.events, events)
  {
    forall k, p | k in events && p in events[k].parents ensures Resolvable(events, s.cheaters, p) {
      assert Resolvable(s.events, s.cheaters, p);
    }
  }

  /** Changing only frames, root sets and voting data keeps the state
      well-formed as long as the root sets stay resolvable. */
  lemma FramesKeepValid(s: State, r: State)
    requires Valid(s)
    requires r.validators == s.validators && r.weights == s.weights && r.cheaters == s.cheaters
    requires r.events.Keys == s.events.Keys
    requires forall k :: k in s.events ==> r.events[k] == s.events[k].(frame := r.events[k].frame)
    requires RootsResolvable(r)
    requires forall f :: f in r.atroposRoots ==> f < r.frameToDecide
    ensures Valid(r)
  {
    forall k, p | k in r.events && p in r.events[k].parents ensures Resolvable(r.events, r.cheaters, p) {
      assert r.events[k].parents == s.events[k].parents;
      assert Resolvable(s.events, s.cheaters, p);
    }
  }

  /** The root-set validators and root-set nodes of frame `t`, created empty if missing. */
  function OpenFrame(s: State, t: nat): (r: State)
    ensures r == s.(rootSetValidators := r.rootSetValidators, rootSetNodes := r.rootSetNodes)
    ensures t in r.rootSetValidators && t in r.rootSetNodes
    ensures r.rootSetNodes == if t in s.rootSetNodes then s.rootSetNodes else s.rootSetNodes[t := []]
  {
    s.(rootSetValidators := if t in s.rootSetValidators then s.rootSetValidators else s.rootSetValidators[t := {}],
       rootSetNodes := if t in s.rootSetNodes then s.rootSetNodes else s.rootSetNodes[t := []])
  }

  /** The event records its frame; the engine's frame becomes the larger of
      the two. */
  function MarkRoot(s: State, id: EventKey, t: nat): (r: State)
    requires id in s.events
    ensures r == s.(events := r.events, frame := r.frame)
    ensures r.frame == if t > s.frame then t else s.frame
    ensures r.events == s.events[id := s.events[id].(frame := Some(t))]
  {
    s.(events := s.events[id := s.events[id].(frame := Some(t))], frame := if t > s.frame then t else s.frame)
  }

  /** A non-cheater's root joins both sets of its frame. */
  function AddRoot(s: State, id: EventKey, t: nat): (r: State)
    requires id in s.events && t in s.rootSetValidators && t in s.rootSetNodes
    ensures r == s.(rootSetValidators := r.rootSetValidators, rootSetNodes := r.rootSetNodes)
    ensures r.rootSetNodes.Keys == s.rootSetNodes.Keys
    ensures forall f :: f in s.rootSetNodes && f != t ==> r.rootSetNodes[f] == s.rootSetNodes[f]
    ensures forall k :: k in r.rootSetNodes[t] <==> k in s.rootSetNodes[t] || (k == id && s.events[id].creator !in s.cheaters)
  {
    var c := s.events[id].creator;
    if c !in s.cheaters then
      s.(rootSetValidators := s.rootSetValidators[t := s.rootSetValidators[t] + {c}],
         rootSetNodes := s.rootSetNodes[t := SortedInsert(s.rootSetNodes[t], id)])
    else s
  }

  /** The root branch of `process_event` before voting. */
  function RegisterRoot(s: State, id: EventKey, t: nat): State
    requires id in s.events
  {
    AddRoot(MarkRoot(OpenFrame(s, t), id, t), id, t)
  }

  lemma RegisterRootKeepsValid(s: State, id: EventKey, t: nat)
    requires Valid(s) && id in s.events && id.0 in s.weights
    ensures Valid(RegisterRoot(s, id, t)) && Progress(s, RegisterRoot(s, id, t))
  {
    var s1 := OpenFrame(s, t);
    var s2 := MarkRoot(s1, id, t);
    var s3 := AddRoot(s2, id, t);
    assert RootsResolvable(s3) by {
      forall f, i | f in s3.rootSetNodes && 0 <= i < |s3.rootSetNodes[f]|
        ensures s3.rootSetNodes[f][i] in s3.events && s3.events[s3.rootSetNodes[f][i]].creator in s3.weights
        ensures s3.rootSetNodes[f][i].0 in s3.weights
      {
        var k := s3.rootSetNodes[f][i];
        assert k in s3.rootSetNodes[f];
        if k != id {
          assert f in s.rootSetNodes && k in s.rootSetNodes[f];
          var j :| 0 <= j < |s.rootSetNodes[f]| && s.rootSetNodes[f][j] == k;
        }
      }
    }
    FramesKeepValid(s, s3);
  }

  /** A non-root takes its self-parent's frame. */
  function InheritFrame(s: State, id: EventKey, frame: Option<nat>): (r: State)
    requires Valid(s) && id in s.events
    ensures Valid(r) && Progress(s, r)
    ensures r == s.(events := s.events[id := s.events[id].(frame := frame)])
  {
    var r := s.(events := s.events[id := s.events[id].(frame := frame)]);
    assert Valid(r) by {
      forall k, p | k in r.events && p in r.events[k].parents ensures Resolvable(r.events, r.cheaters, p) {
        assert Resolvable(s.events, s.cheaters, p);
      }
    }
    r
  }

  lemma VotingKeepsValid(s: State, r: State)
    requires Valid(s) && VotingFrame(s, r)
    requires forall f :: f in r.atroposRoots ==> f < r.frameToDecide
    ensures Valid(r) && Progress(s, r)
  {
  }

  /** The root branch of `process_event`: register the root of frame `t`,
      then vote with it. */
  function RootStep(s: State, id: EventKey, t: nat): (r: Result<State>)
    requires Valid(s) && id in s.events && id.0 in s.weights
    ensures r.Ok? ==> Valid(r.value) && Progress(s, r.value)
  {
    var s1 := RegisterRoot(s, id, t);
    RegisterRootKeepsValid(s, id, t);
    var r :- AtroposVoting(s1, id);
    VotingKeepsValid(s1, r);
    ProgressTrans(s, s1, r);
    Ok(r)
  }

  /** After the root check: a root registers and votes, a non-root takes its
      self-parent's frame. */
  function Finish(s: State, id: EventKey, isRoot: bool, target: Option<nat>): (r: Result<State>)
    requires Valid(s) && HasSelfParent(s, id)
    requires isRoot ==> target.Some?
    requires !isRoot ==> id.1 > 1
    ensures r.Ok? ==> Valid(r.value) && Progress(s, r.value)
  {
    if isRoot then RootStep(s, id, target.value)
    else Ok(InheritFrame(s, id, s.events[(id.0, id.1 - 1)].frame))
  }

  /** The end of `process_event` for the stored event `id`: root check, then
      either registration and voting, or the self-parent's frame. */
  function Decide(s: State, id: EventKey): (r: Result<State>)
    requires Valid(s) && HasSelfParent(s, id)
    ensures r.Ok? ==> Valid(r.value) && Progress(s, r.value)
  {
    match CheckForRoots(s, s.events[id])
    case Failure(err) => Failure(err)
    case Ok(root) =>
      CacheOnlyKeepsValid(s, root.0);
      var r := Finish(root.0, id, root.1, root.2);
      ProgressThen(s, root.0, r);
      r
  }

  // ---------------------------------------------------------------------------
  // Frames: the root-set lookups of a run never fail

  /** The frame counters and the root sets agree: every frame from 2 up to
      the current one has a root set, frame 1 has one as soon as any frame
      does, and no root set lies beyond the current frame. */
  ghost predicate FrameSets(s: State) {
    && 1 <= s.frameToDecide <= s.frame
    && (forall f :: f in s.rootSetNodes ==> 1 <= f <= s.frame)
    && (forall f :: 2 <= f <= s.frame ==> f in s.rootSetNodes)
    && (s.rootSetNodes != map[] ==> 1 in s.rootSetNodes)
  }

  /** The stored event `k` has a frame, and that frame has a root set. */
  ghost predicate Framed(events: map<EventKey, Event>, roots: map<nat, seq<EventKey>>, k: EventKey)
    requires k in events
  {
    events[k].frame.Some? && events[k].frame.value in roots
  }

  ghost predicate FramedExcept(s: State, id: EventKey) {
    forall k :: k in s.events && k != id ==> Framed(s.events, s.rootSetNodes, k)
  }

  /** The state a processed run keeps. */
  ghost predicate FramesValid(s: State) {
    FrameSets(s) && forall k :: k in s.events ==> Framed(s.events, s.rootSetNodes, k)
  }

  /** Registering a root of frame 1, or of the frame after one that has a
      root set, keeps the frames consistent and makes `t` a frame with a
      root set. */
  lemma RegisterRootFrames(s: State, id: EventKey, t: nat)
    requires FrameSets(s) && FramedExcept(s, id) && id in s.events
    requires t == 1 || (t >= 2 && t - 1 in s.rootSetNodes)
    ensures var r := RegisterRoot(s, id, t);
      FramesValid(r) && 1 in r.rootSetNodes && (r.frame >= 2 ==> r.frame - 1 in r.rootSetNodes)
  {
    var r := RegisterRoot(s, id, t);
    assert r.events == s.events[id := s.events[id].(frame := Some(t))];
    NewFrameSets(s, r, t);
    forall k | k in r.events ensures Framed(r.events, r.rootSetNodes, k) {
      if k != id { assert Framed(s.events, s.rootSetNodes, k); }
    }
  }

  /** Adding the root set of frame 1, or of the frame after one with a root
      set, and raising the frame to it keeps the frame counters consistent. */
  lemma NewFrameSets(s: State, r: State, t: nat)
    requires FrameSets(s)
    requires t == 1 || (t >= 2 && t - 1 in s.rootSetNodes)
    requires r.frameToDecide == s.frameToDecide && r.frame == if t > s.frame then t else s.frame
    requires r.rootSetNodes.Keys == s.rootSetNodes.Keys + {t}
    ensures FrameSets(r) && 1 in r.rootSetNodes && (r.frame >= 2 ==> r.frame - 1 in r.rootSetNodes)
  {
  }

  /** Voting moves only the frame being decided, and never past the current one. */
  lemma VotingKeepsFrames(s: State, r: State)
    requires FramesValid(s) && VotingFrame(s, r)
    ensures FramesValid(r)
  {
    forall k | k in r.events ensures Framed(r.events, r.rootSetNodes, k) {
      assert Framed(s.events, s.rootSetNodes, k);
    }
  }

  /** The self-parent of a later event has a frame with a root set, so its
      root check cannot fail. */
  lemma CheckForRootsSucceeds(s: State, id: EventKey)
    requires Valid(s) && HasSelfParent(s, id) && FrameSets(s) && FramedExcept(s, id)
    ensures var r := CheckForRoots(s, s.events[id]);
      && r.Ok? && r.value.0 == s.(quorumValues := r.value.0.quorumValues)
      && (r.value.1 ==> r.value.2.Some? && (r.value.2.value == 1 || (r.value.2.value >= 2 && r.value.2.value - 1 in s.rootSetNodes)))
      && (!r.value.1 ==> id.1 > 1)
  {
    if id.1 > 1 {
      assert Framed(s.events, s.rootSetNodes, (id.0, id.1 - 1));
    }
  }

  /** Registering and voting for a root of frame 1, or of the frame after one
      with a root set, never fails. */
  lemma RootStepSucceeds(s: State, id: EventKey, t: nat)
    requires Valid(s) && id in s.events && id.0 in s.weights
    requires FrameSets(s) && FramedExcept(s, id)
    requires t == 1 || (t >= 2 && t - 1 in s.rootSetNodes)
    ensures RootStep(s, id, t).Ok? && FramesValid(RootStep(s, id, t).value)
  {
    RegisterRootFrames(s, id, t);
    var s1 := RegisterRoot(s, id, t);
    RegisterRootKeepsValid(s, id, t);
    AtroposVotingSucceeds(s1, id);
    VotingKeepsFrames(s1, AtroposVoting(s1, id).value);
  }

  /** Voting fails only on a missing root set, which consistent frames rule out. */
  lemma AtroposVotingSucceeds(s: State, id: EventKey)
    requires Valid(s) && id in s.events && FramesValid(s)
    requires 1 in s.rootSetNodes
    ensures AtroposVoting(s, id).Ok?
  {
    assert s.frameToDecide in s.rootSetNodes;
    VoteLoopSucceeds(s, id, s.rootSetNodes[s.frameToDecide]);
  }

  /** Inheriting the frame of a framed self-parent frames every event. */
  lemma InheritFrameFrames(s: State, id: EventKey, sp: EventKey)
    requires Valid(s) && id in s.events && sp in s.events && sp != id
    requires FrameSets(s) && FramedExcept(s, id)
    ensures FramesValid(InheritFrame(s, id, s.events[sp].frame))
  {
    var r := InheritFrame(s, id, s.events[sp].frame);
    assert Framed(s.events, s.rootSetNodes, sp);
    forall k | k in r.events ensures Framed(r.events, r.rootSetNodes, k) {
      if k != id { assert Framed(s.events, s.rootSetNodes, k); }
    }
  }

  lemma FinishSucceeds(s: State, id: EventKey, isRoot: bool, target: Option<nat>)
    requires Valid(s) && HasSelfParent(s, id) && FrameSets(s) && FramedExcept(s, id)
    requires isRoot ==> target.Some? && (target.value == 1 || (target.value >= 2 && target.value - 1 in s.rootSetNodes))
    requires !isRoot ==> id.1 > 1
    ensures Finish(s, id, isRoot, target).Ok? && FramesValid(Finish(s, id, isRoot, target).value)
  {
    if isRoot {
      RootStepSucceeds(s, id, target.value);
    } else {
      InheritFrameFrames(s, id, (id.0, id.1 - 1));
    }
  }

  /** On a state whose other events are framed, `Decide` never fails, and
      afterwards every event is framed. */
  lemma DecideSucceeds(s: State, id: EventKey)
    requires Valid(s) && HasSelfParent(s, id) && FrameSets(s) && FramedExcept(s, id)
    ensures Decide(s, id).Ok? && FramesValid(Decide(s, id).value)
  {
    EventReady(s, id);
    CheckForRootsSucceeds(s, id);
    var root := CheckForRoots(s, s.events[id]).value;
    CacheOnlyKeepsFrames(s, root.0, id);
    FinishSucceeds(root.0, id, root.1, root.2);
    assert Decide(s, id) == Finish(root.0, id, root.1, root.2);
  }

  /** A stored event with its self-parent can be checked for roothood. */
  lemma EventReady(s: State, id: EventKey)
    requires Valid(s) && HasSelfParent(s, id)
    ensures var e := s.events[id];
      && e.highest.Keys <= s.weights.Keys && e.seqNum >= 1 && (e.seqNum == 1 || (e.creator, e.seqNum - 1) in s.events)
  {
  }

  /** A quorum cache refresh leaves the frames alone. */
  lemma CacheOnlyKeepsFrames(s: State, r: State, id: EventKey)
    requires Valid(s) && HasSelfParent(s, id) && FrameSets(s) && FramedExcept(s, id)
    requires r == s.(quorumValues := r.quorumValues)
    ensures Valid(r) && HasSelfParent(r, id) && FrameSets(r) && FramedExcept(r, id)
    ensures r.rootSetNodes == s.rootSetNodes
  {
    CacheOnlyKeepsValid(s, r);
  }

  /** `process_event`: store and fork-check the event, update both vectors,
      then either register it as a root of its target frame and vote, or let
      it inherit its self-parent's frame. The only failure is a root-set
      lookup of a frame that has none. */
  function ProcessEvent(s: State, e: Event): (r: Result<State>)
    requires Valid(s) && Admissible(s, e)
    ensures r.Ok? ==> Valid(r.value) && Progress(s, r.value)
    ensures r.Ok? ==> e.id in r.value.events && e.creator in r.value.lastSeq && r.value.lastSeq[e.creator] >= e.seqNum
  {
    var s1 := Receive(s, e);
    var s2 := Observe(s1, e.id);
    assert Progress(s, s2);
    var r := Decide(s2, e.id);
    ProgressThen(s, s2, r);
    r
  }

  /** On a well-formed engine whose events all have framed root sets, handing
      over an admissible event never raises, and the engine stays so. */
  lemma ProcessEventSucceeds(s: State, e: Event)
    requires Valid(s) && FramesValid(s) && Admissible(s, e)
    ensures ProcessEvent(s, e).Ok? && FramesValid(ProcessEvent(s, e).value)
  {
    ReceiveKeepsFrames(s, e);
    var s2 := Observe(Receive(s, e), e.id);
    DecideSucceeds(s2, e.id);
  }

  /** Storing the event and updating its vectors leaves every other event's
      frame alone. */
  lemma ReceiveKeepsFrames(s: State, e: Event)
    requires Valid(s) && FramesValid(s) && Admissible(s, e)
    ensures var r := Observe(Receive(s, e), e.id); FrameSets(r) && FramedExcept(r, e.id)
  {
    var s1 := Receive(s, e);
    var s2 := Observe(s1, e.id);
    forall k | k in s2.events && k != e.id ensures Framed(s2.events, s2.rootSetNodes, k) {
      assert Framed(s.events, s.rootSetNodes, k);
    }
  }


}

=== FILE: refactor.dfy ===
/** The refactored engine of PyLachesis/refactor.py: validator filtering,
    a quorum that confirms suspected cheaters and discounts stale
    validators, fork detection by ancestor walks, pointwise-max "highest
    observed" merges, "lowest observing" marking, root and frame assignment
    and Atropos election voting, as pure functions over an explicit engine
    state. Event objects are named by their uuid; the engine state maps
    each uuid to the current contents of its event. */
module RefactorEngine {
  import opened Wrappers
  import opened Weights

  type Uuid = string

  /** A `{"uuid": …, "sequence": …}` record in `visited` and `lowest_observing`. */
  datatype Observer = Observer(uuid: Uuid, sequence: nat)

  datatype Event = Event(
    validator: Validator,
    timestamp: nat,
    sequence: nat,
    weight: nat,
    uuid: Uuid,
    frame: Option<nat>,
    root: bool,
    atropos: bool,
    highestObserved: map<Validator, int>,
    lowestObserving: map<Validator, Observer>,
    visited: map<Validator, Observer>,
    parents: seq<Uuid>,
    highestTimestamps: map<Validator, int>)

  datatype Vote = Vote(decided: bool, yes: bool)


  /** The instance fields `quorum` reads or writes. */
  datatype Stake = Stake(
    weights: map<Validator, nat>,
    confirmed: set<Validator>,
    quorumCache: map<Option<nat>, nat>,
    cheaterList: map<Validator, set<Validator>>,
    suspected: set<Validator>,
    highestTimestamps: map<Validator, int>,
    time: int)

  /** The instance fields of the Atropos election. */
  datatype Election = Election(
    frameToDecide: nat,
    block: nat,
    votes: map<nat, map<(Uuid, Uuid), Vote>>,
    decidedRoots: map<Uuid, Vote>,
    atroposRoots: map<nat, Uuid>)

  /** The fields of one `Lachesis` instance that the pipeline reads or writes. */
  datatype State = State(
    validators: seq<Validator>,
    stake: Stake,
    events: map<Uuid, Event>,
    observedSequences: map<Validator, map<Validator, set<nat>>>,
    frame: nat,
    rootSets: map<nat, seq<Uuid>>,
    election: Election)

  /** A fresh instance after `initialize_validators`. */
  function Init(validators: seq<Validator>, weights: map<Validator, nat>): (s: State)
    ensures Ready(s) && FramesOK(s) && RootsFramed(s)
  {
    State(validators, Stake(weights, {}, map[], map[], {}, map[], 1), map[], map[], 1, map[], Election(1, 1, map[], map[], map[]))
  }

  // ---------------------------------------------------------------------------
  // filter_validators_and_weights

  /** Index of the first event stamped after time 10, or the length. */
  function Cutoff(events: seq<Event>): (k: nat)
    ensures k <= |events|
    ensures forall i :: 0 <= i < k ==> events[i].timestamp <= 10
    ensures k < |events| ==> events[k].timestamp > 10
  {
    if events == [] then 0
    else if events[0].timestamp > 10 then 0
    else 1 + Cutoff(events[1..])
  }

  /** Index of the first event of `v`, or the length when there is none. */
  function FirstOf(events: seq<Event>, v: Validator): (i: nat)
    ensures i <= |events|
    ensures i < |events| ==> events[i].validator == v
  {
    if events == [] then 0
    else if events[0].validator == v then 0
    else 1 + FirstOf(events[1..], v)
  }

  /** No event before `FirstOf` is by `v`. */
  lemma {:induction false} FirstOfIsFirst(events: seq<Event>, v: Validator, j: nat)
    requires j < |events| && events[j].validator == v
    ensures FirstOf(events, v) <= j
  {
    if j > 0 && events[0].validator != v {
      assert events[1..][j - 1] == events[j];
      FirstOfIsFirst(events[1..], v, j - 1);
    }
  }

  predicate Distinct(vs: seq<Validator>) {
    forall i, j :: 0 <= i < j < |vs| ==> vs[i] != vs[j]
  }

  /** Validators listed in order of their first event. */
  predicate InFirstOrder(events: seq<Event>, vs: seq<Validator>) {
    forall i, j :: 0 <= i < j < |vs| ==> FirstOf(events, vs[i]) < FirstOf(events, vs[j])
  }

  lemma AppendFirst(events: seq<Event>, vs: seq<Validator>, v: Validator)
    requires Distinct(vs) && InFirstOrder(events, vs)
    requires forall x :: x in vs ==> FirstOf(events, x) < FirstOf(events, v)
    ensures Distinct(vs + [v]) && InFirstOrder(events, vs + [v])
  {
    var ws := vs + [v];
    forall i, j | 0 <= i < j < |ws| ensures ws[i] != ws[j] && FirstOf(events, ws[i]) < FirstOf(events, ws[j]) {
      assert ws[i] == vs[i];
      if j == |vs| {
        assert vs[i] in vs;
      } else {
        assert ws[j] == vs[j];
      }
    }
  }

  /** `filter_validators_and_weights`: the validators whose first event comes
      before the first event stamped after time 10, without repeats and in
      order of first appearance, each with the weight of its first event. */
  method FilterValidatorsAndWeights(events: seq<Event>) returns (vs: seq<Validator>, ws: map<Validator, nat>)
    ensures Distinct(vs) && InFirstOrder(events, vs)
    ensures forall v :: v in vs <==> FirstOf(events, v) < Cutoff(events)
    ensures forall v :: v in ws <==> v in vs
    ensures forall v :: v in ws ==> FirstOf(events, v) < |events| && ws[v] == events[FirstOf(events, v)].weight
  {
    vs := [];
    ws := map[];
    var n := 0;
    while n < |events| && events[n].timestamp <= 10
      invariant n <= |events| && n <= Cutoff(events)
      invariant Filtered(events, n, vs, ws)
      decreases |events| - n
    {
      var v := events[n].validator;
      FilterStep(events, n, vs, ws);
      if v !in vs {
        vs := vs + [v];
        ws := ws[v := events[n].weight];
      }
      n := n + 1;
    }
  }

  /** What the loop of `filter_validators_and_weights` has built after the
      first `n` events: each creator among them once, in order of first
      appearance, with the weight of its first event. */
  ghost predicate Filtered(events: seq<Event>, n: nat, vs: seq<Validator>, ws: map<Validator, nat>) {
    && Distinct(vs) && InFirstOrder(events, vs)
    && (forall v :: v in vs <==> FirstOf(events, v) < n)
    && (forall v :: v in ws <==> v in vs)
    && forall v :: v in ws ==> FirstOf(events, v) < |events| && ws[v] == events[FirstOf(events, v)].weight
  }

  /** One iteration of that loop: a creator seen for the first time is
      appended with its event's weight. */
  lemma FilterStep(events: seq<Event>, n: nat, vs: seq<Validator>, ws: map<Validator, nat>)
    requires n < |events| && Filtered(events, n, vs, ws)
    ensures var v := events[n].validator;
      Filtered(events, n + 1, if v in vs then vs else vs + [v], if v in vs then ws else ws[v := events[n].weight])
  {
    var v := events[n].validator;
    MembersStep(events, n, vs);
    if v !in vs {
      AppendFirst(events, vs, v);
    }
  }

  /** The creators among the first `n + 1` events are those among the first
      `n` and the creator of event `n`, whose first event is `n` when it is
      new. */
  lemma MembersStep(events: seq<Event>, n: nat, vs: seq<Validator>)
    requires n < |events| && forall x :: x in vs <==> FirstOf(events, x) < n
    ensures var v := events[n].validator;
      && (v !in vs ==> forall x :: x in vs ==> FirstOf(events, x) < FirstOf(events, v))
      && forall x :: x in (if v in vs then vs else vs + [v]) <==> FirstOf(events, x) < n + 1
  {
    var v := events[n].validator;
    FirstOfIsFirst(events, v, n);
    var vs' := if v in vs then vs else vs + [v];
    forall x ensures x in vs' <==> FirstOf(events, x) < n + 1 {
      if x != v {
        assert x in vs' <==> x in vs;
        assert FirstOf(events, x) != n;
      }
    }
  }

  // ---------------------------------------------------------------------------
  // quorum

  /** The total weight of all validators in the weight table. */
  function Total(weights: map<Validator, nat>): nat {
    SetSum(weights.Keys, weights)
  }

  /** Setting one weight to zero lowers the total by exactly that weight. */
  lemma ZeroWeight(weights: map<Validator, nat>, v: Validator)
    requires v in weights
    ensures Total(weights[v := 0]) + weights[v] == Total(weights)
  {
    assert weights[v := 0].Keys == weights.Keys;
    SetSumUpdate(weights.Keys, weights, v, 0);
  }

  /** The validators whose cheater list holds `c`. */
  function Observers(cheaterList: map<Validator, set<Validator>>, c: Validator): (os: set<Validator>)
    ensures os <= cheaterList.Keys
    ensures forall o :: o in os <==> o in cheaterList && c in cheaterList[o]
  {
    set o | o in cheaterList && c in cheaterList[o]
  }

  /** Weights, confirmed cheaters and the running total of a quorum computation. */
  datatype Zeroed = Zeroed(weights: map<Validator, nat>, confirmed: set<Validator>, total: nat)

  /** The loop over the suspected cheaters, visited in `order`: one whose
      observers' weight reaches the quorum of the running total is confirmed,
      and its weight is zeroed and taken off the total. */
  function Confirm(z: Zeroed, cheaterList: map<Validator, set<Validator>>, order: seq<Validator>): (r: Zeroed)
    requires cheaterList.Keys <= z.weights.Keys && (forall c :: c in order ==> c in z.weights)
    requires z.total == Total(z.weights)
    ensures r.total == Total(r.weights) && r.weights.Keys == z.weights.Keys
    ensures forall v :: v in z.weights ==> r.weights[v] <= z.weights[v]
    ensures z.confirmed <= r.confirmed && forall c :: c in r.confirmed - z.confirmed ==> c in order && r.weights[c] == 0
    ensures forall v :: v in z.weights ==> r.weights[v] == z.weights[v] || (v in order && v in r.confirmed && r.weights[v] == 0)
    ensures forall c :: c in r.confirmed - z.confirmed ==> SetSum(Observers(cheaterList, c), z.weights) >= Quorum(r.total)
    ensures forall c :: c in order && c !in r.confirmed ==> SetSum(Observers(cheaterList, c), r.weights) < Quorum(z.total)
    decreases |order|
  {
    if order == [] then z
    else
      var c := order[0];
      assert c in order;
      ZeroWeight(z.weights, c);
      var z1 := if SetSum(Observers(cheaterList, c), z.weights) >= Quorum(z.total) then
                  Zeroed(z.weights[c := 0], z.confirmed + {c}, z.total - z.weights[c])
                else z;
      assert forall x :: x in order[1..] ==> x in order;
      var r := Confirm(z1, cheaterList, order[1..]);
      ConfirmStep(z, z1, r, cheaterList, order);
      r
  }

  /** The inductive step of `Confirm`, for one visited cheater. */
  lemma ConfirmStep(z: Zeroed, z1: Zeroed, r: Zeroed, cheaterList: map<Validator, set<Validator>>, order: seq<Validator>)
    requires order != [] && cheaterList.Keys <= z.weights.Keys && (forall c :: c in order ==> c in z.weights)
    requires z.total == Total(z.weights) && z1.total == Total(z1.weights) && z.weights[order[0]] <= z.total
    requires var c := order[0];
      z1 == if SetSum(Observers(cheaterList, c), z.weights) >= Quorum(z.total) then
              Zeroed(z.weights[c := 0], z.confirmed + {c}, z.total - z.weights[c])
            else z
    requires r.total == Total(r.weights) && r.weights.Keys == z1.weights.Keys == z.weights.Keys
    requires forall v :: v in z1.weights ==> r.weights[v] <= z1.weights[v]
    requires z1.confirmed <= r.confirmed && forall c :: c in r.confirmed - z1.confirmed ==> c in order[1..] && r.weights[c] == 0
    requires forall v :: v in z1.weights ==> r.weights[v] == z1.weights[v] || (v in order[1..] && v in r.confirmed && r.weights[v] == 0)
    requires forall c :: c in r.confirmed - z1.confirmed ==> SetSum(Observers(cheaterList, c), z1.weights) >= Quorum(r.total)
    requires forall c :: c in order[1..] && c !in r.confirmed ==> SetSum(Observers(cheaterList, c), r.weights) < Quorum(z1.total)
    ensures forall v :: v in z.weights ==> r.weights[v] <= z.weights[v]
    ensures z.confirmed <= r.confirmed && forall c :: c in r.confirmed - z.confirmed ==> c in order && r.weights[c] == 0
    ensures forall v :: v in z.weights ==> r.weights[v] == z.weights[v] || (v in order && v in r.confirmed && r.weights[v] == 0)
    ensures forall c :: c in r.confirmed - z.confirmed ==> SetSum(Observers(cheaterList, c), z.weights) >= Quorum(r.total)
    ensures forall c :: c in order && c !in r.confirmed ==> SetSum(Observers(cheaterList, c), r.weights) < Quorum(z.total)
  {
    var c := order[0];
    assert z1.weights.Keys == z.weights.Keys;
    assert forall v :: v in z.weights ==> z1.weights[v] <= z.weights[v];
    assert forall x :: x in order <==> x == c || x in order[1..] by {
      assert order == [c] + order[1..];
    }
    SetSumPointwise(z.weights.Keys, z.weights, z1.weights);
    SetSumPointwise(z1.weights.Keys, z1.weights, r.weights);
    QuorumMonotone(r.total, z.total);
    QuorumMonotone(z1.total, z.total);
    forall x | x in r.confirmed - z.confirmed
      ensures SetSum(Observers(cheaterList, x), z.weights) >= Quorum(r.total)
    {
      if x in r.confirmed - z1.confirmed {
        SetSumPointwise(Observers(cheaterList, x), z.weights, z1.weights);
      }
    }
    forall x | x in order && x !in r.confirmed
      ensures SetSum(Observers(cheaterList, x), r.weights) < Quorum(z.total)
    {
      if x == c {
        SetSumPointwise(Observers(cheaterList, x), z.weights, r.weights);
      }
    }
  }

  /** A validator whose highest observed timestamp lags the clock by 20 or more. */
  predicate Stale(timestamps: map<Validator, int>, time: int, v: Validator) {
    v in timestamps && time - timestamps[v] >= 20
  }

  /** The loop over the highest observed timestamps, visited in `order`: a
      stale validator's weight is zeroed and taken off the running total. */
  function ZeroStale(z: Zeroed, timestamps: map<Validator, int>, time: int, order: seq<Validator>): (r: Zeroed)
    requires forall v :: v in order ==> v in timestamps && v in z.weights
    requires z.total == Total(z.weights)
    ensures r.total == Total(r.weights) && r.weights.Keys == z.weights.Keys && r.confirmed == z.confirmed
    ensures forall v :: v in z.weights ==>
      r.weights[v] == if v in order && Stale(timestamps, time, v) then 0 else z.weights[v]
    decreases |order|
  {
    if order == [] then z
    else
      var v := order[0];
      assert v in order;
      ZeroWeight(z.weights, v);
      var z1 := if Stale(timestamps, time, v) then Zeroed(z.weights[v := 0], z.confirmed, z.total - z.weights[v]) else z;
      assert forall x :: x in order <==> x == v || x in order[1..] by {
        assert order == [v] + order[1..];
      }
      ZeroStale(z1, timestamps, time, order[1..])
  }

  /** The order in which the model visits the members of a Python set; the
      contracts that use it hold for every order. */
  function VisitOrder(s: set<Validator>): (xs: seq<Validator>)
    ensures forall x :: x in xs <==> x in s
  {
    Ascending(s)
  }

  /** The two loops of `quorum` on a cache miss. */
  function Recompute(weights: map<Validator, nat>, confirmed: set<Validator>, cheaterList: map<Validator, set<Validator>>,
                     suspected: set<Validator>, timestamps: map<Validator, int>, time: int): (y: Zeroed)
    requires cheaterList.Keys <= weights.Keys && suspected <= weights.Keys && timestamps.Keys <= weights.Keys
    ensures y.total == Total(y.weights) && y.weights.Keys == weights.Keys
    ensures forall v :: v in weights ==> y.weights[v] <= weights[v]
    ensures confirmed <= y.confirmed && y.confirmed - confirmed <= suspected
    ensures forall v :: v in weights && Stale(timestamps, time, v) ==> y.weights[v] == 0
    ensures forall v :: v in y.confirmed - confirmed ==> y.weights[v] == 0
    ensures forall v :: v in weights && v !in y.confirmed && !Stale(timestamps, time, v) ==> y.weights[v] == weights[v]
    ensures forall c :: c in y.confirmed - confirmed ==> SetSum(Observers(cheaterList, c), weights) >= Quorum(y.total)
    ensures forall c :: c in suspected - y.confirmed ==> SetSum(Observers(cheaterList, c), y.weights) < Quorum(Total(weights))
  {
    var order := VisitOrder(suspected);
    var z := Confirm(Zeroed(weights, confirmed, Total(weights)), cheaterList, order);
    var stale := VisitOrder(timestamps.Keys);
    var y := ZeroStale(z, timestamps, time, stale);
    RecomputeWeights(weights, confirmed, suspected, timestamps, time, order, stale, z, y);
    RecomputeObservers(weights, confirmed, cheaterList, suspected, z, y);
    y
  }

  /** How the weights end up after both loops of `Recompute`. */
  lemma RecomputeWeights(weights: map<Validator, nat>, confirmed: set<Validator>, suspected: set<Validator>,
                         timestamps: map<Validator, int>, time: int, order: seq<Validator>, stale: seq<Validator>, z: Zeroed, y: Zeroed)
    requires suspected <= weights.Keys && timestamps.Keys <= weights.Keys
    requires forall v :: v in order <==> v in suspected
    requires forall v :: v in stale <==> v in timestamps
    requires z.weights.Keys == weights.Keys && confirmed <= z.confirmed
    requires forall c :: c in z.confirmed - confirmed ==> c in order && z.weights[c] == 0
    requires forall v :: v in weights ==> z.weights[v] == weights[v] || (v in order && v in z.confirmed && z.weights[v] == 0)
    requires y.weights.Keys == weights.Keys && y.confirmed == z.confirmed
    requires forall v :: v in z.weights ==> y.weights[v] == if v in stale && Stale(timestamps, time, v) then 0 else z.weights[v]
    ensures forall v :: v in weights ==> y.weights[v] <= weights[v]
    ensures confirmed <= y.confirmed && y.confirmed - confirmed <= suspected
    ensures forall v :: v in weights && Stale(timestamps, time, v) ==> y.weights[v] == 0
    ensures forall v :: v in y.confirmed - confirmed ==> y.weights[v] == 0
    ensures forall v :: v in weights && v !in y.confirmed && !Stale(timestamps, time, v) ==> y.weights[v] == weights[v]
  {
  }

  /** The observer weights of confirmed and unconfirmed suspects, after both loops. */
  lemma RecomputeObservers(weights: map<Validator, nat>, confirmed: set<Validator>, cheaterList: map<Validator, set<Validator>>,
                           suspected: set<Validator>, z: Zeroed, y: Zeroed)
    requires cheaterList.Keys <= weights.Keys
    requires z.weights.Keys == y.weights.Keys == weights.Keys && y.confirmed == z.confirmed
    requires z.total == Total(z.weights) && y.total == Total(y.weights)
    requires forall v :: v in weights ==> y.weights[v] <= z.weights[v]
    requires forall c :: c in z.confirmed - confirmed ==> SetSum(Observers(cheaterList, c), weights) >= Quorum(z.total)
    requires forall c :: c in suspected && c !in z.confirmed ==> SetSum(Observers(cheaterList, c), z.weights) < Quorum(Total(weights))
    ensures forall c :: c in y.confirmed - confirmed ==> SetSum(Observers(cheaterList, c), weights) >= Quorum(y.total)
    ensures forall c :: c in suspected - y.confirmed ==> SetSum(Observers(cheaterList, c), y.weights) < Quorum(Total(weights))
  {
    SetSumPointwise(weights.Keys, z.weights, y.weights);
    QuorumMonotone(y.total, z.total);
    forall c | c in suspected - y.confirmed
      ensures SetSum(Observers(cheaterList, c), y.weights) < Quorum(Total(weights))
    {
      SetSumPointwise(Observers(cheaterList, c), z.weights, y.weights);
    }
  }

  /** Every key `quorum` looks up is present. */
  predicate QuorumReady(k: Stake) {
    && k.cheaterList.Keys <= k.weights.Keys
    && k.suspected <= k.weights.Keys
    && k.highestTimestamps.Keys <= k.weights.Keys
  }

  /** What a call of `quorum` may change: weights only go down, only
      suspected cheaters are confirmed and they lose their weight, cached
      quorums stay, and nothing else is touched. */
  ghost predicate QuorumEffect(k: Stake, k': Stake) {
    && k' == k.(weights := k'.weights, confirmed := k'.confirmed, quorumCache := k'.quorumCache)
    && k'.weights.Keys == k.weights.Keys
    && (forall v :: v in k.weights ==> k'.weights[v] <= k.weights[v])
    && k.confirmed <= k'.confirmed
    && k'.confirmed - k.confirmed <= k.suspected
    && (forall c :: c in k'.confirmed - k.confirmed ==> c in k'.weights && k'.weights[c] == 0)
    && (forall f :: f in k.quorumCache ==> f in k'.quorumCache && k'.quorumCache[f] == k.quorumCache[f])
  }

  lemma QuorumEffectTrans(k: Stake, k': Stake, k'': Stake)
    requires QuorumEffect(k, k') && QuorumEffect(k', k'')
    ensures QuorumEffect(k, k'')
  {
  }

  /** `quorum(frame)`: the cached value for `frame`, or else confirm the
      suspected cheaters, zero the stale validators, and cache two thirds
      plus one of the remaining total weight. */
  function GetQuorum(k: Stake, f: Option<nat>): (r: (Stake, nat))
    requires QuorumReady(k)
    ensures QuorumEffect(k, r.0) && QuorumReady(r.0)
    ensures f in r.0.quorumCache && r.0.quorumCache[f] == r.1
    ensures f in k.quorumCache ==> r == (k, k.quorumCache[f])
    ensures f !in k.quorumCache ==>
      && r.1 == Quorum(Total(r.0.weights))
      && r.0.confirmed - k.confirmed <= k.suspected
      && (forall v :: v in k.weights && Stale(k.highestTimestamps, k.time, v) ==> r.0.weights[v] == 0)
      && (forall v :: v in r.0.confirmed - k.confirmed ==> r.0.weights[v] == 0)
      && (forall v :: v in k.weights && v !in r.0.confirmed && !Stale(k.highestTimestamps, k.time, v) ==>
            r.0.weights[v] == k.weights[v])
      && (forall c :: c in r.0.confirmed - k.confirmed ==> SetSum(Observers(k.cheaterList, c), k.weights) >= r.1)
      && (forall c :: c in k.suspected - r.0.confirmed ==> SetSum(Observers(k.cheaterList, c), r.0.weights) < Quorum(Total(k.weights)))
  {
    if f in k.quorumCache then (k, k.quorumCache[f])
    else
      var y := Recompute(k.weights, k.confirmed, k.cheaterList, k.suspected, k.highestTimestamps, k.time);
      var q := Quorum(y.total);
      (k.(weights := y.weights, confirmed := y.confirmed, quorumCache := k.quorumCache[f := q]), q)
  }

  // ---------------------------------------------------------------------------
  // forkless_cause

  /** One of the two creators lists the other as a cheater. */
  predicate Flagged(cheaterList: map<Validator, set<Validator>>, a: Validator, b: Validator) {
    (b in cheaterList && a in cheaterList[b]) || (a in cheaterList && b in cheaterList[a])
  }

  /** The validators `a` has observed at a sequence no lower than the one at
      which they first observed `b`. */
  function Agreeing(a: Event, b: Event): (vs: set<Validator>)
    ensures vs <= a.highestObserved.Keys
    ensures forall v :: v in vs <==>
      v in a.highestObserved && v in b.lowestObserving && b.lowestObserving[v].sequence <= a.highestObserved[v]
  {
    set v | v in a.highestObserved && v in b.lowestObserving && b.lowestObserving[v].sequence <= a.highestObserved[v]
  }

  /** `forkless_cause(a, b)`: never between creators that flag each other;
      otherwise the agreeing validators' weight, taken before the quorum of
      `b`'s frame is computed, must reach that quorum. */
  function ForklessCause(k: Stake, a: Event, b: Event): (r: (Stake, bool))
    requires QuorumReady(k) && Agreeing(a, b) <= k.weights.Keys
    ensures QuorumEffect(k, r.0) && QuorumReady(r.0)
    ensures Flagged(k.cheaterList, a.validator, b.validator) ==> r == (k, false)
    ensures !Flagged(k.cheaterList, a.validator, b.validator) ==>
      b.frame in r.0.quorumCache && (r.1 <==> SetSum(Agreeing(a, b), k.weights) >= r.0.quorumCache[b.frame])
    ensures b.frame in k.quorumCache ==> r == (k, CachedCause(k, a, b))
  {
    if Flagged(k.cheaterList, a.validator, b.validator) then (k, false)
    else
      var yes := SetSum(Agreeing(a, b), k.weights);
      var kq := GetQuorum(k, b.frame);
      (kq.0, yes >= kq.1)
  }

  /** Forkless cause against the cached quorum of `b`'s frame: the creators
      do not flag each other, and the agreeing validators' weight reaches it. */
  predicate CachedCause(k: Stake, a: Event, b: Event)
    requires Agreeing(a, b) <= k.weights.Keys
  {
    && b.frame in k.quorumCache
    && !Flagged(k.cheaterList, a.validator, b.validator)
    && SetSum(Agreeing(a, b), k.weights) >= k.quorumCache[b.frame]
  }

  /** Observing more of the DAG never undoes forkless causality, as long as
      the quorum it is measured against is the cached one. */
  lemma ForklessCauseMonotone(k: Stake, a: Event, a': Event, b: Event)
    requires QuorumReady(k) && Agreeing(a, b) <= k.weights.Keys && Agreeing(a', b) <= k.weights.Keys
    requires a'.validator == a.validator && b.frame in k.quorumCache
    requires forall v :: v in a.highestObserved ==> v in a'.highestObserved && a'.highestObserved[v] >= a.highestObserved[v]
    ensures ForklessCause(k, a, b).1 ==> ForklessCause(k, a', b).1
  {
    assert Agreeing(a, b) <= Agreeing(a', b);
    SetSumSubset(Agreeing(a, b), Agreeing(a', b), k.weights);
  }

  // ---------------------------------------------------------------------------
  // get_direct_child, is_root

  /** Every parent of a stored event is stored. */
  predicate Closed(events: map<Uuid, Event>) {
    forall u, p :: u in events && p in events[u].parents ==> p in events
  }

  /** The parent is `e`'s creator's event one sequence number below `e`. */
  predicate SelfParent(events: map<Uuid, Event>, e: Event, p: Uuid)
    requires p in events
  {
    events[p].sequence == e.sequence - 1 && events[p].validator == e.validator
  }

  /** Position of the first self-parent among `parents`, or their number. */
  function DirectChildIndex(events: map<Uuid, Event>, e: Event, parents: seq<Uuid>): (i: nat)
    requires forall p :: p in parents ==> p in events
    ensures i <= |parents|
    ensures i < |parents| ==> SelfParent(events, e, parents[i])
    ensures forall j :: 0 <= j < i ==> !SelfParent(events, e, parents[j])
  {
    if parents == [] then 0
    else if SelfParent(events, e, parents[0]) then 0
    else 1 + DirectChildIndex(events, e, parents[1..])
  }

  /** `get_direct_child(event)`: the first parent by the same creator with
      the preceding sequence number. */
  function GetDirectChild(events: map<Uuid, Event>, e: Event): (r: Option<Uuid>)
    requires forall p :: p in e.parents ==> p in events
    ensures r.Some? ==> r.value in e.parents && SelfParent(events, e, r.value)
    ensures r.Some? ==> exists i :: 0 <= i < |e.parents| && e.parents[i] == r.value
                          && forall j :: 0 <= j < i ==> !SelfParent(events, e, e.parents[j])
    ensures r.None? ==> forall p :: p in e.parents ==> !SelfParent(events, e, p)
  {
    var i := DirectChildIndex(events, e, e.parents);
    if i < |e.parents| then Some(e.parents[i]) else None
  }

  /** No two stored events of `v` share a sequence number. */
  predicate ForkFree(events: map<Uuid, Event>, v: Validator) {
    forall u, w ::
      u in events && w in events && events[u].validator == v == events[w].validator && events[u].sequence == events[w].sequence
      ==> u == w
  }

  /** Without a fork by `e`'s creator, the direct child is the only self-parent. */
  lemma DirectChildUnique(events: map<Uuid, Event>, e: Event, p: Uuid)
    requires forall q :: q in e.parents ==> q in events
    requires p in e.parents && SelfParent(events, e, p) && ForkFree(events, e.validator)
    ensures GetDirectChild(events, e) == Some(p)
  {
  }

  /** What every stored event needs for the lookups of the pipeline to succeed. */
  predicate Known(events: map<Uuid, Event>, weights: map<Validator, nat>) {
    forall u :: u in events ==>
      && events[u].validator in weights
      && events[u].highestObserved.Keys <= weights.Keys
      && events[u].highestTimestamps.Keys <= weights.Keys
  }

  /** The weight of the roots in `roots` whose creators are not flagged
      together with `v`, counted once per listed root. */
  function RootsWeight(events: map<Uuid, Event>, weights: map<Validator, nat>, cheaterList: map<Validator, set<Validator>>,
                       v: Validator, roots: seq<Uuid>): nat
    requires Known(events, weights) && forall u :: u in roots ==> u in events
  {
    if roots == [] then 0
    else
      var w := events[roots[0]].validator;
      (if Flagged(cheaterList, v, w) then 0 else weights[w]) + RootsWeight(events, weights, cheaterList, v, roots[1..])
  }

  /** Lower weights give a lower roots weight. */
  lemma {:induction false} RootsWeightPointwise(events: map<Uuid, Event>, weights: map<Validator, nat>, weights': map<Validator, nat>,
                                                cheaterList: map<Validator, set<Validator>>, v: Validator, roots: seq<Uuid>)
    requires Known(events, weights) && Known(events, weights') && forall u :: u in roots ==> u in events
    requires forall x :: x in weights ==> x in weights' && weights'[x] <= weights[x]
    ensures RootsWeight(events, weights', cheaterList, v, roots) <= RootsWeight(events, weights, cheaterList, v, roots)
  {
    if roots != [] {
      RootsWeightPointwise(events, weights, weights', cheaterList, v, roots[1..]);
    }
  }

  /** The quorums the forkless-cause calls on `roots` ask for are all cached. */
  predicate QuorumsCached(k: Stake, events: map<Uuid, Event>, roots: seq<Uuid>)
    requires forall u :: u in roots ==> u in events
  {
    forall u :: u in roots ==> events[u].frame in k.quorumCache
  }

  /** The weight of the creators of the listed roots that `a` forkless
      causes against the quorums cached in `k`. */
  function CausedWeight(k: Stake, events: map<Uuid, Event>, a: Event, roots: seq<Uuid>): nat
    requires Known(events, k.weights)
    requires a.highestObserved.Keys <= k.weights.Keys && forall u :: u in roots ==> u in events
  {
    if roots == [] then 0
    else
      (if CachedCause(k, a, events[roots[0]]) then k.weights[events[roots[0]].validator] else 0)
      + CausedWeight(k, events, a, roots[1..])
  }

  /** The sum in `is_root`: each root in turn is put to `forkless_cause`
      and, when caused, its creator's weight is read after that call. When
      no call has a quorum to compute, nothing changes in between and the
      sum is the caused roots' weight (`RootVotesCached`). */
  function RootVotes(k: Stake, events: map<Uuid, Event>, a: Event, roots: seq<Uuid>): (r: (Stake, nat))
    requires QuorumReady(k) && Known(events, k.weights)
    requires a.highestObserved.Keys <= k.weights.Keys && forall u :: u in roots ==> u in events
    ensures QuorumEffect(k, r.0) && QuorumReady(r.0)
    ensures r.1 <= RootsWeight(events, k.weights, k.cheaterList, a.validator, roots)
    decreases |roots|
  {
    if roots == [] then (k, 0)
    else
      var b := events[roots[0]];
      var k1 := ForklessCause(k, a, b);
      var w := if k1.1 then k1.0.weights[b.validator] else 0;
      var k2 := RootVotes(k1.0, events, a, roots[1..]);
      RootVotesStep(k, k1.0, k2.0, events, a.validator, roots, w, k2.1);
      (k2.0, w + k2.1)
  }

  /** When no call has a quorum to compute, the sum in `is_root` changes
      nothing and is exactly the caused roots' weight. */
  lemma {:induction false} RootVotesCached(k: Stake, events: map<Uuid, Event>, a: Event, roots: seq<Uuid>)
    requires QuorumReady(k) && Known(events, k.weights)
    requires a.highestObserved.Keys <= k.weights.Keys && forall u :: u in roots ==> u in events
    requires QuorumsCached(k, events, roots)
    ensures RootVotes(k, events, a, roots) == (k, CausedWeight(k, events, a, roots))
    decreases |roots|
  {
    if roots != [] {
      CachedTail(k, events, roots);
      assert roots[0] in roots;
      RootVotesCached(k, events, a, roots[1..]);
    }
  }

  lemma CachedTail(k: Stake, events: map<Uuid, Event>, roots: seq<Uuid>)
    requires roots != [] && (forall u :: u in roots ==> u in events) && QuorumsCached(k, events, roots)
    ensures QuorumsCached(k, events, roots[1..])
  {
    assert forall u :: u in roots[1..] ==> u in roots;
  }

  /** Giving event `id` a frame whose quorum is cached keeps the roots cached. */
  lemma CachedWithFrame(k: Stake, events: map<Uuid, Event>, id: Uuid, f: Option<nat>, roots: seq<Uuid>)
    requires id in events && forall u :: u in roots ==> u in events
    ensures f in k.quorumCache && QuorumsCached(k, events, roots) ==> QuorumsCached(k, WithFrame(events, id, f), roots)
  {
  }

  lemma RootVotesStep(k: Stake, k1: Stake, k2: Stake, events: map<Uuid, Event>, v: Validator, roots: seq<Uuid>, w: nat, rest: nat)
    requires Known(events, k.weights) && roots != [] && forall u :: u in roots ==> u in events
    requires QuorumEffect(k, k1) && QuorumEffect(k1, k2)
    requires w <= if Flagged(k.cheaterList, v, events[roots[0]].validator) then 0 else k.weights[events[roots[0]].validator]
    requires Known(events, k1.weights) && rest <= RootsWeight(events, k1.weights, k1.cheaterList, v, roots[1..])
    ensures QuorumEffect(k, k2)
    ensures w + rest <= RootsWeight(events, k.weights, k.cheaterList, v, roots)
  {
    QuorumEffectTrans(k, k1, k2);
    RootsWeightPointwise(events, k.weights, k1.weights, k.cheaterList, v, roots[1..]);
  }

  /** Every uuid in a root set is a stored event. */
  predicate RootsStored(events: map<Uuid, Event>, rootSets: map<nat, seq<Uuid>>) {
    forall f, u :: f in rootSets && u in rootSets[f] ==> u in events
  }

  /** The lookups of the pipeline's steps all succeed. */
  predicate Ready(s: State) {
    && QuorumReady(s.stake)
    && Known(s.events, s.stake.weights)
    && Closed(s.events)
    && RootsStored(s.events, s.rootSets)
  }

  lemma QuorumEffectReady(s: State, k: Stake)
    requires Ready(s) && QuorumEffect(s.stake, k)
    ensures Ready(s.(stake := k))
  {
  }

  /** The two event maps agree on everything the lookups depend on. */
  predicate SameShape(events: map<Uuid, Event>, events': map<Uuid, Event>) {
    && events'.Keys == events.Keys
    && forall u :: u in events ==>
      && events'[u].validator == events[u].validator
      && events'[u].parents == events[u].parents
      && events'[u].highestObserved == events[u].highestObserved
      && events'[u].highestTimestamps == events[u].highestTimestamps
  }

  lemma SameShapeReady(s: State, events': map<Uuid, Event>)
    requires Ready(s) && SameShape(s.events, events')
    ensures Ready(s.(events := events'))
  {
    assert Known(events', s.stake.weights);
    assert Closed(events');
  }

  /** The event maps differ at most in Atropos flags. */
  predicate AtroposOnly(events: map<Uuid, Event>, events': map<Uuid, Event>) {
    && events'.Keys == events.Keys
    && forall u :: u in events ==> events'[u] == events[u].(atropos := events'[u].atropos)
  }

  lemma AtroposOnlyTrans(a: map<Uuid, Event>, b: map<Uuid, Event>, c: map<Uuid, Event>)
    requires AtroposOnly(a, b) && AtroposOnly(b, c)
    ensures AtroposOnly(a, c)
  {
  }

  /** The roots of `frame`, or none when it has no root set (or is `None`). */
  function FrameRoots(rootSets: map<nat, seq<Uuid>>, frame: Option<nat>): seq<Uuid> {
    if frame.Some? && frame.value in rootSets then rootSets[frame.value] else []
  }

  /** The event map with the frame of `id` set to `f`. */
  function WithFrame(events: map<Uuid, Event>, id: Uuid, f: Option<nat>): map<Uuid, Event>
    requires id in events
  {
    events[id := events[id].(frame := f)]
  }

  /** `t` is `s` after setting the frame of event `id` and calling `quorum`. */
  ghost predicate FrameOnly(s: State, id: Uuid, t: State) {
    && id in s.events && id in t.events
    && t == s.(stake := t.stake, events := WithFrame(s.events, id, t.events[id].frame))
    && QuorumEffect(s.stake, t.stake)
  }

  /** The weighted test at the end of `is_root`, once the frame's roots are
      known: with the quorums cached, the caused roots must weigh at least the
      frame's quorum. */
  function RootTest(s: State, id: Uuid, f: Option<nat>): (r: (Stake, bool))
    requires Ready(s) && id in s.events && FrameRoots(s.rootSets, f) != []
    ensures QuorumEffect(s.stake, r.0) && QuorumReady(r.0)
    ensures r.1 ==>
      && f in r.0.quorumCache
      && RootsWeight(s.events, s.stake.weights, s.stake.cheaterList, s.events[id].validator, FrameRoots(s.rootSets, f)) >= r.0.quorumCache[f]
    ensures f in s.stake.quorumCache && QuorumsCached(s.stake, s.events, FrameRoots(s.rootSets, f)) ==>
      r == (s.stake, CausedWeight(s.stake, s.events, s.events[id], FrameRoots(s.rootSets, f)) >= s.stake.quorumCache[f])
  {
    var roots := FrameRoots(s.rootSets, f);
    var kw := RootVotes(s.stake, s.events, s.events[id], roots);
    assert QuorumsCached(s.stake, s.events, roots) ==> kw == (s.stake, CausedWeight(s.stake, s.events, s.events[id], roots)) by {
      if QuorumsCached(s.stake, s.events, roots) {
        RootVotesCached(s.stake, s.events, s.events[id], roots);
      }
    }
    var kq := GetQuorum(kw.0, f);
    QuorumEffectTrans(s.stake, kw.0, kq.0);
    (kq.0, kw.1 >= kq.1)
  }

  /** `is_root` from the point where the event has taken its direct child's frame `f`. */
  function Inherit(s: State, id: Uuid, f: Option<nat>): (r: (State, bool))
    requires Ready(s) && id in s.events
    ensures Ready(r.0) && FrameOnly(s, id, r.0) && r.0.events[id].frame == f
    ensures r.1 ==>
      && FrameRoots(s.rootSets, f) != [] && f in r.0.stake.quorumCache
      && RootsWeight(r.0.events, s.stake.weights, s.stake.cheaterList, s.events[id].validator, FrameRoots(s.rootSets, f))
         >= r.0.stake.quorumCache[f]
    ensures FrameRoots(s.rootSets, f) == [] ==> r == (s.(events := WithFrame(s.events, id, f)), false)
    ensures f in s.stake.quorumCache && QuorumsCached(s.stake, s.events, FrameRoots(s.rootSets, f)) ==>
      && r.0.stake == s.stake
      && (r.1 <==> FrameRoots(s.rootSets, f) != []
                   && CausedWeight(s.stake, r.0.events, r.0.events[id], FrameRoots(s.rootSets, f)) >= s.stake.quorumCache[f])
  {
    var s1 := s.(events := WithFrame(s.events, id, f));
    SameShapeReady(s, s1.events);
    if FrameRoots(s.rootSets, f) == [] then (s1, false)
    else
      CachedWithFrame(s.stake, s.events, id, f, FrameRoots(s.rootSets, f));
      var kr := RootTest(s1, id, f);
      QuorumEffectReady(s1, kr.0);
      (s1.(stake := kr.0), kr.1)
  }

  /** `is_root(event)` for the stored event `id`. An event other than a
      creator's first inherits its direct child's frame, and is a root when
      the roots of that frame it forkless causes weigh at least the frame's
      quorum. */
  function IsRoot(s: State, id: Uuid): (r: (State, bool))
    requires Ready(s) && id in s.events
    ensures Ready(r.0) && FrameOnly(s, id, r.0)
    ensures s.events[id].sequence == 1 ==> r == (s, true)
    ensures s.events[id].sequence != 1 ==> match GetDirectChild(s.events, s.events[id])
      case None => r == (s, false)
      case Some(dc) => r.0.events[id].frame == s.events[dc].frame
    ensures r.1 && s.events[id].sequence != 1 ==>
      && r.0.events[id].frame.Some? && r.0.events[id].frame.value in s.rootSets
      && var f := r.0.events[id].frame;
         && FrameRoots(s.rootSets, f) != [] && f in r.0.stake.quorumCache
         && RootsWeight(r.0.events, s.stake.weights, s.stake.cheaterList, s.events[id].validator, FrameRoots(s.rootSets, f))
            >= r.0.stake.quorumCache[f]
    ensures s.events[id].sequence != 1 ==> match GetDirectChild(s.events, s.events[id])
      case None => true
      case Some(dc) =>
        var f := s.events[dc].frame;
        var roots := FrameRoots(s.rootSets, f);
        f in s.stake.quorumCache && QuorumsCached(s.stake, s.events, roots) ==>
          var events := WithFrame(s.events, id, f);
          && r.0.stake == s.stake
          && (r.1 <==> roots != [] && CausedWeight(s.stake, events, events[id], roots) >= s.stake.quorumCache[f])
  {
    var e := s.events[id];
    if e.sequence == 1 then
      assert s.events == WithFrame(s.events, id, e.frame);
      (s, true)
    else
      match GetDirectChild(s.events, e)
      case None =>
        assert s.events == WithFrame(s.events, id, e.frame);
        (s, false)
      case Some(dc) =>
        Inherit(s, id, s.events[dc].frame)
  }

  /** The root sets as `set_roots` leaves them: the quorum of a frame is
      computed when its root set is opened, and every root carries the frame
      of its set. */
  predicate RootsFramed(s: State) {
    forall f :: f in s.rootSets ==>
      && Some(f) in s.stake.quorumCache
      && forall u :: u in s.rootSets[f] ==> u in s.events && s.events[u].frame == Some(f)
  }

  /** `is_root` in a state with framed root sets: an event other than a
      creator's first without a direct child is no root; one with a direct
      child takes that child's frame, nothing else changes, and it is a root
      exactly when the frame has roots and those it forkless causes weigh at
      least the frame's quorum. */
  lemma IsRootRule(s: State, id: Uuid)
    requires Ready(s) && id in s.events && RootsFramed(s) && s.events[id].sequence != 1
    ensures match GetDirectChild(s.events, s.events[id])
      case None => IsRoot(s, id) == (s, false)
      case Some(dc) =>
        var f := s.events[dc].frame;
        var roots := FrameRoots(s.rootSets, f);
        var events := WithFrame(s.events, id, f);
        && IsRoot(s, id).0 == s.(events := events)
        && (IsRoot(s, id).1 <==> roots != [] && CausedWeight(s.stake, events, events[id], roots) >= s.stake.quorumCache[f])
  {
    match GetDirectChild(s.events, s.events[id])
    case None =>
    case Some(dc) =>
      var f := s.events[dc].frame;
      var roots := FrameRoots(s.rootSets, f);
      if roots != [] {
        assert f in s.stake.quorumCache && QuorumsCached(s.stake, s.events, roots);
      }
  }

  // ---------------------------------------------------------------------------
  // atropos_voting

  /** The sort key `(timestamp, validator, sequence, weight)`, compared
      lexicographically. */
  predicate KeyLe(a: Event, b: Event) {
    || a.timestamp < b.timestamp
    || (a.timestamp == b.timestamp && a.validator < b.validator)
    || (a.timestamp == b.timestamp && a.validator == b.validator && a.sequence < b.sequence)
    || (a.timestamp == b.timestamp && a.validator == b.validator && a.sequence == b.sequence && a.weight <= b.weight)
  }

  predicate AllStored(events: map<Uuid, Event>, xs: seq<Uuid>) {
    forall u :: u in xs ==> u in events
  }

  ghost predicate SortedBy(events: map<Uuid, Event>, xs: seq<Uuid>)
    requires AllStored(events, xs)
  {
    forall i, j :: 0 <= i < j < |xs| ==> KeyLe(events[xs[i]], events[xs[j]])
  }
  lemma SortedByCons(events: map<Uuid, Event>, u: Uuid, ys: seq<Uuid>)
    requires u in events && AllStored(events, ys) && SortedBy(events, ys)
    requires forall y :: y in ys ==> KeyLe(events[u], events[y])
    ensures AllStored(events, [u] + ys) && SortedBy(events, [u] + ys)
  {
    var xs := [u] + ys;
    forall i, j | 0 <= i < j < |xs| ensures KeyLe(events[xs[i]], events[xs[j]]) {
      assert xs[j] == ys[j - 1];
      if i > 0 {
        assert xs[i] == ys[i - 1];
      } else {
        assert ys[j - 1] in ys;
      }
    }
  }

  /** A key no larger than the head of a sorted list can go in front. */
  lemma InsertFront(events: map<Uuid, Event>, u: Uuid, ys: seq<Uuid>)
    requires u in events && AllStored(events, ys) && SortedBy(events, ys)
    requires ys != [] ==> KeyLe(events[u], events[ys[0]])
    ensures AllStored(events, [u] + ys) && SortedBy(events, [u] + ys)
  {
    forall y | y in ys ensures KeyLe(events[u], events[y]) {
      var k :| 0 <= k < |ys| && ys[k] == y;
      if k > 0 { assert KeyLe(events[ys[0]], events[ys[k]]); }
    }
    SortedByCons(events, u, ys);
  }

  /** A head no larger than `u` stays in front of a sorted insertion of `u` into the tail. */
  lemma InsertBehind(events: map<Uuid, Event>, u: Uuid, ys: seq<Uuid>, t: seq<Uuid>)
    requires u in events && ys != [] && AllStored(events, ys) && SortedBy(events, ys)
    requires KeyLe(events[ys[0]], events[u])
    requires multiset(t) == multiset(ys[1..]) + multiset{u} && AllStored(events, t) && SortedBy(events, t)
    ensures AllStored(events, [ys[0]] + t) && SortedBy(events, [ys[0]] + t)
  {
    forall y | y in t ensures KeyLe(events[ys[0]], events[y]) {
      assert y in multiset(t);
      if y != u {
        assert y in multiset(ys[1..]);
        var k :| 0 <= k < |ys[1..]| && ys[1..][k] == y;
        assert ys[k + 1] == y;
      }
    }
    SortedByCons(events, ys[0], t);
  }

  lemma SortedTail(events: map<Uuid, Event>, ys: seq<Uuid>)
    requires ys != [] && AllStored(events, ys) && SortedBy(events, ys)
    ensures AllStored(events, ys[1..]) && SortedBy(events, ys[1..])
  {
    forall i, j | 0 <= i < j < |ys| - 1 ensures KeyLe(events[ys[1..][i]], events[ys[1..][j]]) {
      assert ys[1..][i] == ys[i + 1] && ys[1..][j] == ys[j + 1];
    }
  }

  /** Insert `u` in front of the first listed event whose key is not smaller. */
  function InsertByKey(events: map<Uuid, Event>, u: Uuid, ys: seq<Uuid>): (r: seq<Uuid>)
    requires u in events && AllStored(events, ys)
    ensures multiset(r) == multiset(ys) + multiset{u} && AllStored(events, r)
    ensures SortedBy(events, ys) ==> SortedBy(events, r)
  {
    if ys == [] || KeyLe(events[u], events[ys[0]]) then
      assert SortedBy(events, ys) ==> SortedBy(events, [u] + ys) by {
        if SortedBy(events, ys) { InsertFront(events, u, ys); }
      }
      [u] + ys
    else
      assert ys == [ys[0]] + ys[1..];
      var t := InsertByKey(events, u, ys[1..]);
      assert SortedBy(events, ys) ==> SortedBy(events, [ys[0]] + t) by {
        if SortedBy(events, ys) {
          SortedTail(events, ys);
          InsertBehind(events, u, ys, t);
        }
      }
      [ys[0]] + t
  }

  /** The roots sorted by their key, none lost or added. */
  function SortByKey(events: map<Uuid, Event>, xs: seq<Uuid>): (r: seq<Uuid>)
    requires AllStored(events, xs)
    ensures multiset(r) == multiset(xs) && AllStored(events, r) && SortedBy(events, r)
  {
    if xs == [] then []
    else
      assert xs == [xs[0]] + xs[1..];
      InsertByKey(events, xs[0], SortByKey(events, xs[1..]))
  }

  /** The weight of the listed events' creators, counted once per listed event. */
  function ListWeight(events: map<Uuid, Event>, weights: map<Validator, nat>, xs: seq<Uuid>): nat
    requires Known(events, weights) && AllStored(events, xs)
  {
    if xs == [] then 0 else weights[events[xs[0]].validator] + ListWeight(events, weights, xs[1..])
  }

  /** The recorded vote of `root` on `cand`, read as `{"yes": False}` when absent. */
  predicate VotedYes(votes: map<(Uuid, Uuid), Vote>, root: Uuid, cand: Uuid) {
    (root, cand) in votes && votes[(root, cand)].yes
  }

  /** The weight of the listed roots that recorded a yes vote on `cand`. */
  function YesWeight(events: map<Uuid, Event>, weights: map<Validator, nat>, votes: map<(Uuid, Uuid), Vote>,
                     cand: Uuid, xs: seq<Uuid>): nat
    requires Known(events, weights) && AllStored(events, xs)
  {
    if xs == [] then 0
    else
      (if VotedYes(votes, xs[0], cand) then weights[events[xs[0]].validator] else 0)
      + YesWeight(events, weights, votes, cand, xs[1..])
  }

  /** The tally over the previous frame's roots: every root's weight goes to
      yes or to no, by its recorded vote on `cand`. */
  function Tally(events: map<Uuid, Event>, weights: map<Validator, nat>, votes: map<(Uuid, Uuid), Vote>,
                 cand: Uuid, prev: seq<Uuid>): (r: (nat, nat))
    requires Known(events, weights) && AllStored(events, prev)
    ensures r.0 == YesWeight(events, weights, votes, cand, prev)
    ensures r.0 + r.1 == ListWeight(events, weights, prev)
    ensures (forall p :: p in prev ==> !VotedYes(votes, p, cand)) ==> r.0 == 0
    ensures (forall p :: p in prev ==> VotedYes(votes, p, cand)) ==> r.1 == 0
  {
    if prev == [] then (0, 0)
    else
      assert forall p :: p in prev[1..] ==> p in prev;
      var w := weights[events[prev[0]].validator];
      var t := Tally(events, weights, votes, cand, prev[1..]);
      if VotedYes(votes, prev[0], cand) then (t.0 + w, t.1) else (t.0, t.1 + w)
  }

  /** The votes of the current election so far. */
  function Votes(el: Election): map<(Uuid, Uuid), Vote> {
    if el.frameToDecide in el.votes then el.votes[el.frameToDecide] else map[]
  }

  /** Record the vote of `root` on `cand` in the election of the frame being
      decided; a decided yes makes `cand` that frame's Atropos and moves the
      election on to the next frame and block. */
  function RecordVote(el: Election, root: Uuid, cand: Uuid, vote: Vote): (el': Election) {
    var ftd := el.frameToDecide;
    var el1 := el.(votes := el.votes[ftd := Votes(el)[(root, cand) := vote]]);
    if !vote.decided then el1
    else
      var el2 := el1.(decidedRoots := el1.decidedRoots[cand := vote]);
      if !vote.yes then el2
      else el2.(atroposRoots := el2.atroposRoots[ftd := cand], frameToDecide := ftd + 1, block := el2.block + 1)
  }

  /** What one vote may do to the election: votes already cast stay, the
      election moves on by at most one frame, with block and frame to decide
      in step, and an Atropos is named exactly for the frame it leaves. */
  ghost predicate ElectionStep(el: Election, el': Election) {
    && (forall f, k :: f in el.votes && k in el.votes[f] ==> f in el'.votes && k in el'.votes[f] && el'.votes[f][k] == el.votes[f][k])
    && (el'.frameToDecide == el.frameToDecide || el'.frameToDecide == el.frameToDecide + 1)
    && el'.block - el'.frameToDecide == el.block - el.frameToDecide
    && (el'.frameToDecide == el.frameToDecide ==> el'.atroposRoots == el.atroposRoots)
    && (el'.frameToDecide != el.frameToDecide ==>
          el.frameToDecide in el'.atroposRoots && el'.atroposRoots == el.atroposRoots[el.frameToDecide := el'.atroposRoots[el.frameToDecide]])
  }

  /** A fresh vote is an election step. */
  lemma RecordVoteStep(el: Election, root: Uuid, cand: Uuid, vote: Vote)
    requires (root, cand) !in Votes(el)
    ensures ElectionStep(el, RecordVote(el, root, cand, vote))
    ensures RecordVote(el, root, cand, vote).frameToDecide != el.frameToDecide <==> vote.decided && vote.yes
    ensures Votes(RecordVote(el, root, cand, vote)) == if vote.decided && vote.yes then Votes(el.(frameToDecide := el.frameToDecide + 1))
                                                       else Votes(el)[(root, cand) := vote]
  {
  }

  lemma ElectionStepTrans(a: Election, b: Election, c: Election)
    requires ElectionStep(a, b) && ElectionStep(b, c) && b.frameToDecide == a.frameToDecide
    ensures ElectionStep(a, c)
  {
  }

  /** A vote step of the whole state: the election steps, `quorum` may have
      run, Atropos flags may have been set, and nothing else changes. */
  ghost predicate Voted(s: State, t: State) {
    && t == s.(stake := t.stake, events := t.events, election := t.election)
    && QuorumEffect(s.stake, t.stake)
    && AtroposOnly(s.events, t.events)
    && ElectionStep(s.election, t.election)
  }

  /** Mark the elected candidate's event as the Atropos. */
  function MarkAtropos(events: map<Uuid, Event>, cand: Uuid, elected: bool): (r: map<Uuid, Event>)
    requires cand in events
    ensures AtroposOnly(events, r) && SameShape(events, r)
    ensures elected ==> r[cand].atropos
    ensures forall u :: u in events && (u != cand || !elected) ==> r[u] == events[u]
  {
    if elected then events[cand := events[cand].(atropos := true)] else events
  }

  /** Record a fresh vote after a call of `quorum` in the state. */
  function Cast(s: State, k: Stake, root: Uuid, cand: Uuid, vote: Vote): (t: State)
    requires Ready(s) && QuorumEffect(s.stake, k) && cand in s.events && (root, cand) !in Votes(s.election)
    ensures Ready(t) && Voted(s, t)
    ensures t.stake == k && t.election == RecordVote(s.election, root, cand, vote)
    ensures t.election.frameToDecide != s.election.frameToDecide ==> t.events[cand].atropos
    ensures forall u :: u in s.events && u != cand ==> t.events[u] == s.events[u]
    ensures t.election.frameToDecide == s.election.frameToDecide ==> t.events == s.events
  {
    var el := RecordVote(s.election, root, cand, vote);
    RecordVoteStep(s.election, root, cand, vote);
    var t := s.(stake := k, events := MarkAtropos(s.events, cand, el.frameToDecide != s.election.frameToDecide), election := el);
    QuorumEffectReady(s, k);
    SameShapeReady(s.(stake := k), t.events);
    t
  }

  /** `cand` has been elected Atropos of the frame being decided: the roots
      of the previous frame that voted for it weigh at least the quorum. */
  ghost predicate Elected(s: State, t: State, cand: Uuid)
    requires Known(s.events, s.stake.weights) && RootsStored(s.events, s.rootSets)
  {
    && t.election.frameToDecide == s.election.frameToDecide + 1
    && t.election.atroposRoots == s.election.atroposRoots[s.election.frameToDecide := cand]
    && s.frame >= s.election.frameToDecide + 2 && s.frame - 1 in s.rootSets
    && Some(s.frame) in t.stake.quorumCache
    && Tally(s.events, s.stake.weights, Votes(s.election), cand, SortByKey(s.events, s.rootSets[s.frame - 1])).0
       >= t.stake.quorumCache[Some(s.frame)]
  }

  /** The vote of a root of the frame right after the one being decided: its
      forkless causality of the candidate, never decided. */
  function FirstRound(s: State, root: Uuid, cand: Uuid): (r: State)
    requires Ready(s) && root in s.events && cand in s.events && (root, cand) !in Votes(s.election)
    ensures Ready(r) && Voted(s, r) && r.election.frameToDecide == s.election.frameToDecide
    ensures var fc := ForklessCause(s.stake, s.events[root], s.events[cand]);
      r.stake == fc.0 && r.election == RecordVote(s.election, root, cand, Vote(false, fc.1))
  {
    var ky := ForklessCause(s.stake, s.events[root], s.events[cand]);
    Cast(s, ky.0, root, cand, Vote(false, ky.1))
  }

  /** The vote of a root of a later frame: the tally of the previous frame's
      roots, decided once either side reaches the quorum of the current frame. */
  function LaterRound(s: State, root: Uuid, cand: Uuid): (r: State)
    requires Ready(s) && root in s.events && cand in s.events && (root, cand) !in Votes(s.election)
    requires s.frame >= s.election.frameToDecide + 2 && s.frame - 1 in s.rootSets
    ensures Ready(r) && Voted(s, r)
    ensures r.election.frameToDecide != s.election.frameToDecide ==> Elected(s, r, cand)
    ensures var prev := SortByKey(s.events, s.rootSets[s.frame - 1]);
      var yes := YesWeight(s.events, s.stake.weights, Votes(s.election), cand, prev);
      var no := ListWeight(s.events, s.stake.weights, prev) - yes;
      var kq := GetQuorum(s.stake, Some(s.frame));
      r.stake == kq.0 && r.election == RecordVote(s.election, root, cand, Vote(yes >= kq.1 || no >= kq.1, yes > no))
  {
    var t := Tally(s.events, s.stake.weights, Votes(s.election), cand, SortByKey(s.events, s.rootSets[s.frame - 1]));
    var kq := GetQuorum(s.stake, Some(s.frame));
    var vote := Vote(t.0 >= kq.1 || t.1 >= kq.1, t.0 > t.1);
    var r := Cast(s, kq.0, root, cand, vote);
    RecordVoteStep(s.election, root, cand, vote);
    assert r.election.frameToDecide != s.election.frameToDecide ==> t.0 >= kq.1;
    r
  }

  /** One candidate of `atropos_voting`: a root votes on a candidate at most
      once; there is no vote while the current frame is the one being
      decided, and no Atropos in the first round. */
  function VoteOne(s: State, root: Uuid, cand: Uuid): (r: Result<State>)
    requires Ready(s) && root in s.events && cand in s.events
    ensures r.Failure? <==> (root, cand) !in Votes(s.election) && s.frame >= s.election.frameToDecide + 2 && s.frame - 1 !in s.rootSets
    ensures r.Ok? ==> Ready(r.value) && Voted(s, r.value)
    ensures r.Ok? && (root, cand) in Votes(s.election) ==> r.value == s
    ensures r.Ok? && s.frame <= s.election.frameToDecide + 1 ==> r.value.election.frameToDecide == s.election.frameToDecide
    ensures r.Ok? && r.value.election.frameToDecide != s.election.frameToDecide ==> Elected(s, r.value, cand)
  {
    var ftd := s.election.frameToDecide;
    if (root, cand) in Votes(s.election) then Ok(s)
    else if s.frame == ftd + 1 then Ok(FirstRound(s, root, cand))
    else if s.frame >= ftd + 2 then
      if s.frame - 1 !in s.rootSets then Failure(MissingRootSet(Some(s.frame - 1)))
      else Ok(LaterRound(s, root, cand))
    else Ok(s)
  }

  /** What the loop of `atropos_voting` needs to know of one candidate's vote. */
  function VoteNext(s: State, root: Uuid, cand: Uuid): (r: Result<State>)
    requires Ready(s) && root in s.events && cand in s.events
    ensures r.Failure? ==> s.frame >= s.election.frameToDecide + 2 && s.frame - 1 !in s.rootSets
    ensures r.Ok? ==> Ready(r.value) && Voted(s, r.value)
    ensures r.Ok? && r.value.election.frameToDecide != s.election.frameToDecide ==> s.frame >= s.election.frameToDecide + 2
  {
    VoteOne(s, root, cand)
  }

  /** Any number of vote steps: votes already cast stay, the frame being
      decided only moves forward with the block in step, and the Atropos
      table gains exactly the frames left behind. */
  ghost predicate Elections(el: Election, el': Election) {
    && (forall f, k :: f in el.votes && k in el.votes[f] ==> f in el'.votes && k in el'.votes[f] && el'.votes[f][k] == el.votes[f][k])
    && el.frameToDecide <= el'.frameToDecide
    && el'.block - el'.frameToDecide == el.block - el.frameToDecide
    && (forall f :: f in el'.atroposRoots <==> f in el.atroposRoots || el.frameToDecide <= f < el'.frameToDecide)
    && (forall f :: f in el.atroposRoots && f < el.frameToDecide ==> el'.atroposRoots[f] == el.atroposRoots[f])
  }

  /** Vote steps of the whole state. */
  ghost predicate Progressed(s: State, t: State) {
    && t == s.(stake := t.stake, events := t.events, election := t.election)
    && QuorumEffect(s.stake, t.stake)
    && AtroposOnly(s.events, t.events)
    && Elections(s.election, t.election)
  }

  lemma ProgressedStep(s: State, t: State, u: State)
    requires Progressed(s, t) && Voted(t, u)
    ensures Progressed(s, u)
  {
    QuorumEffectTrans(s.stake, t.stake, u.stake);
    AtroposOnlyTrans(s.events, t.events, u.events);
  }

  lemma ProgressedRefl(s: State)
    ensures Progressed(s, s)
  {
  }

  /** What the loop of `atropos_voting` promises from state `s`: it fails
      only when a later round finds no root set for the previous frame, and
      otherwise makes vote steps that never decide the current frame. */
  ghost predicate Tallied(s: State, r: Result<State>) {
    && (r.Failure? ==> s.frame >= s.election.frameToDecide + 2 && s.frame - 1 !in s.rootSets)
    && (r.Ok? ==> Ready(r.value) && Progressed(s, r.value))
    && (r.Ok? && r.value.election.frameToDecide != s.election.frameToDecide ==> r.value.election.frameToDecide + 1 <= s.frame)
  }

  /** The loop of `atropos_voting` over the sorted candidates. */
  function VoteAll(s: State, root: Uuid, cands: seq<Uuid>): (r: Result<State>)
    requires Ready(s) && root in s.events && AllStored(s.events, cands)
    ensures Tallied(s, r)
    decreases |cands|
  {
    if cands == [] then ProgressedRefl(s); Ok(s)
    else
      var n := VoteNext(s, root, cands[0]);
      if n.Failure? then Failure(n.error)
      else
        var s1 := n.value;
        assert AllStored(s1.events, cands[1..]) by { assert forall u :: u in cands[1..] ==> u in cands; }
        var r := VoteAll(s1, root, cands[1..]);
        VoteAllStep(s, s1, r);
        r
  }

  lemma VoteAllStep(s: State, s1: State, r: Result<State>)
    requires Ready(s) && Voted(s, s1)
    requires s1.election.frameToDecide != s.election.frameToDecide ==> s.frame >= s.election.frameToDecide + 2
    requires Tallied(s1, r)
    ensures Tallied(s, r)
  {
    if r.Ok? {
      QuorumEffectTrans(s.stake, s1.stake, r.value.stake);
      AtroposOnlyTrans(s.events, s1.events, r.value.events);
    }
  }

  /** `atropos_voting(new_root)`: the new root votes on every root of the
      frame being decided, taken in key order. */
  function AtroposVoting(s: State, root: Uuid): (r: Result<State>)
    requires Ready(s) && root in s.events
    ensures r.Failure? ==>
      s.election.frameToDecide !in s.rootSets || (s.frame >= s.election.frameToDecide + 2 && s.frame - 1 !in s.rootSets)
    ensures r.Ok? ==> Ready(r.value) && Progressed(s, r.value)
    ensures r.Ok? && r.value.election.frameToDecide != s.election.frameToDecide ==> r.value.election.frameToDecide + 1 <= s.frame
  {
    var ftd := s.election.frameToDecide;
    if ftd !in s.rootSets then Failure(MissingRootSet(Some(ftd)))
    else VoteAll(s, root, SortByKey(s.events, s.rootSets[ftd]))
  }

  // ---------------------------------------------------------------------------
  // set_roots

  /** Flag event `id` as a root of frame `f` and raise the instance's frame to `f`. */
  function Flag(s: State, id: Uuid, f: nat): (t: State)
    requires Ready(s) && id in s.events
    ensures Ready(t)
    ensures t == s.(events := s.events[id := s.events[id].(root := true, frame := Some(f))], frame := t.frame)
    ensures t.frame == if s.frame < f then f else s.frame
  {
    var events := s.events[id := s.events[id].(root := true, frame := Some(f))];
    SameShapeReady(s, events);
    s.(events := events, frame := if s.frame < f then f else s.frame)
  }

  lemma RootsStoredAdd(events: map<Uuid, Event>, rootSets: map<nat, seq<Uuid>>, f: nat, id: Uuid)
    requires RootsStored(events, rootSets) && id in events
    ensures RootsStored(events, rootSets[f := FrameRoots(rootSets, Some(f)) + [id]])
  {
    var rs := rootSets[f := FrameRoots(rootSets, Some(f)) + [id]];
    forall g, u | g in rs && u in rs[g] ensures u in events {
      if g == f && u !in FrameRoots(rootSets, Some(f)) {
        assert u == id;
      }
    }
  }

  lemma RootSetsReady(s: State, rs: map<nat, seq<Uuid>>)
    requires Ready(s) && RootsStored(s.events, rs)
    ensures Ready(s.(rootSets := rs))
  {
  }

  /** The stake after the root sets gain frame `f`: a new frame has its quorum computed. */
  function FrameQuorum(s: State, f: nat): (k: Stake)
    requires Ready(s)
    ensures QuorumEffect(s.stake, k) && Ready(s.(stake := k))
    ensures f in s.rootSets ==> k == s.stake
    ensures f !in s.rootSets ==> Some(f) in k.quorumCache
  {
    var k := if f in s.rootSets then s.stake else GetQuorum(s.stake, Some(f)).0;
    QuorumEffectReady(s, k);
    k
  }

  /** Add stored event `id` to the root set of `f`; a new root set also
      computes the quorum of its frame. */
  function AddRoot(s: State, id: Uuid, f: nat): (t: State)
    requires Ready(s) && id in s.events
    ensures Ready(t) && t == s.(stake := FrameQuorum(s, f), rootSets := t.rootSets)
    ensures t.rootSets == s.rootSets[f := FrameRoots(s.rootSets, Some(f)) + [id]]
    ensures id in t.rootSets[f]
  {
    var rs := s.rootSets[f := FrameRoots(s.rootSets, Some(f)) + [id]];
    RootsStoredAdd(s.events, s.rootSets, f, id);
    var s1 := s.(stake := FrameQuorum(s, f));
    RootSetsReady(s1, rs);
    s1.(rootSets := rs)
  }

  /** Make event `id` a root of frame `f`. */
  function Register(s: State, id: Uuid, f: nat): (t: State)
    requires Ready(s) && id in s.events
    ensures Ready(t) && id in t.events && t.events[id].root && t.events[id].frame == Some(f)
    ensures t.frame == (if s.frame < f then f else s.frame) && t.election == s.election
    ensures t.rootSets.Keys == s.rootSets.Keys + {f} && id in t.rootSets[f]
  {
    var s1 := Flag(s, id, f);
    assert s1.rootSets == s.rootSets && s1.election == s.election;
    AddRoot(s1, id, f)
  }

  /** The frame a new root takes: the instance's frame for a creator's first
      event, otherwise one above the frame it inherited. */
  function RootFrame(s: State, e: Event): nat
    requires e.sequence != 1 ==> e.frame.Some?
  {
    if e.sequence == 1 then s.frame else e.frame.value + 1
  }

  /** `set_roots(event)`. */
  function SetRoots(s: State, id: Uuid): (r: Result<State>)
    requires Ready(s) && id in s.events
    ensures r.Ok? ==> Ready(r.value) && id in r.value.events
    ensures r.Ok? ==> (r.value.events[id].root <==> s.events[id].root || IsRoot(s, id).1)
  {
    var sr := IsRoot(s, id);
    if !sr.1 then Ok(sr.0)
    else
      var f := RootFrame(sr.0, sr.0.events[id]);
      var s2 := Register(sr.0, id, f);
      var r := AtroposVoting(s2, id);
      assert r.Ok? ==> r.value.events[id].root;
      r
  }

  /** The event maps differ at most in frames, root flags and Atropos flags. */
  ghost predicate Decorated(events: map<Uuid, Event>, events': map<Uuid, Event>) {
    && events'.Keys == events.Keys
    && forall u :: u in events ==>
      events'[u] == events[u].(frame := events'[u].frame, root := events'[u].root, atropos := events'[u].atropos)
  }

  /** `set_roots` touches only the stake through `quorum`, the frame, the
      root sets, the election and the decorations of events. */
  ghost predicate RootsEffect(s: State, t: State) {
    && t == s.(stake := t.stake, events := t.events, frame := t.frame, rootSets := t.rootSets, election := t.election)
    && QuorumEffect(s.stake, t.stake)
    && Decorated(s.events, t.events)
  }

  lemma RegisterEffect(s: State, id: Uuid, f: nat)
    requires Ready(s) && id in s.events
    ensures RootsEffect(s, Register(s, id, f))
  {
    var s1 := Flag(s, id, f);
    assert Decorated(s.events, s1.events);
  }

  lemma RootsEffectTrans(s: State, t: State, u: State)
    requires RootsEffect(s, t) && RootsEffect(t, u)
    ensures RootsEffect(s, u)
  {
    QuorumEffectTrans(s.stake, t.stake, u.stake);
  }

  lemma SetRootsEffect(s: State, id: Uuid)
    requires Ready(s) && id in s.events
    ensures SetRoots(s, id).Ok? ==> RootsEffect(s, SetRoots(s, id).value)
  {
    var sr := IsRoot(s, id);
    assert RootsEffect(s, sr.0);
    if sr.1 {
      var f := RootFrame(sr.0, sr.0.events[id]);
      var s2 := Register(sr.0, id, f);
      RegisterEffect(sr.0, id, f);
      RootsEffectTrans(s, sr.0, s2);
      var r := AtroposVoting(s2, id);
      if r.Ok? {
        assert RootsEffect(s2, r.value);
        RootsEffectTrans(s, s2, r.value);
      }
    }
  }

  /** Where `set_roots` puts a new root: a creator's first event takes the
      instance's frame, any other root one above its direct child's frame;
      the instance's frame rises to it and the root joins that frame's root
      set. An event that is no root only takes over its direct child's frame. */
  lemma SetRootsPlaces(s: State, id: Uuid)
    requires Ready(s) && id in s.events
    ensures var sr := IsRoot(s, id); var r := SetRoots(s, id);
      && (!sr.1 ==> r == Ok(sr.0))
      && (sr.1 && r.Ok? ==>
            && (s.events[id].sequence != 1 ==> sr.0.events[id].frame.Some?)
            && var f := if s.events[id].sequence == 1 then s.frame else sr.0.events[id].frame.value + 1;
               && r.value.events[id].root && r.value.events[id].frame == Some(f)
               && r.value.frame == (if s.frame < f then f else s.frame)
               && f in r.value.rootSets && id in r.value.rootSets[f])
  {
    var sr := IsRoot(s, id);
    if sr.1 {
      var f := RootFrame(sr.0, sr.0.events[id]);
      var s2 := Register(sr.0, id, f);
      var r := AtroposVoting(s2, id);
      if r.Ok? {
        assert r.value.events[id] == s2.events[id].(atropos := r.value.events[id].atropos);
      }
    }
  }

  /** The root sets stay framed when they are unchanged, the cached quorums
      stay, and no root changes its frame. */
  lemma FramedKept(s: State, t: State)
    requires RootsFramed(s) && t.rootSets == s.rootSets
    requires forall g :: g in s.stake.quorumCache ==> g in t.stake.quorumCache
    requires forall f, u :: f in s.rootSets && u in s.rootSets[f] && u in s.events ==> u in t.events && t.events[u].frame == s.events[u].frame
    ensures RootsFramed(t)
  {
  }

  /** Registering an event outside every root set as a root of frame `f`
      keeps the root sets framed. */
  lemma RegisterFramed(s: State, id: Uuid, f: nat)
    requires Ready(s) && id in s.events && RootsFramed(s)
    requires forall g :: g in s.rootSets ==> id !in s.rootSets[g]
    ensures RootsFramed(Register(s, id, f))
  {
    var s1 := Flag(s, id, f);
    var s2 := AddRoot(s1, id, f);
    forall g | g in s2.rootSets
      ensures Some(g) in s2.stake.quorumCache
      ensures forall u :: u in s2.rootSets[g] ==> u in s2.events && s2.events[u].frame == Some(g)
    {
      if g != f {
        assert g in s.rootSets && s2.rootSets[g] == s.rootSets[g];
      }
    }
  }

  /** `set_roots` on an event outside every root set keeps the root sets
      framed: the event itself joins a set only with that set's frame, and
      a new set has its quorum computed. */
  lemma SetRootsFramed(s: State, id: Uuid)
    requires Ready(s) && id in s.events && RootsFramed(s)
    requires forall f :: f in s.rootSets ==> id !in s.rootSets[f]
    ensures SetRoots(s, id).Ok? ==> RootsFramed(SetRoots(s, id).value)
  {
    var sr := IsRoot(s, id);
    FramedKept(s, sr.0);
    if sr.1 {
      var f := RootFrame(sr.0, sr.0.events[id]);
      var s2 := Register(sr.0, id, f);
      RegisterFramed(sr.0, id, f);
      var r := AtroposVoting(s2, id);
      if r.Ok? {
        FramedKept(s2, r.value);
      }
    }
  }

  // ---------------------------------------------------------------------------
  // Frames never run out

  /** The frames are numbered from 1 without gaps: before the first root the
      instance is at frame 1 with no root sets, afterwards there is a root
      set for every frame up to the current one; the frame being decided is
      one of them. */
  ghost predicate FramesOK(s: State) {
    && 1 <= s.election.frameToDecide <= s.frame
    && (s.rootSets == map[] ==> s.frame == 1)
    && (s.rootSets != map[] ==> forall f :: f in s.rootSets <==> 1 <= f <= s.frame)
  }

  /** A new root's frame is at most one above the current frame, and at least 1. */
  lemma RootFrameBounds(s: State, id: Uuid)
    requires Ready(s) && FramesOK(s) && id in s.events && IsRoot(s, id).1
    ensures var t := IsRoot(s, id).0;
      && (t.events[id].sequence != 1 ==> t.events[id].frame.Some?)
      && var f := RootFrame(t, t.events[id]);
         && 1 <= f <= s.frame + 1
         && (s.rootSets == map[] ==> f == s.frame)
  {
  }

  /** With gapless frames, `atropos_voting` finds every root set it asks for,
      and leaves the frames gapless. */
  lemma AtroposVotingSucceeds(s: State, root: Uuid)
    requires Ready(s) && FramesOK(s) && s.rootSets != map[] && root in s.events
    ensures AtroposVoting(s, root).Ok? && FramesOK(AtroposVoting(s, root).value)
  {
    var r := AtroposVoting(s, root);
    assert s.election.frameToDecide in s.rootSets;
    if s.frame >= s.election.frameToDecide + 2 {
      assert s.frame - 1 in s.rootSets;
    }
  }

  /** Adding frame `f`, at most one above `n`, to the gapless frames `1..n` keeps them gapless. */
  lemma GaplessAdd(keys: set<nat>, n: nat, f: nat)
    requires 1 <= f <= n + 1
    requires keys == {} ==> f == n == 1
    requires keys != {} ==> forall g :: g in keys <==> 1 <= g <= n
    ensures forall g :: g in keys + {f} <==> 1 <= g <= (if n < f then f else n)
  {
  }

  /** Registering a root at most one frame above the current one keeps the frames gapless. */
  lemma RegisterFrames(s: State, id: Uuid, f: nat)
    requires Ready(s) && FramesOK(s) && id in s.events
    requires 1 <= f <= s.frame + 1 && (s.rootSets == map[] ==> f == s.frame)
    ensures FramesOK(Register(s, id, f)) && Register(s, id, f).rootSets != map[]
  {
    var t := Register(s, id, f);
    assert s.rootSets.Keys == {} <==> s.rootSets == map[];
    GaplessAdd(s.rootSets.Keys, s.frame, f);
    assert f in t.rootSets;
  }

  /** With gapless frames, `set_roots` succeeds and keeps them gapless. */
  lemma SetRootsSucceeds(s: State, id: Uuid)
    requires Ready(s) && FramesOK(s) && id in s.events
    ensures SetRoots(s, id).Ok? && FramesOK(SetRoots(s, id).value)
  {
    var sr := IsRoot(s, id);
    assert FramesOK(sr.0);
    if sr.1 {
      RootFrameBounds(s, id);
      var f := RootFrame(sr.0, sr.0.events[id]);
      RegisterFrames(sr.0, id, f);
      AtroposVotingSucceeds(Register(sr.0, id, f), id);
    }
  }
}

=== FILE: refactor_walks.dfy ===
/** The per-event pipeline of PyLachesis/refactor.py: the ancestor walks of
    `detect_forks` and `set_lowest_observing_events`, the pointwise-max merges
    of `set_highest_events_observed` and `set_highest_timestamps_observed`,
    and the body of the loop in `process_events` that runs them and then
    `set_roots` on each arriving event. */
module RefactorWalks {
  import opened Wrappers
  import opened Weights
  import opened RefactorEngine

  // ---------------------------------------------------------------------------
  // detect_forks

  /** The sequence numbers of `w`'s events that `v` has walked past. */
  function Seen(os: map<Validator, map<Validator, set<nat>>>, v: Validator, w: Validator): set<nat> {
    if v in os && w in os[v] then os[v][w] else {}
  }

  /** Record that `v` has walked past `w`'s event at sequence `n`, creating the missing levels. */
  function Record(os: map<Validator, map<Validator, set<nat>>>, v: Validator, w: Validator, n: nat)
    : (r: map<Validator, map<Validator, set<nat>>>)
    ensures forall x, y :: Seen(r, x, y) == if x == v && y == w then Seen(os, v, w) + {n} else Seen(os, x, y)
  {
    var row: map<Validator, set<nat>> := if v in os then os[v] else map[];
    os[v := row[w := Seen(os, v, w) + {n}]]
  }

  /** Every recorded sequence number belongs to a stored event that the
      recording validator has visited. */
  ghost predicate Witnessed(events: map<Uuid, Event>, os: map<Validator, map<Validator, set<nat>>>) {
    forall v, w, n :: n in Seen(os, v, w) ==>
      exists u :: u in events && events[u].validator == w && events[u].sequence == n && v in events[u].visited
  }

  /** The two per-event ledgers the walks write: `visited` and `lowest_observing`. */
  datatype Ledger = VisitedBy | LowestObserving

  function Entries(e: Event, l: Ledger): map<Validator, Observer> {
    match l
    case VisitedBy => e.visited
    case LowestObserving => e.lowestObserving
  }

  /** Set the `v` entry of event `u`'s visited or lowest-observing ledger to `obs`. */
  function Stamp(events: map<Uuid, Event>, u: Uuid, l: Ledger, v: Validator, obs: Observer): (r: map<Uuid, Event>)
    requires u in events
    ensures r.Keys == events.Keys && Entries(r[u], l) == Entries(events[u], l)[v := obs]
    ensures forall x :: x in events && x != u ==> r[x] == events[x]
    ensures match l
      case VisitedBy => r[u] == events[u].(visited := r[u].visited)
      case LowestObserving => r[u] == events[u].(lowestObserving := r[u].lowestObserving)
  {
    var e := events[u];
    events[u := match l
      case VisitedBy => e.(visited := e.visited[v := obs])
      case LowestObserving => e.(lowestObserving := e.lowestObserving[v := obs])]
  }

  /** The stored events without a `v` entry in ledger `l`. */
  function Unstamped(events: map<Uuid, Event>, l: Ledger, v: Validator): set<Uuid> {
    set u | u in events && v !in Entries(events[u], l)
  }

  /** A walk of `v` only adds `v`-entries, all equal to `obs`, to ledger `l`
      of events that had none; nothing else changes. */
  ghost predicate StampsOnly(events: map<Uuid, Event>, events': map<Uuid, Event>, l: Ledger, v: Validator, obs: Observer) {
    && events'.Keys == events.Keys
    && forall u :: u in events ==>
      && (match l
          case VisitedBy => events'[u] == events[u].(visited := events'[u].visited)
          case LowestObserving => events'[u] == events[u].(lowestObserving := events'[u].lowestObserving))
      && (Entries(events'[u], l) == Entries(events[u], l)
          || (v !in Entries(events[u], l) && Entries(events'[u], l) == Entries(events[u], l)[v := obs]))
  }

  lemma StampStep(events: map<Uuid, Event>, u: Uuid, l: Ledger, v: Validator, obs: Observer)
    requires u in events && v !in Entries(events[u], l)
    ensures StampsOnly(events, Stamp(events, u, l, v, obs), l, v, obs)
    ensures Unstamped(Stamp(events, u, l, v, obs), l, v) == Unstamped(events, l, v) - {u}
    ensures Closed(events) ==> Closed(Stamp(events, u, l, v, obs))
  {
    StampUnstamped(events, u, l, v, obs);
  }

  lemma StampUnstamped(events: map<Uuid, Event>, u: Uuid, l: Ledger, v: Validator, obs: Observer)
    requires u in events && v !in Entries(events[u], l)
    ensures Unstamped(Stamp(events, u, l, v, obs), l, v) == Unstamped(events, l, v) - {u}
  {
  }

  lemma StampsOnlyTrans(a: map<Uuid, Event>, b: map<Uuid, Event>, c: map<Uuid, Event>, l: Ledger, v: Validator, obs: Observer)
    requires StampsOnly(a, b, l, v, obs) && StampsOnly(b, c, l, v, obs)
    ensures StampsOnly(a, c, l, v, obs)
  {
    forall u | u in a
      ensures Entries(c[u], l) == Entries(a[u], l) || (v !in Entries(a[u], l) && Entries(c[u], l) == Entries(a[u], l)[v := obs])
    {
    }
  }

  /** Forks are a matter of creators and sequence numbers, which the walks leave alone. */
  lemma StampsKeepForks(events: map<Uuid, Event>, events': map<Uuid, Event>, l: Ledger, v: Validator, obs: Observer, c: Validator)
    requires StampsOnly(events, events', l, v, obs)
    ensures ForkFree(events', c) <==> ForkFree(events, c)
  {
    assert forall u :: u in events ==> events'[u].validator == events[u].validator && events'[u].sequence == events[u].sequence by {
      forall u | u in events ensures events'[u].validator == events[u].validator && events'[u].sequence == events[u].sequence {
        match l
        case VisitedBy =>
        case LowestObserving =>
      }
    }
  }

  /** The creators of the stored events. */
  function Creators(events: map<Uuid, Event>): set<Validator> {
    set u | u in events :: events[u].validator
  }

  /** What the walk has gathered: the event map with the visits, the
      observed sequences, and the creators caught at a repeated sequence. */
  datatype Scan = Scan(events: map<Uuid, Event>, observed: map<Validator, map<Validator, set<nat>>>, found: set<Validator>)

  /** The breadth-first loop of `detect_forks` for an event of `v` described
      by `obs`. An ancestor visited for the first time is marked; if `v` has
      already walked past an event of the same creator with the same sequence
      number the creator is caught, otherwise the sequence number is recorded
      and the ancestor's parents join the queue. */
  function ForkWalk(sc: Scan, v: Validator, obs: Observer, queue: seq<Uuid>): (r: Scan)
    requires Closed(sc.events) && forall u :: u in queue ==> u in sc.events
    ensures Walked(sc, r, v, obs, queue) && Closed(r.events)
    decreases Unstamped(sc.events, VisitedBy, v), |queue|
  {
    if queue == [] then sc
    else
      var u := queue[0];
      var p := sc.events[u];
      if v in p.visited then
        var r := ForkWalk(sc, v, obs, queue[1..]);
        WalkedSkip(sc, r, v, obs, queue);
        r
      else
        var events := Stamp(sc.events, u, VisitedBy, v, obs);
        StampStep(sc.events, u, VisitedBy, v, obs);
        var caught := p.sequence in Seen(sc.observed, v, p.validator);
        var sc1 := if caught then Scan(events, sc.observed, sc.found + {p.validator})
                   else Scan(events, Record(sc.observed, v, p.validator, p.sequence), sc.found);
        var next := if caught then queue[1..] else queue[1..] + p.parents;
        assert forall x :: x in next ==> x in events by {
          assert forall x :: x in p.parents ==> x in sc.events;
        }
        var r := ForkWalk(sc1, v, obs, next);
        assert Witnessed(sc.events, sc.observed) ==> Witnessed(sc1.events, sc1.observed) && (caught ==> !ForkFree(sc.events, p.validator)) by {
          if Witnessed(sc.events, sc.observed) { VisitWitnessed(sc.events, sc.observed, u, v, obs); }
        }
        ForkWalkStep(sc, sc1, r, v, obs, u, queue, next, caught);
        r
  }

  /** What a fork walk from `queue` promises: only visit stamps of `v` are
      added, every queued event ends up visited by `v`, and every creator it
      catches is a stored creator with a fork, provided the sequence numbers
      recorded so far were witnessed. */
  ghost predicate Walked(sc: Scan, r: Scan, v: Validator, obs: Observer, queue: seq<Uuid>) {
    && StampsOnly(sc.events, r.events, VisitedBy, v, obs)
    && (forall u :: u in queue ==> u in r.events && v in r.events[u].visited)
    && sc.found <= r.found && r.found - sc.found <= Creators(sc.events)
    && (Witnessed(sc.events, sc.observed) ==>
      && Witnessed(r.events, r.observed)
      && forall c :: c in r.found - sc.found ==> !ForkFree(sc.events, c))
  }

  /** An event `v` has already visited is skipped. */
  lemma WalkedSkip(sc: Scan, r: Scan, v: Validator, obs: Observer, queue: seq<Uuid>)
    requires queue != [] && queue[0] in sc.events && v in sc.events[queue[0]].visited
    requires Walked(sc, r, v, obs, queue[1..])
    ensures Walked(sc, r, v, obs, queue)
  {
    assert forall x :: x in queue ==> x == queue[0] || x in queue[1..];
  }

  /** Visiting `u` keeps every record witnessed, including the one it adds,
      and a repeated sequence number is a fork. */
  lemma VisitWitnessed(events: map<Uuid, Event>, os: map<Validator, map<Validator, set<nat>>>, u: Uuid, v: Validator, obs: Observer)
    requires Witnessed(events, os) && u in events && v !in events[u].visited
    ensures var p := events[u];
      && Witnessed(Stamp(events, u, VisitedBy, v, obs), os)
      && Witnessed(Stamp(events, u, VisitedBy, v, obs), Record(os, v, p.validator, p.sequence))
      && (p.sequence in Seen(os, v, p.validator) ==> !ForkFree(events, p.validator))
  {
    var p := events[u];
    var e1 := Stamp(events, u, VisitedBy, v, obs);
    var os1 := Record(os, v, p.validator, p.sequence);
    forall a, w, n | n in Seen(os1, a, w)
      ensures exists x :: x in e1 && e1[x].validator == w && e1[x].sequence == n && a in e1[x].visited
    {
      if a == v && w == p.validator && n == p.sequence {
        assert e1[u].validator == w && e1[u].sequence == n && a in e1[u].visited;
      } else {
        assert n in Seen(os, a, w);
        var x :| x in events && events[x].validator == w && events[x].sequence == n && a in events[x].visited;
        assert e1[x].validator == w && e1[x].sequence == n && a in e1[x].visited;
      }
    }
    forall a, w, n | n in Seen(os, a, w)
      ensures exists x :: x in e1 && e1[x].validator == w && e1[x].sequence == n && a in e1[x].visited
    {
      var x :| x in events && events[x].validator == w && events[x].sequence == n && a in events[x].visited;
      assert e1[x].validator == w && e1[x].sequence == n && a in e1[x].visited;
    }
    if p.sequence in Seen(os, v, p.validator) {
      var x :| x in events && events[x].validator == p.validator && events[x].sequence == p.sequence && v in events[x].visited;
      assert x != u;
    }
  }

  lemma ForkWalkStep(sc: Scan, sc1: Scan, r: Scan, v: Validator, obs: Observer, u: Uuid, queue: seq<Uuid>, next: seq<Uuid>, caught: bool)
    requires queue != [] && u == queue[0] && u in sc.events && v !in sc.events[u].visited
    requires forall x :: x in queue ==> x in sc.events
    requires sc1.events == Stamp(sc.events, u, VisitedBy, v, obs) && StampsOnly(sc.events, sc1.events, VisitedBy, v, obs)
    requires var p := sc.events[u];
      && (caught ==> sc1.observed == sc.observed && sc1.found == sc.found + {p.validator} && next == queue[1..])
      && (!caught ==> sc1.found == sc.found && next == queue[1..] + p.parents)
    requires Witnessed(sc.events, sc.observed) ==>
      Witnessed(sc1.events, sc1.observed) && (caught ==> !ForkFree(sc.events, sc.events[u].validator))
    requires Walked(sc1, r, v, obs, next)
    ensures Walked(sc, r, v, obs, queue)
  {
    StampsOnlyTrans(sc.events, sc1.events, r.events, VisitedBy, v, obs);
    StampsKeepCreators(sc.events, sc1.events, VisitedBy, v, obs);
    assert sc.events[u].validator in Creators(sc.events);
    forall x | x in queue ensures x in r.events && v in r.events[x].visited {
      if x != u { assert x in next; }
    }
    if Witnessed(sc.events, sc.observed) {
      CaughtForks(sc.events, sc1.events, v, obs, sc.found, sc1.found, r.found);
    }
  }

  /** Stamps keep every creator. */
  lemma StampsKeepCreators(events: map<Uuid, Event>, events': map<Uuid, Event>, l: Ledger, v: Validator, obs: Observer)
    requires StampsOnly(events, events', l, v, obs)
    ensures Creators(events') <= Creators(events)
  {
    forall c | c in Creators(events') ensures c in Creators(events) {
      var x :| x in events' && events'[x].validator == c;
      match l
      case VisitedBy => assert events[x].validator == c;
      case LowestObserving => assert events[x].validator == c;
    }
  }

  /** Forks found later in the walk were forks before the stamp. */
  lemma CaughtForks(events: map<Uuid, Event>, events': map<Uuid, Event>, v: Validator, obs: Observer,
                    found: set<Validator>, found1: set<Validator>, found2: set<Validator>)
    requires StampsOnly(events, events', VisitedBy, v, obs)
    requires forall c :: c in found1 - found ==> !ForkFree(events, c)
    requires forall c :: c in found2 - found1 ==> !ForkFree(events', c)
    ensures forall c :: c in found2 - found ==> !ForkFree(events, c)
  {
    forall c | c in found2 - found ensures !ForkFree(events, c) {
      if c in found2 - found1 {
        StampsKeepForks(events, events', VisitedBy, v, obs, c);
      }
    }
  }

  /** The creators of stored events are weighted validators. */
  lemma CreatorsKnown(events: map<Uuid, Event>, weights: map<Validator, nat>)
    requires Known(events, weights)
    ensures Creators(events) <= weights.Keys
  {
  }

  /** Nobody is blamed without evidence: every cheater listed by any
      validator, and so every suspected and every confirmed cheater, has two
      stored events with the same sequence number, and every recorded
      sequence number is witnessed by a visited event. */
  ghost predicate ForkSound(s: State) {
    && Witnessed(s.events, s.observedSequences)
    && (forall v, c :: v in s.stake.cheaterList && c in s.stake.cheaterList[v] ==> !ForkFree(s.events, c))
    && (forall c :: c in s.stake.suspected ==> !ForkFree(s.events, c))
    && s.stake.confirmed <= s.stake.suspected
  }

  /** The observer record an event leaves on the ancestors it walks. */
  function ObserverOf(e: Event): Observer {
    Observer(e.uuid, e.sequence)
  }

  /** The cheaters `v` has listed so far. */
  function CheatersOf(cheaterList: map<Validator, set<Validator>>, v: Validator): set<Validator> {
    if v in cheaterList then cheaterList[v] else {}
  }

  /** The walk of `detect_forks` for event `e`, from an empty catch. */
  function ScanFrom(s: State, e: Event): (r: Scan)
    requires Closed(s.events) && forall p :: p in e.parents ==> p in s.events
    ensures StampsOnly(s.events, r.events, VisitedBy, e.validator, ObserverOf(e)) && Closed(r.events)
    ensures forall p :: p in e.parents ==> p in r.events && e.validator in r.events[p].visited
    ensures r.found <= Creators(s.events)
    ensures Witnessed(s.events, s.observedSequences) ==>
      Witnessed(r.events, r.observed) && forall c :: c in r.found ==> !ForkFree(s.events, c)
  {
    ForkWalk(Scan(s.events, s.observedSequences, {}), e.validator, ObserverOf(e), e.parents)
  }

  /** `detect_forks(event)` for the stored event `id`: its creator gets a
      (possibly empty) cheater list, every ancestor the walk reaches for the
      first time is marked as visited by it, and the creators caught at a
      repeated sequence number join both its cheater list and the suspects. */
  function DetectForks(s: State, id: Uuid): (t: State)
    requires Ready(s) && id in s.events
    ensures Ready(t) && t == s.(stake := t.stake, events := t.events, observedSequences := t.observedSequences)
    ensures var e := s.events[id]; var v := e.validator;
      && StampsOnly(s.events, t.events, VisitedBy, v, ObserverOf(e))
      && (forall p :: p in e.parents ==> v in t.events[p].visited)
      && v in t.stake.cheaterList
      && t.stake == s.stake.(cheaterList := s.stake.cheaterList[v := t.stake.cheaterList[v]], suspected := t.stake.suspected)
      && CheatersOf(s.stake.cheaterList, v) <= t.stake.cheaterList[v]
      && s.stake.suspected <= t.stake.suspected
      && t.stake.cheaterList[v] - CheatersOf(s.stake.cheaterList, v) <= t.stake.suspected
      && t.stake.suspected - s.stake.suspected <= t.stake.cheaterList[v]
  {
    var e := s.events[id];
    var v := e.validator;
    var sc := ScanFrom(s, e);
    CreatorsKnown(s.events, s.stake.weights);
    var k := s.stake.(cheaterList := s.stake.cheaterList[v := CheatersOf(s.stake.cheaterList, v) + sc.found],
                      suspected := s.stake.suspected + sc.found);
    var t := s.(stake := k, events := sc.events, observedSequences := sc.observed);
    assert Known(t.events, k.weights);
    t
  }

  /** `detect_forks` keeps the blame sound: whoever it catches has forked. */
  lemma DetectForksSound(s: State, id: Uuid)
    requires Ready(s) && id in s.events && ForkSound(s)
    ensures ForkSound(DetectForks(s, id))
  {
    var e := s.events[id];
    var v := e.validator;
    var sc := ScanFrom(s, e);
    var t := DetectForks(s, id);
    assert t.events == sc.events;
    forall c | !ForkFree(s.events, c) ensures !ForkFree(t.events, c) {
      StampsKeepForks(s.events, t.events, VisitedBy, v, ObserverOf(e), c);
    }
  }

  // ---------------------------------------------------------------------------
  // set_highest_events_observed, set_highest_timestamps_observed

  /** Which "highest" dictionary a merge maintains. */
  datatype Track = Sequences | Timestamps

  /** What a parent reports for its own creator. */
  function Own(p: Event, tr: Track): int {
    match tr
    case Sequences => p.sequence
    case Timestamps => p.timestamp
  }

  /** The dictionary a parent passes on. */
  function Inherited(p: Event, tr: Track): map<Validator, int> {
    match tr
    case Sequences => p.highestObserved
    case Timestamps => p.highestTimestamps
  }

  /** `m` holds at least what parent `p` reports. */
  predicate Covers(m: map<Validator, int>, p: Event, tr: Track) {
    && p.validator in m && m[p.validator] >= Own(p, tr)
    && forall x :: x in Inherited(p, tr) ==> x in m && m[x] >= Inherited(p, tr)[x]
  }

  /** Parent `p` reports value `n` for validator `x`. */
  predicate Reports(p: Event, tr: Track, x: Validator, n: int) {
    (p.validator == x && Own(p, tr) == n) || (x in Inherited(p, tr) && Inherited(p, tr)[x] == n)
  }

  /** One iteration over a parent: raise its own creator's entry to its
      value, then take the pointwise maximum with the dictionary it carries. */
  function Absorb(h: map<Validator, int>, p: Event, tr: Track): (r: map<Validator, int>)
    ensures Covers(r, p, tr)
    ensures forall x :: x in h ==> x in r && r[x] >= h[x]
    ensures forall x :: x in r ==> (x in h && r[x] == h[x]) || Reports(p, tr, x, r[x])
  {
    var h1 := RaiseTo(h, p.validator, Own(p, tr));
    var r := MaxMerge(h1, Inherited(p, tr));
    assert forall x :: Get(r, x) == MaxOpt(Get(h1, x), Get(Inherited(p, tr), x));
    assert forall x :: Get(h1, x) == if x == p.validator then MaxOpt(Get(h, x), Some(Own(p, tr))) else Get(h, x);
    r
  }

  /** The loop over `event.parents`, starting from the event's dictionary
      `h`. The result is the least upper bound of `h` and of everything the
      parents report: it covers them all, and each entry is either `h`'s or
      one a parent reports. */
  function Highest(events: map<Uuid, Event>, h: map<Validator, int>, parents: seq<Uuid>, tr: Track): (r: map<Validator, int>)
    requires forall u :: u in parents ==> u in events
    ensures forall x :: x in h ==> x in r && r[x] >= h[x]
    ensures forall u :: u in parents ==> Covers(r, events[u], tr)
    ensures forall x :: x in r ==> (x in h && r[x] == h[x]) || exists u :: u in parents && Reports(events[u], tr, x, r[x])
    decreases |parents|
  {
    if parents == [] then h
    else
      var p := events[parents[0]];
      var h1 := Absorb(h, p, tr);
      var r := Highest(events, h1, parents[1..], tr);
      HighestStep(events, h, h1, r, parents, tr);
      r
  }

  lemma HighestStep(events: map<Uuid, Event>, h: map<Validator, int>, h1: map<Validator, int>, r: map<Validator, int>,
                    parents: seq<Uuid>, tr: Track)
    requires parents != [] && forall u :: u in parents ==> u in events
    requires var p := events[parents[0]];
      && Covers(h1, p, tr)
      && (forall x :: x in h ==> x in h1 && h1[x] >= h[x])
      && (forall x :: x in h1 ==> (x in h && h1[x] == h[x]) || Reports(p, tr, x, h1[x]))
    requires forall x :: x in h1 ==> x in r && r[x] >= h1[x]
    requires forall u :: u in parents[1..] ==> Covers(r, events[u], tr)
    requires forall x :: x in r ==> (x in h1 && r[x] == h1[x]) || exists u :: u in parents[1..] && Reports(events[u], tr, x, r[x])
    ensures forall u :: u in parents ==> Covers(r, events[u], tr)
    ensures forall x :: x in r ==> (x in h && r[x] == h[x]) || exists u :: u in parents && Reports(events[u], tr, x, r[x])
  {
    var p := events[parents[0]];
    forall u | u in parents ensures Covers(r, events[u], tr) {
      if u != parents[0] { assert u in parents[1..]; }
    }
    forall x | x in r ensures (x in h && r[x] == h[x]) || exists u :: u in parents && Reports(events[u], tr, x, r[x]) {
      if x in h1 && r[x] == h1[x] {
        if !(x in h && h1[x] == h[x]) {
          assert Reports(events[parents[0]], tr, x, r[x]);
        }
      } else {
        var u :| u in parents[1..] && Reports(events[u], tr, x, r[x]);
        assert u in parents;
      }
    }
  }

  /** `set_highest_timestamps_observed`: the event's dictionary grows as in
      `Highest`, and after each parent the instance's dictionary is raised to
      it; since the event's dictionary only grows, the instance ends up with
      the pointwise maximum of what it had and the event's final dictionary,
      and is left alone when there are no parents. */
  function HighestTimestamps(events: map<Uuid, Event>, h: map<Validator, int>, g: map<Validator, int>, parents: seq<Uuid>)
    : (r: (map<Validator, int>, map<Validator, int>))
    requires forall u :: u in parents ==> u in events
    ensures r.0 == Highest(events, h, parents, Timestamps)
    ensures parents == [] ==> r.1 == g
    ensures parents != [] ==> forall x :: Get(r.1, x) == MaxOpt(Get(g, x), Get(r.0, x))
    decreases |parents|
  {
    if parents == [] then (h, g)
    else
      var h1 := Absorb(h, events[parents[0]], Timestamps);
      var g1 := MaxMerge(g, h1);
      var r := HighestTimestamps(events, h1, g1, parents[1..]);
      assert parents[1..] != [] ==> forall x :: Get(r.1, x) == MaxOpt(Get(g, x), Get(r.0, x)) by {
        if parents[1..] != [] {
          forall x ensures Get(r.1, x) == MaxOpt(Get(g, x), Get(r.0, x)) {
            MaxOptAbsorb(Get(g, x), Get(h1, x), Get(r.0, x));
          }
        }
      }
      r
  }

  // ---------------------------------------------------------------------------
  // set_lowest_observing_events

  /** The walk of `v` skips an ancestor whose creator `v` lists as a cheater. */
  predicate Shunned(cheaterList: map<Validator, set<Validator>>, v: Validator, p: Event)
    requires v in cheaterList
  {
    p.validator in cheaterList[v]
  }

  /** The second half of the marking guard, as written: the ancestor's creator
      has no cheater list of its own, or `v` does not list itself. */
  predicate Admits(cheaterList: map<Validator, set<Validator>>, v: Validator, p: Event)
    requires v in cheaterList
  {
    p.validator !in cheaterList || v !in cheaterList[v]
  }

  /** The walk of `v` is done with stored event `u`: it is skipped, already
      observed by `v`, or refused by the guard. */
  predicate Settled(events: map<Uuid, Event>, cheaterList: map<Validator, set<Validator>>, v: Validator, u: Uuid)
    requires v in cheaterList
  {
    u in events && (Shunned(cheaterList, v, events[u]) || v in events[u].lowestObserving || !Admits(cheaterList, v, events[u]))
  }

  /** Marks only accumulate, so a settled event stays settled. */
  lemma SettledPersists(events: map<Uuid, Event>, events': map<Uuid, Event>, cheaterList: map<Validator, set<Validator>>,
                        v: Validator, obs: Observer, u: Uuid)
    requires v in cheaterList && StampsOnly(events, events', LowestObserving, v, obs) && Settled(events, cheaterList, v, u)
    ensures Settled(events', cheaterList, v, u)
  {
  }

  /** The breadth-first loop of `set_lowest_observing_events` for an event of
      `v` described by `obs`. Every ancestor it reaches ends up settled; the
      ancestors it marks were admitted and unskipped, and the parents of each
      of them are settled too. */
  function LowestWalk(events: map<Uuid, Event>, cheaterList: map<Validator, set<Validator>>, v: Validator, obs: Observer,
                      queue: seq<Uuid>): (r: map<Uuid, Event>)
    requires v in cheaterList && Closed(events) && forall u :: u in queue ==> u in events
    ensures StampsOnly(events, r, LowestObserving, v, obs) && Closed(r)
    ensures forall u :: u in queue ==> Settled(r, cheaterList, v, u)
    ensures forall u :: u in events && v !in events[u].lowestObserving && v in r[u].lowestObserving ==>
      && !Shunned(cheaterList, v, events[u]) && Admits(cheaterList, v, events[u])
      && forall q :: q in events[u].parents ==> Settled(r, cheaterList, v, q)
    decreases Unstamped(events, LowestObserving, v), |queue|
  {
    if queue == [] then events
    else
      var u := queue[0];
      var p := events[u];
      if Shunned(cheaterList, v, p) || v in p.lowestObserving || !Admits(cheaterList, v, p) then
        var r := LowestWalk(events, cheaterList, v, obs, queue[1..]);
        SettledPersists(events, r, cheaterList, v, obs, u);
        assert forall x :: x in queue ==> x == u || x in queue[1..];
        r
      else
        var e1 := Stamp(events, u, LowestObserving, v, obs);
        StampStep(events, u, LowestObserving, v, obs);
        var next := queue[1..] + p.parents;
        assert forall x :: x in next ==> x in e1 by {
          assert forall x :: x in p.parents ==> x in events;
        }
        var r := LowestWalk(e1, cheaterList, v, obs, next);
        LowestWalkStep(events, e1, r, cheaterList, v, obs, u, queue, next);
        r
  }

  lemma LowestWalkStep(events: map<Uuid, Event>, e1: map<Uuid, Event>, r: map<Uuid, Event>, cheaterList: map<Validator, set<Validator>>,
                       v: Validator, obs: Observer, u: Uuid, queue: seq<Uuid>, next: seq<Uuid>)
    requires v in cheaterList && queue != [] && u == queue[0] && u in events
    requires !Shunned(cheaterList, v, events[u]) && Admits(cheaterList, v, events[u]) && v !in events[u].lowestObserving
    requires e1 == Stamp(events, u, LowestObserving, v, obs) && StampsOnly(events, e1, LowestObserving, v, obs)
    requires next == queue[1..] + events[u].parents
    requires StampsOnly(e1, r, LowestObserving, v, obs)
    requires forall x :: x in next ==> Settled(r, cheaterList, v, x)
    requires forall x :: x in e1 && v !in e1[x].lowestObserving && v in r[x].lowestObserving ==>
      && !Shunned(cheaterList, v, e1[x]) && Admits(cheaterList, v, e1[x])
      && forall q :: q in e1[x].parents ==> Settled(r, cheaterList, v, q)
    ensures StampsOnly(events, r, LowestObserving, v, obs)
    ensures forall x :: x in queue ==> Settled(r, cheaterList, v, x)
    ensures forall x :: x in events && v !in events[x].lowestObserving && v in r[x].lowestObserving ==>
      && !Shunned(cheaterList, v, events[x]) && Admits(cheaterList, v, events[x])
      && forall q :: q in events[x].parents ==> Settled(r, cheaterList, v, q)
  {
    StampsOnlyTrans(events, e1, r, LowestObserving, v, obs);
    forall x | x in queue ensures Settled(r, cheaterList, v, x) {
      if x == u {
        assert v in r[u].lowestObserving;
      } else {
        assert x in next;
      }
    }
    forall x | x in events && v !in events[x].lowestObserving && v in r[x].lowestObserving
      ensures forall q :: q in events[x].parents ==> Settled(r, cheaterList, v, q)
    {
      if x == u {
        assert forall q :: q in events[u].parents ==> q in next;
      } else {
        assert e1[x] == events[x];
      }
    }
  }

  // ---------------------------------------------------------------------------
  // process_events

  /** An event as it arrives from parsing: no frame, no flags, empty dictionaries. */
  predicate Parsed(e: Event) {
    && e.frame.None? && !e.root && !e.atropos
    && e.highestObserved == map[] && e.lowestObserving == map[] && e.visited == map[] && e.highestTimestamps == map[]
  }

  /** What the loop of `process_events` keeps consistent: every lookup
      succeeds, the validator list and the weight table name the same
      validators, and a confirmed cheater has no weight. */
  predicate Valid(s: State) {
    && Ready(s)
    && (forall v :: v in s.validators ==> v in s.stake.weights)
    && (forall v :: v in s.stake.weights ==> v in s.validators)
    && (forall c :: c in s.stake.confirmed ==> c in s.stake.weights && s.stake.weights[c] == 0)
  }

  /** The weight bookkeeping at the top of the loop body: a new creator is
      appended with its event's weight; a known one takes its event's weight
      unless it is a confirmed cheater, whose weight stays 0. */
  function Enroll(s: State, e: Event): (t: State)
    requires Valid(s)
    ensures Valid(t) && t == s.(validators := t.validators, stake := s.stake.(weights := t.stake.weights))
    ensures forall v :: v in t.validators <==> v in s.validators || v == e.validator
    ensures e.validator in t.stake.weights
    ensures t.stake.weights[e.validator] == if e.validator in s.stake.confirmed then 0 else e.weight
    ensures forall v :: v in s.stake.weights && v != e.validator ==> v in t.stake.weights && t.stake.weights[v] == s.stake.weights[v]
  {
    var v := e.validator;
    if v !in s.validators then
      s.(validators := s.validators + [v], stake := s.stake.(weights := s.stake.weights[v := e.weight]))
    else if v !in s.stake.confirmed then
      s.(stake := s.stake.(weights := s.stake.weights[v := e.weight]))
    else s
  }

  /** Stored events keep their creators, sequence numbers and visits, and
      the map may grow. */
  ghost predicate Preserves(events: map<Uuid, Event>, events': map<Uuid, Event>) {
    && events.Keys <= events'.Keys
    && forall u :: u in events ==>
      && events'[u].validator == events[u].validator
      && events'[u].sequence == events[u].sequence
      && events'[u].visited == events[u].visited
  }

  /** A fork once stored stays a fork. */
  lemma ForkKept(events: map<Uuid, Event>, events': map<Uuid, Event>, c: Validator)
    requires Preserves(events, events') && !ForkFree(events, c)
    ensures !ForkFree(events', c)
  {
    var a, b :| a in events && b in events && events[a].validator == c == events[b].validator
                && events[a].sequence == events[b].sequence && a != b;
    assert events'[a].validator == c == events'[b].validator && events'[a].sequence == events'[b].sequence;
  }

  /** Blame stays sound when nothing it rests on changes. */
  lemma ForkSoundKept(s: State, t: State)
    requires ForkSound(s) && Preserves(s.events, t.events) && t.observedSequences == s.observedSequences
    requires t.stake.cheaterList == s.stake.cheaterList && t.stake.suspected == s.stake.suspected
    requires t.stake.confirmed <= t.stake.suspected
    ensures ForkSound(t)
  {
    forall c | !ForkFree(s.events, c) ensures !ForkFree(t.events, c) {
      ForkKept(s.events, t.events, c);
    }
    forall v, w, n | n in Seen(t.observedSequences, v, w)
      ensures exists u :: u in t.events && t.events[u].validator == w && t.events[u].sequence == n && v in t.events[u].visited
    {
      var u :| u in s.events && s.events[u].validator == w && s.events[u].sequence == n && v in s.events[u].visited;
      assert t.events[u].validator == w && t.events[u].sequence == n && v in t.events[u].visited;
    }
  }

  /** Store the event under its uuid, done before the steps that look
      the event up among the roots. */
  function Store(s: State, e: Event): (t: State)
    requires Valid(s) && Parsed(e) && e.validator in s.stake.weights
    requires e.uuid !in s.events && forall p :: p in e.parents ==> p in s.events
    ensures Valid(t) && t == s.(events := s.events[e.uuid := e])
    ensures Preserves(s.events, t.events)
  {
    var events := s.events[e.uuid := e];
    assert Closed(events);
    assert Known(events, s.stake.weights);
    assert RootsStored(events, s.rootSets);
    s.(events := events)
  }

  /** The merged dictionaries name only weighted validators. */
  lemma HighestKnown(events: map<Uuid, Event>, weights: map<Validator, nat>, h: map<Validator, int>, parents: seq<Uuid>, tr: Track)
    requires Known(events, weights) && (forall u :: u in parents ==> u in events) && h.Keys <= weights.Keys
    ensures Highest(events, h, parents, tr).Keys <= weights.Keys
  {
    var r := Highest(events, h, parents, tr);
    forall x | x in r ensures x in weights {
      if !(x in h && r[x] == h[x]) {
        var u :| u in parents && Reports(events[u], tr, x, r[x]);
        assert Inherited(events[u], tr).Keys <= weights.Keys by {
          match tr
          case Sequences =>
          case Timestamps =>
        }
      }
    }
  }

  /** Replacing a stored event by one with the same creator and parents and
      known dictionaries keeps the lookups working. */
  lemma ReplaceReady(s: State, id: Uuid, e': Event)
    requires Ready(s) && id in s.events
    requires e'.validator == s.events[id].validator && e'.parents == s.events[id].parents
    requires e'.highestObserved.Keys <= s.stake.weights.Keys && e'.highestTimestamps.Keys <= s.stake.weights.Keys
    ensures Ready(s.(events := s.events[id := e']))
  {
    var events := s.events[id := e'];
    assert Known(events, s.stake.weights);
    assert Closed(events);
  }

  /** The instance's timestamp dictionary may change to one naming weighted validators. */
  lemma GlobalReady(s: State, g: map<Validator, int>)
    requires Ready(s) && g.Keys <= s.stake.weights.Keys
    ensures Ready(s.(stake := s.stake.(highestTimestamps := g)))
  {
  }

  /** Raising a dictionary of weighted validators to another one keeps it so. */
  lemma MergedKnown(g: map<Validator, int>, g': map<Validator, int>, h: map<Validator, int>, keys: set<Validator>)
    requires g.Keys <= keys && h.Keys <= keys
    requires forall x :: Get(g', x) == MaxOpt(Get(g, x), Get(h, x))
    ensures g'.Keys <= keys
  {
    forall x | x in g' ensures x in keys {
      assert Get(g', x) == MaxOpt(Get(g, x), Get(h, x));
    }
  }

  /** `set_highest_timestamps_observed(event)` for the stored event `id`:
      the event's dictionary becomes the merge of its parents' reports, and
      the instance's dictionary is raised to it. */
  function SetTimestamps(s: State, id: Uuid): (t: State)
    requires Ready(s) && id in s.events && id !in s.events[id].parents
    ensures Ready(t) && id in t.events
    ensures var e := s.events[id]; var h := t.events[id].highestTimestamps;
      && t == s.(events := s.events[id := e.(highestTimestamps := h)], stake := s.stake.(highestTimestamps := t.stake.highestTimestamps))
      && h == Highest(s.events, e.highestTimestamps, e.parents, Timestamps)
      && (e.parents == [] ==> t.stake.highestTimestamps == s.stake.highestTimestamps)
      && (e.parents != [] ==> forall x :: Get(t.stake.highestTimestamps, x) == MaxOpt(Get(s.stake.highestTimestamps, x), Get(h, x)))
  {
    var e := s.events[id];
    var ht := HighestTimestamps(s.events, e.highestTimestamps, s.stake.highestTimestamps, e.parents);
    HighestKnown(s.events, s.stake.weights, e.highestTimestamps, e.parents, Timestamps);
    assert ht.1.Keys <= s.stake.weights.Keys by {
      if e.parents != [] { MergedKnown(s.stake.highestTimestamps, ht.1, ht.0, s.stake.weights.Keys); }
    }
    var s1 := s.(stake := s.stake.(highestTimestamps := ht.1));
    GlobalReady(s, ht.1);
    ReplaceReady(s1, id, e.(highestTimestamps := ht.0));
    s1.(events := s.events[id := e.(highestTimestamps := ht.0)])
  }

  /** `set_highest_events_observed(event)` for the stored event `id`: the
      event's dictionary becomes the merge of its parents' reports. */
  function SetHighest(s: State, id: Uuid): (t: State)
    requires Ready(s) && id in s.events && id !in s.events[id].parents
    ensures Ready(t) && id in t.events
    ensures var e := s.events[id]; var h := t.events[id].highestObserved;
      && t == s.(events := s.events[id := e.(highestObserved := h)])
      && h == Highest(s.events, e.highestObserved, e.parents, Sequences)
  {
    var e := s.events[id];
    var h := Highest(s.events, e.highestObserved, e.parents, Sequences);
    HighestKnown(s.events, s.stake.weights, e.highestObserved, e.parents, Sequences);
    ReplaceReady(s, id, e.(highestObserved := h));
    s.(events := s.events[id := e.(highestObserved := h)])
  }

  /** `set_lowest_observing_events(event)` for the stored event `id`, whose
      creator has a cheater list. */
  function SetLowest(s: State, id: Uuid): (t: State)
    requires Ready(s) && id in s.events && s.events[id].validator in s.stake.cheaterList
    ensures Ready(t) && t == s.(events := t.events)
    ensures var e := s.events[id];
      && StampsOnly(s.events, t.events, LowestObserving, e.validator, ObserverOf(e))
      && (forall p :: p in e.parents ==> Settled(t.events, s.stake.cheaterList, e.validator, p))
  {
    var e := s.events[id];
    var events := LowestWalk(s.events, s.stake.cheaterList, e.validator, ObserverOf(e), e.parents);
    assert Known(events, s.stake.weights);
    s.(events := events)
  }

  /** The body of the loop of `process_events` for one arriving event: weigh
      its creator, store it, then run fork detection, both merges, the
      lowest-observing walk and `set_roots` on it. */
  function ProcessEvent(s: State, e: Event): (r: Result<State>)
    requires Valid(s) && Parsed(e) && e.uuid !in s.events && forall p :: p in e.parents ==> p in s.events
    ensures r.Ok? ==> Valid(r.value) && e.uuid in r.value.events
  {
    var id := e.uuid;
    var s2 := Store(Enroll(s, e), e);
    var s6 := Observe(s2, id);
    var r := SetRoots(s6, id);
    SetRootsEffect(s6, id);
    if r.Ok? then RootsKeepValid(s6, r.value); r else r
  }

  /** `set_roots` keeps the loop's bookkeeping consistent: it only lowers
      weights, and to 0 for the cheaters it confirms. */
  lemma RootsKeepValid(s: State, t: State)
    requires Valid(s) && Ready(t) && RootsEffect(s, t)
    ensures Valid(t)
  {
    forall c | c in t.stake.confirmed ensures c in t.stake.weights && t.stake.weights[c] == 0 {
      if c in s.stake.confirmed {
        assert t.stake.weights[c] <= s.stake.weights[c];
      }
    }
  }

  /** The steps between storing an event and `set_roots`: fork detection,
      both merges and the lowest-observing walk, none of which touches the
      weights or the validator list. */
  function Observe(s: State, id: Uuid): (t: State)
    requires Valid(s) && id in s.events && id !in s.events[id].parents
    ensures Valid(t) && id in t.events
    ensures t.validators == s.validators && t.stake.weights == s.stake.weights
  {
    var s3 := DetectForks(s, id);
    var s4 := SetTimestamps(s3, id);
    var s5 := SetHighest(s4, id);
    SetLowest(s5, id)
  }

  /** A walk's stamps leave creators, sequence numbers and visits of the
      lowest-observing ledger's walk alone. */
  lemma LowestPreserves(events: map<Uuid, Event>, events': map<Uuid, Event>, v: Validator, obs: Observer)
    requires StampsOnly(events, events', LowestObserving, v, obs)
    ensures Preserves(events, events')
  {
  }

  /** Decorating events with frames and flags preserves them. */
  lemma DecoratedPreserves(events: map<Uuid, Event>, events': map<Uuid, Event>)
    requires Decorated(events, events')
    ensures Preserves(events, events')
  {
  }

  /** Rewriting one event's dictionaries preserves the stored events. */
  lemma ReplacePreserves(events: map<Uuid, Event>, id: Uuid, e': Event)
    requires id in events && e'.validator == events[id].validator && e'.sequence == events[id].sequence
    requires e'.visited == events[id].visited
    ensures Preserves(events, events[id := e'])
  {
  }

  /** With gapless frames, framed root sets and sound blame, every arriving
      event whose parents are stored is processed without error, and all
      three are kept. */
  lemma ProcessEventSucceeds(s: State, e: Event)
    requires Valid(s) && FramesOK(s) && ForkSound(s) && RootsFramed(s)
    requires Parsed(e) && e.uuid !in s.events && forall p :: p in e.parents ==> p in s.events
    ensures ProcessEvent(s, e).Ok?
    ensures FramesOK(ProcessEvent(s, e).value) && ForkSound(ProcessEvent(s, e).value)
    ensures RootsFramed(ProcessEvent(s, e).value)
  {
    var id := e.uuid;
    var s1 := Enroll(s, e);
    var s2 := Store(s1, e);
    ForkSoundKept(s1, s2);
    var s3 := DetectForks(s2, id);
    DetectForksSound(s2, id);
    var s4 := SetTimestamps(s3, id);
    ReplacePreserves(s3.events, id, s4.events[id]);
    ForkSoundKept(s3, s4);
    var s5 := SetHighest(s4, id);
    ReplacePreserves(s4.events, id, s5.events[id]);
    ForkSoundKept(s4, s5);
    var s6 := SetLowest(s5, id);
    LowestPreserves(s5.events, s6.events, e.validator, ObserverOf(e));
    ForkSoundKept(s5, s6);
    assert FramesOK(s6);
    FramedKept(s, s6);
    SetRootsFramed(s6, id);
    SetRootsSucceeds(s6, id);
    SetRootsEffect(s6, id);
    var t := SetRoots(s6, id).value;
    DecoratedPreserves(s6.events, t.events);
    ForkSoundKept(s6, t.(stake := t.stake.(confirmed := s6.stake.confirmed)));
    assert ForkSound(t);
  }

  /** A fresh instance whose validator list and weight table name the same
      validators meets every invariant `ProcessEventSucceeds` asks for. */
  lemma InitReady(vs: seq<Validator>, ws: map<Validator, nat>)
    requires forall v :: v in vs <==> v in ws
    ensures var s := Init(vs, ws); Valid(s) && FramesOK(s) && ForkSound(s) && RootsFramed(s)
  {
  }

  /** The setup of one instance in `parse_and_initialize`: the filtered
      validators and weights are handed to a fresh instance, which then meets
      every invariant of the no-failure lemma. */
  method Initialize(events: seq<Event>) returns (vs: seq<Validator>, ws: map<Validator, nat>, s: State)
    ensures forall v :: v in vs <==> FirstOf(events, v) < Cutoff(events)
    ensures forall v :: v in ws ==> FirstOf(events, v) < |events| && ws[v] == events[FirstOf(events, v)].weight
    ensures s == Init(vs, ws)
    ensures Valid(s) && FramesOK(s) && ForkSound(s) && RootsFramed(s)
  {
    vs, ws := FilterValidatorsAndWeights(events);
    s := Init(vs, ws);
    InitReady(vs, ws);
  }

  /** The two events agree on everything a parent reports or a walk reads. */
  predicate SameReports(a: Event, b: Event) {
    && a.validator == b.validator && a.sequence == b.sequence && a.timestamp == b.timestamp
    && a.highestObserved == b.highestObserved && a.highestTimestamps == b.highestTimestamps && a.visited == b.visited
  }

  /** Every stored event keeps what it reports. */
  ghost predicate ReportsKept(events: map<Uuid, Event>, events': map<Uuid, Event>) {
    events.Keys <= events'.Keys && forall u :: u in events ==> SameReports(events'[u], events[u])
  }

  lemma LowestKeepsReports(events: map<Uuid, Event>, events': map<Uuid, Event>, v: Validator, obs: Observer)
    requires StampsOnly(events, events', LowestObserving, v, obs)
    ensures ReportsKept(events, events')
  {
  }

  lemma DecoratedKeepsReports(events: map<Uuid, Event>, events': map<Uuid, Event>)
    requires Decorated(events, events')
    ensures ReportsKept(events, events')
  {
  }

  lemma CoversTransfer(h: map<Validator, int>, a: Event, b: Event, tr: Track)
    requires SameReports(a, b) && Covers(h, a, tr)
    ensures Covers(h, b, tr)
  {
  }

  /** Every parent of a processed event has been visited by its creator, and
      the event's two "highest" dictionaries cover everything each parent
      reports. */
  lemma ProcessEventObserves(s: State, e: Event)
    requires Valid(s) && Parsed(e) && e.uuid !in s.events && forall p :: p in e.parents ==> p in s.events
    ensures var r := ProcessEvent(s, e);
      r.Ok? ==> forall p :: p in e.parents ==>
        && p in r.value.events && e.validator in r.value.events[p].visited
        && Covers(r.value.events[e.uuid].highestObserved, r.value.events[p], Sequences)
        && Covers(r.value.events[e.uuid].highestTimestamps, r.value.events[p], Timestamps)
  {
    var id := e.uuid;
    var s1 := Enroll(s, e);
    var s2 := Store(s1, e);
    var s3 := DetectForks(s2, id);
    var s4 := SetTimestamps(s3, id);
    var s5 := SetHighest(s4, id);
    var s6 := SetLowest(s5, id);
    LowestKeepsReports(s5.events, s6.events, e.validator, ObserverOf(e));
    var r := SetRoots(s6, id);
    SetRootsEffect(s6, id);
    if r.Ok? {
      var t := r.value;
      DecoratedKeepsReports(s6.events, t.events);
      var ho := t.events[id].highestObserved;
      var ht := t.events[id].highestTimestamps;
      assert ho == s5.events[id].highestObserved;
      assert ht == s4.events[id].highestTimestamps;
      forall p | p in e.parents
        ensures p in t.events && e.validator in t.events[p].visited
        ensures Covers(ho, t.events[p], Sequences) && Covers(ht, t.events[p], Timestamps)
      {
        assert p != id;
        assert s4.events[p] == s3.events[p] && s5.events[p] == s4.events[p];
        assert SameReports(s3.events[p], t.events[p]);
        CoversTransfer(ho, s4.events[p], t.events[p], Sequences);
        CoversTransfer(ht, s3.events[p], t.events[p], Timestamps);
      }
    }
  }
}

=== FILE: weights.dfy ===
/** Arithmetic shared by both Python engines: validator weight sums, the
    integer two-thirds quorum and the pointwise-max merge of "highest
    observed" dictionaries. */
module Weights {
  import opened Wrappers

  /** Validators are named by strings in the Python engines; here they are
      numbered in the order of their names, so that comparing two numbers
      compares the names as strings, and a set of them can be summed in a
      fixed (ascending) order without changing the sum. */
  type Validator = nat

  // ---------------------------------------------------------------------------
  // Sums of weights over sets of validators

  lemma LeastExists(s: set<nat>)
    requires s != {}
    ensures exists m :: m in s && forall y :: y in s ==> m <= y
    decreases s
  {
    var x :| x in s;
    var below := set y | y in s && y < x;
    if below != {} {
      assert below < s by { assert x !in below; }
      LeastExists(below);
      var m :| m in below && forall y :: y in below ==> m <= y;
      assert forall y :: y in s ==> m <= y by {
        forall y | y in s ensures m <= y {
          if y < x { assert y in below; }
        }
      }
    } else {
      assert forall y :: y in s ==> x <= y by {
        forall y | y in s ensures x <= y {
          assert y !in below;
        }
      }
    }
  }

  /** The smallest member of a non-empty set. */
  function Least(s: set<nat>): (m: nat)
    requires s != {}
    ensures m in s && forall y :: y in s ==> m <= y
  {
    LeastExists(s);
    var m :| m in s && forall y :: y in s ==> m <= y;
    m
  }

  /** The members of `s` in ascending order, each once: a fixed order in
      which to visit a set. */
  function Ascending(s: set<nat>): (xs: seq<nat>)
    ensures forall x :: x in xs <==> x in s
    ensures forall i, j :: 0 <= i < j < |xs| ==> xs[i] < xs[j]
    decreases s
  {
    if s == {} then []
    else
      var m := Least(s);
      var t := Ascending(s - {m});
      assert forall y :: y in t ==> m < y;
      [m] + t
  }

  /** The sum of the weights `w` gives the validators in `s`. */
  function SetSum(s: set<Validator>, w: map<Validator, nat>): nat
    requires s <= w.Keys
    decreases s
  {
    if s == {} then 0 else var v := Least(s); w[v] + SetSum(s - {v}, w)
  }

  /** Any member can be taken out of the sum first. */
  lemma {:induction false} SetSumRemove(s: set<Validator>, w: map<Validator, nat>, x: Validator)
    requires s <= w.Keys && x in s
    ensures SetSum(s, w) == w[x] + SetSum(s - {x}, w)
    decreases s
  {
    var m := Least(s);
    if m != x {
      assert m in s - {x};
      SetSumRemove(s - {m}, w, x);
      var l := Least(s - {x});
      assert l in s;
      assert l == m;
      assert s - {m} - {x} == s - {x} - {m};
    }
  }

  /** The sum over a subset is no larger. */
  lemma {:induction false} SetSumSubset(s: set<Validator>, t: set<Validator>, w: map<Validator, nat>)
    requires s <= t <= w.Keys
    ensures SetSum(s, w) <= SetSum(t, w)
    decreases |t|
  {
    if t != {} {
      var x := Least(t);
      if x in s {
        SetSumRemove(s, w, x);
        SetSumSubset(s - {x}, t - {x}, w);
      } else {
        SetSumSubset(s, t - {x}, w);
      }
    }
  }

  /** The sum only reads the weights of the set's members. */
  lemma {:induction false} SetSumFrame(s: set<Validator>, w: map<Validator, nat>, w': map<Validator, nat>)
    requires s <= w.Keys && s <= w'.Keys
    requires forall v :: v in s ==> w[v] == w'[v]
    ensures SetSum(s, w) == SetSum(s, w')
    decreases s
  {
    if s != {} {
      SetSumFrame(s - {Least(s)}, w, w');
    }
  }

  /** Lowering weights pointwise lowers the sum. */
  lemma {:induction false} SetSumPointwise(s: set<Validator>, w: map<Validator, nat>, w': map<Validator, nat>)
    requires s <= w.Keys && s <= w'.Keys
    requires forall v :: v in s ==> w'[v] <= w[v]
    ensures SetSum(s, w') <= SetSum(s, w)
    decreases s
  {
    if s != {} {
      SetSumPointwise(s - {Least(s)}, w, w');
    }
  }

  /** Changing one member's weight changes the sum by the difference. */
  lemma SetSumUpdate(s: set<Validator>, w: map<Validator, nat>, x: Validator, n: nat)
    requires s <= w.Keys && x in s
    ensures SetSum(s, w[x := n]) + w[x] == SetSum(s, w) + n
  {
    SetSumRemove(s, w, x);
    SetSumRemove(s, w[x := n], x);
    SetSumFrame(s - {x}, w, w[x := n]);
  }

  // ---------------------------------------------------------------------------
  // Quorum

  /** `2 * total // 3 + 1`: the least weight strictly above two thirds of `total`. */
  function Quorum(total: nat): (q: nat)
    ensures 3 * q > 2 * total
    ensures 3 * (q - 1) <= 2 * total
    ensures total >= 1 ==> q <= total
  {
    2 * total / 3 + 1
  }

  /** A larger total never has a smaller quorum. */
  lemma QuorumMonotone(a: nat, b: nat)
    requires a <= b
    ensures Quorum(a) <= Quorum(b)
  {
    assert 2 * a / 3 <= 2 * b / 3;
  }

  // ---------------------------------------------------------------------------
  // "Highest observed" dictionaries

  function Get<K(!new)>(m: map<K, int>, k: K): Option<int> {
    if k in m then Some(m[k]) else None
  }

  /** The larger of two optional values; a missing value loses. */
  function MaxOpt(x: Option<int>, y: Option<int>): Option<int> {
    if x.None? then y
    else if y.None? then x
    else if x.value < y.value then y
    else x
  }

  /** Raise the entry of `k` to `v`, adding it when `k` has none. */
  function RaiseTo<K(!new)>(m: map<K, int>, k: K, v: int): (r: map<K, int>)
    ensures forall x :: Get(r, x) == if x == k then MaxOpt(Get(m, k), Some(v)) else Get(m, x)
  {
    if k !in m || v > m[k] then m[k := v] else m
  }

  /** Merge `b` into `m`: every key of `b` is raised to `b`'s value when `m`
      has it lower or not at all. Each step of the merge reads and writes only
      its own key, so the comprehension states it for every iteration order. */
  function MaxMerge<K(!new)>(m: map<K, int>, b: map<K, int>): (r: map<K, int>)
    ensures forall x :: Get(r, x) == MaxOpt(Get(m, x), Get(b, x))
  {
    map x | x in m.Keys + b.Keys ::
      if x in b && (x !in m || b[x] > m[x]) then b[x] else m[x]
  }

  /** A value dominated by a later one drops out of a running maximum. */
  lemma MaxOptAbsorb(a: Option<int>, b: Option<int>, c: Option<int>)
    requires b.Some? ==> c.Some? && c.value >= b.value
    ensures MaxOpt(MaxOpt(a, b), c) == MaxOpt(a, c)
  {
  }

  /** Merging never lowers or drops an entry. */
  lemma MaxMergeGrows<K(!new)>(m: map<K, int>, b: map<K, int>)
    ensures forall x :: x in m ==> x in MaxMerge(m, b) && MaxMerge(m, b)[x] >= m[x]
    ensures forall x :: x in b ==> x in MaxMerge(m, b) && MaxMerge(m, b)[x] >= b[x]
  {
    var r := MaxMerge(m, b);
    forall x | x in m ensures x in r && r[x] >= m[x] {
      assert Get(r, x) == MaxOpt(Get(m, x), Get(b, x));
    }
    forall x | x in b ensures x in r && r[x] >= b[x] {
      assert Get(r, x) == MaxOpt(Get(m, x), Get(b, x));
    }
  }
}

=== FILE: wrappers.dfy ===
/** Failure-compatible wrappers shared by the whole model.
    `Option` stands for Go's nil pointer / Python's None; `Result` carries the
    Python `KeyError` that a missing dictionary key raises. */
module Wrappers {

  datatype Option<+T> = None | Some(value: T) {

    /** The wrapped value, or `default` for None. */
    function GetOr(default: T): T {
      match this
      case Some(v) => v
      case None => default
    }
  }

  /** The one Python exception the engines can raise on a well-formed state:
      a lookup of a frame that has no root set yet. */
  datatype Error = MissingRootSet(frame: Option<nat>)

  datatype Result<+T> = Ok(value: T) | Failure(error: Error) {

    predicate IsFailure() {
      Failure?
    }

    function PropagateFailure<U>(): Result<U>
      requires Failure?
    {
      Failure(error)
    }

    function Extract(): T
      requires Ok?
    {
      value
    }
  }
}
